=== FILE: README.md ===
# zw3-client core, modelled in Dafny

This project models four components of the zw3-client (an IW4x-based
Modern Warfare 2 client):

- **Party** (`party.dfy`, module `Party`). The join handshake runs in a few steps:
  - `Party::Connect` arms the single `JoinContainer` and sends `getinfo`.
  - The host's `getInfo` handler counts its clients and answers with an info string.
  - The client's `infoResponse` handler consumes the attempt and runs its chain of checks; the first failing check decides the outcome.
  - A passing response leads to a dedicated join, a playlist request or a private-party lobby (`PlaylistContinue`).

  The module also covers the lobby-settings replication. The host's scheduler loop watches seven setting dvars. `BroadcastDvarUpdate` sends them to every eligible party member. A member's `dvarUpdate` handler applies them key by key.
- **ZW3Auth** (`auth.dfy`, module `Auth`) covers:
  - percent-encoding, query strings and URL assembly;
  - the session tokens and the authorization header;
  - the login and Discord-start reply handlers and the Discord device-flow poller, whose error codes follow section 3.5 of RFC 8628;
  - the `openmenu` gate that sends a player who is neither signed in nor a guest to the sign-in menu.
- **Menus** (`menus.dfy`, module `Menus`) covers:
  - the keyword hash of the menu parser;
  - the source-handle table;
  - `RemoveMenuFromContext` on a UI context's two menu arrays;
  - the override bookkeeping of menus loaded from disk: `AfterLoadedMenuFromDisk`, `PrepareToUnloadMenu`, `UnloadMenuFromDisk`, `LoadScriptMenu`;
  - the name normalisation of `MenuFindHook`.
- **FileSystem** (`filesystem.dfy`, module `FileSystem`) covers:
  - the start-up cleanup of an old install: which files `shouldDelete` picks, and how the deletion loop counts them and drives the progress dialog;
  - the backup-slot choice of `FileWrapper_Rotate`;
  - the null filtering of `GetFileList`;
  - the guards of `FileReader::read` and `ReadFile`.

`text.dfy` (module `Text`) holds the pieces of the C library that the four components use. It follows the Windows build, where `long` is 32 bits wide:
- `tolower`, `isalnum`, `isdigit` and `isspace` in the "C" locale;
- `strtol` and `strtoul` in base 10;
- `std::stoi` and `std::to_string`.

The engine, the network, the clock and the file system are parameters. A handler is given the facts it would have read, such as `LocalFacts`, `HostFacts`, a `Reply` record for an HTTP reply, or what a delete or a rename reports. It returns what it would have sent or started. State that the source changes in place is held in classes:
- `JoinContainer` and `PartyState` for Party;
- `AuthState` for ZW3Auth;
- `SourceTable`, `UiContext` and `MenuSystem` for Menus.

Each method is proved equal to a pure step function of the old state, and the properties are proved about those functions.

## Model

| member | source | states |
|---|---|---|
| Party.JoinContainer.constructor | src/Components/Modules/Party.cpp:23-50 | the static container starts with no attempt: not valid, no playlist wait, empty challenge, MOTD and info, no match type |
| Party.PartyState.constructor | src/Components/Modules/Party.cpp:337-343 | the seven setting dvars start at their registered defaults, which lie in their domains; the change detector's seven last values start at -1; no lobby and no xuid is known |
| Party.JoinContainer.Connect | src/Components/Modules/Party.cpp:79-102 | a new attempt overwrites any attempt in flight: valid, not awaiting a playlist, target, join time and challenge set; the getinfo request carries that challenge |
| Party.PartyState.LobbyInfo | src/Components/Modules/Party.cpp:104-122 | "212" for an unknown lobby or key; otherwise the address or port printed with %d, which strtoul/strtol read back as the registered value |
| Party.SignedWordText | src/Components/Modules/Party.cpp:112 | a 32-bit IP word printed as a signed int reads back through strtoul as the same word |
| Party.PortText | src/Components/Modules/Party.cpp:117 | a port printed with %d reads back through strtol unchanged |
| Party.PartyState.RemoveLobby | src/Components/Modules/Party.cpp:124-127 | the lobby id leaves the lobby map and nothing else changes |
| Party.PlaylistContinue | src/Components/Modules/Party.cpp:157-188 | the new state and outcome are those of ContinueStep: the target is registered under the new lobby id and joined; a loopback target first takes the local IP, when one is known, and becomes a plain IP address, and the registered address always keeps the target's port |
| Party.LobbyTarget | src/Components/Modules/Party.cpp:170-183 | a loopback target with a known local IP gets that IP and stops being loopback; the port is always kept; any other target is unchanged |
| Party.JoinContainer.PlaylistError | src/Components/Modules/Party.cpp:190-196 | the attempt and the playlist wait both end, and the error is shown |
| Party.ScanLimit | src/Components/Modules/Party.cpp:229-232 | the number of slots scanned is 4 for a non-positive party size, otherwise the size capped at the 18 slots |
| Party.BroadcastDvarUpdate | src/Components/Modules/Party.cpp:223-300 | the payload holds the seven settings; the recipients are the eligible members of the scanned slots in slot order, and there are none unless hosting a party with members |
| Party.RecipientsExactly | src/Components/Modules/Party.cpp:260-299 | an address receives the update exactly when some scanned slot holds an active, non-local member whose xuid is registered at that address (not 127.0.0.1); never more sends than slots |
| Party.JoinContainer.Tick | src/Components/Modules/Party.cpp:476-495 | an attempt times out strictly after 10000 ms, a playlist wait strictly after 5000 ms; each timeout shows its message, in that order |
| Party.CountClients | src/Components/Modules/Party.cpp:526-557 | the loop's bot, client and slot counts equal HostCounts: counted from the client slots while a server runs, from the party (default 18 slots) otherwise |
| Party.CountsPartitionSlots | src/Components/Modules/Party.cpp:533-550 | each client slot is counted at most once, as a bot or as a real client, and exactly once when every slot is active with a game entity |
| Party.ClassifyMatch | src/Components/Modules/Party.cpp:601-624 | the announced match type is party lobby, private party, dedicated match or no match, each exactly under its own combination of party_host, party enable and sv_running |
| Party.OnGetInfo | src/Components/Modules/Party.cpp:499-628 | the sender is recorded under a non-zero xuid and no other entry changes; the reply is HostResponse |
| Party.HostResponseCarries | src/Components/Modules/Party.cpp:499-628 | the host's reply echoes the challenge, and the client reads back its match type and its seven settings unchanged |
| Party.Consume | src/Components/Modules/Party.cpp:639-686 | the writes made before any check, equal to ConsumeStep: attempt consumed, the response stored, the seven settings parsed with strtol and set, each only within its domain, the match type parsed, download dvars set; settings within their domains stay so |
| Party.Rejection | src/Components/Modules/Party.cpp:688-740 | a response the chain rejects ends in an error, a download, a security-level increase or a reconnect, never in a join |
| Party.RejectionIffChecksFail | src/Components/Modules/Party.cpp:688-740 | the chain lets a response through exactly when every check passes and the map is installed |
| Party.ChallengeMismatchAborts | src/Components/Modules/Party.cpp:688-693 | a wrong challenge is refused first, whatever else the response says, and neither the MOTD nor the lobby map changes |
| Party.FullServerIsRefused | src/Components/Modules/Party.cpp:764-767 | a dedicated server reporting at least as many clients as slots is refused as full |
| Party.Admit | src/Components/Modules/Party.cpp:740-801 | the tail of the handler equals AdmitStep on the whole client state, and it reports no server-list update exactly when it returns early on client counts that do not parse |
| Party.AdmitOutcome | src/Components/Modules/Party.cpp:742-801 | once the checks pass, the match type alone picks the join: dedicated only when both counts parse and a slot is free, playlist request for a party lobby, lobby join otherwise; the MOTD is stored; the server list is updated unless the client counts do not parse |
| Party.AdmitEffects | src/Components/Modules/Party.cpp:742-800 | what each join writes: the lobby map gains exactly the joined lobby, a playlist wait starts at now with the password, a dedicated join sets the private-server flag and the version |
| Party.OnInfoResponse | src/Components/Modules/Party.cpp:630-808 | the handler equals InfoResponseStep on the whole client state and on whether the server list is updated, and the xuid directory is untouched |
| Party.StaleResponseIgnored | src/Components/Modules/Party.cpp:635-637 | a response from anyone but the target of a valid attempt changes nothing |
| Party.ResponseConsumesAttempt | src/Components/Modules/Party.cpp:639-686 | a matching response consumes the attempt, so every later response is ignored until the next Connect; the settings it carries are always set, each one that lies in its domain |
| Party.JoinOnlyWhenChecksPass | src/Components/Modules/Party.cpp:688-808 | each kind of join happens exactly when all checks pass and the match type selects it; the server-list update is skipped exactly on the two early returns, an uninstalled map and client counts that do not parse |
| Party.JoinEffects | src/Components/Modules/Party.cpp:740-801 | over the whole handler: only a lobby join touches the lobby map, at the joined id and address |
| Party.DedicatedHandshakeJoins | src/Components/Modules/Party.cpp:499-808 | a dedicated host with room, answering the client's own getinfo, passes every check and is joined with the map and game type it announced |
| Party.SetDvar | src/Components/Modules/Party.cpp:337-343 | a set takes the value exactly when it lies in the dvar's registered domain (or equals the current value); a refused set keeps the current value, so a dvar never leaves its domain |
| Party.SetSettingsInDomain | src/Components/Modules/Party.cpp:660-666 | setting the seven dvars keeps them within their domains, takes values within the domains as they are, and leaves a dvar whose new value is refused unchanged |
| Party.OnDvarUpdate | src/Components/Modules/Party.cpp:810-847 | the member's settings become ApplyDvarUpdate of the old ones, and settings within their domains stay so |
| Party.ApplyKeepsAbsent | src/Components/Modules/Party.cpp:814-836 | a setting with an empty value keeps its current value; any other takes the stoi of the payload's value when it lies in the dvar's domain and keeps the current value when the set is refused; the settings stay within their domains |
| Party.ApplyIdempotent | src/Components/Modules/Party.cpp:810-847 | applying the same update twice is the same as applying it once |
| Party.BroadcastConverges | src/Components/Modules/Party.cpp:249-255 | for host settings within their domains, as dvars always are, the host's payload is well formed and a member that applies it holds exactly the host's settings |
| Party.SettingsTick | src/Components/Modules/Party.cpp:851-879 | lastValues becomes the current values of the seven setting dvars; a broadcast happens exactly when some value differs from the last pass, and it carries UpdatePayload of those same values, so with BroadcastConverges every member that applies it ends with the host's settings |
| Text.ReadersInRange | src/Components/Modules/Party.cpp:653-672 | strtol stays within long and strtoul within unsigned long; both give 0 and stoi fails when no digit is read; a stoi result is what strtol reads |
| Text.StoiOfIntToString | src/Components/Modules/Party.cpp:754-755 | stoi and strtol give back every int that std::to_string printed |
| Text.StrtoulOfIntToString | src/Components/Modules/Party.cpp:112 | strtoul reads back the 32-bit word that %d printed as a signed int |
| Auth.AuthState.constructor | src/Components/Modules/ZW3Auth.cpp:23-37 | the statics start signed out, in guest mode, with token type "Bearer" and no Discord flow |
| Auth.OpenMenu | src/Components/Modules/ZW3Auth.cpp:74-95 | nothing unless exactly one argument is given; a player neither signed in nor a guest only ever gets one of the two auth menus; anyone else gets the menu asked for |
| Auth.GateAfterSignOut | src/Components/Modules/ZW3Auth.cpp:74-95 | after PlayAsGuest any menu opens; after Logout the sign-in menu opens instead, with the key catcher |
| Auth.AuthHeader | src/Components/Modules/ZW3Auth.cpp:191-199 | the header is empty exactly when there is no access token |
| Auth.AuthState.GetAuthHeader | src/Components/Modules/ZW3Auth.cpp:191-199 | the header is that of the current session |
| Auth.AuthHeaderSplits | src/Components/Modules/ZW3Auth.cpp:198 | a signed-in header splits at its first space into the token type and the access token |
| Auth.AuthState.StartLogin | src/Components/Modules/ZW3Auth.cpp:201-214 | guest mode goes off; a request is made only when both credentials are non-empty |
| Auth.AuthState.OnLoginReply | src/Components/Modules/ZW3Auth.cpp:227-272 | the session after the reply equals LoginReplyStep of the old one |
| Auth.LoginTokenSelection | src/Components/Modules/ZW3Auth.cpp:229-269 | the password is always cleared, and a failed reply changes nothing else; session_token overrides access_token and brings Bearer; token_type overrides both |
| Auth.SessionTokenSignsIn | src/Components/Modules/ZW3Auth.cpp:255-259 | a reply with a non-empty session token and no type signs in with "Bearer <token>" |
| Auth.AuthState.StartDiscord | src/Components/Modules/ZW3Auth.cpp:381-383 | guest mode goes off and nothing else changes |
| Auth.AuthState.OnDiscordStart | src/Components/Modules/ZW3Auth.cpp:424-472 | the session and outcome after the start reply equal DiscordStartStep |
| Auth.DiscordStartArms | src/Components/Modules/ZW3Auth.cpp:445-468 | a usable reply with a URL and a state (its own or the ticket's) starts the flow on that state and URL and opens the URL unless it is empty; the poll interval is the reply's `interval` as GetInt reads it, else 5 s; the first poll is one interval away; expiry is the reply's `expires_in` away, else 600 s; the tokens are untouched |
| Auth.DiscordStartRefused | src/Components/Modules/ZW3Auth.cpp:426-454 | the start fails exactly when the reply is unreachable, not an object, carries an error, or lacks the URL or any state; a failure leaves the session unchanged and reports the unreachable, invalid, error or missing-state message in that order |
| Auth.AuthState.PollDiscord | src/Components/Modules/ZW3Auth.cpp:476-631 | one tick equals PollTickStep |
| Auth.PollSchedule | src/Components/Modules/ZW3Auth.cpp:476-631 | a poll goes out exactly when a flow is active, due and unexpired, with its state, pushing the next poll one interval on; an expired flow is reset; otherwise nothing changes |
| Auth.AuthState.OnPollReply | src/Components/Modules/ZW3Auth.cpp:518-624 | the session and result after a poll reply equal PollReplyStep |
| Auth.PollErrorCodes | src/Components/Modules/ZW3Auth.cpp:531-555 | authorization_pending changes nothing; slow_down adds 5 s and waits that long; access_denied, cancelled and expired_token end the flow; the tokens are never touched |
| Auth.PollSuccess | src/Components/Modules/ZW3Auth.cpp:587-623 | an ok reply installs the session token; the flow ends exactly when an access token is then held, and continues otherwise |
| Auth.AuthState.Logout | src/Components/Modules/ZW3Auth.cpp:645-658 | tokens, ticket and URL cleared, type Bearer, guest off, flow reset |
| Auth.AuthState.PlayAsGuest | src/Components/Modules/ZW3Auth.cpp:660-665 | Logout, then guest mode on |
| Auth.SignedOutIsIdle | src/Components/Modules/ZW3Auth.cpp:645-665 | after Logout or PlayAsGuest nobody is signed in, no header is sent, and the poller stays idle |
| Auth.JoinUrlOneSlash | src/Components/Modules/ZW3Auth.cpp:667-681 | base and path always meet at exactly one '/' |
| Auth.BuildUrlUnderBase | src/Components/Modules/ZW3Auth.cpp:667-681 | every service URL starts with the base URL |
| Auth.UrlDecodeOfEncode | src/Components/Modules/ZW3Auth.cpp:700-719 | decoding the encoding of any byte string gives it back |
| Auth.UrlEncodeOfDecode | src/Components/Modules/ZW3Auth.cpp:700-719 | every string the decoder accepts is the encoding of what it decodes to, so canonical encodings are unique |
| Auth.UrlEncodeLength | src/Components/Modules/ZW3Auth.cpp:706-716 | the encoding is the input's length plus two per reserved byte |
| Auth.UrlEncodeUnreserved | src/Components/Modules/ZW3Auth.cpp:708-711 | a string of unreserved characters is its own encoding |
| Auth.UrlEncodeAlphabet | src/Components/Modules/ZW3Auth.cpp:706-716 | the encoding holds only unreserved characters and '%' |
| Auth.HexDigitValue | src/Components/Modules/ZW3Auth.cpp:703-714 | every hex digit the encoder writes reads back as its value |
| Auth.JoinParamsSplits | src/Components/Modules/ZW3Auth.cpp:729-739 | the fields joined with '&' split back into as many fields as pairs, each parsing to its pair |
| Auth.QueryRoundTrip | src/Components/Modules/ZW3Auth.cpp:721-742 | reading a built query back gives the pairs in order; the empty list gives "" |
| Auth.ParamRoundTrip | src/Components/Modules/ZW3Auth.cpp:731-734 | one encoded key=value field parses back to its pair |
| Auth.GetInt | src/Components/Modules/ZW3Auth.cpp:762-775 | a member is read exactly when it fits int64; an int member is returned as it is; a wider int64 member gives the int with the same low 32 bits, so a result always fits an int |
| Menus.Wrap32 | src/Components/Modules/Menus.cpp:50-53 | the int accumulator after wrap-around: in int range and congruent to the true sum modulo 2^32 |
| Menus.KeywordKey | src/Components/Modules/Menus.cpp:47-56 | the key of any keyword is a bucket of 0..127 |
| Menus.HashSumOfLower | src/Components/Modules/Menus.cpp:53 | lower-casing a keyword first does not change its hash sum |
| Menus.KeywordHashKey | src/Components/Modules/Menus.cpp:47-56 | the loop computes KeywordKey: the sum with 32-bit wrap, folded into 0..127 |
| Menus.KeyOfSum | src/Components/Modules/Menus.cpp:55 | the fold (h + (h >> 8)) & 127 always lands in a bucket of 0..127 |
| Menus.KeywordKeyIgnoresCase | src/Components/Modules/Menus.cpp:47-56 | keywords that are equal but for case hash to the same bucket |
| Menus.KeywordHashFind | src/Components/Modules/Menus.cpp:58-68 | an entry is found only in the keyword's bucket, and only when its keyword matches case-insensitively |
| Menus.FindAnyCase | src/Components/Modules/Menus.cpp:58-68 | an entry filed under its own bucket is found by its keyword written in any case |
| Menus.SourceTable.constructor | src/Components/Modules/Menus.cpp:7 | the table has MAX_SOURCEFILES (64) slots, all empty |
| Menus.FirstFree | src/Components/Modules/Menus.cpp:70-88 | the result is the smallest empty slot of 1..63, or 0 when every one is taken |
| Menus.SourceTable.ReserveSourceHandle | src/Components/Modules/Menus.cpp:70-93 | the smallest empty slot is marked taken and returned, and no other slot changes; 0 and no change when full |
| Menus.SourceTable.LoadMenuSource | src/Components/Modules/Menus.cpp:123-151 | a handle is returned, and its slot taken, only when a slot was free and the script could be allocated; otherwise 0 and the table is as it was |
| Menus.SourceTable.LoadAndFreeSource | src/Components/Modules/Menus.cpp:284-318 | a menu file's source gets the first free handle when its script can be allocated (0 otherwise), and once it is freed after parsing the source table is exactly as before |
| Menus.SourceTable.FreeMenuSource | src/Components/Modules/Menus.cpp:492-539 | an invalid handle changes nothing; a valid one's slot is emptied |
| Menus.UiContext.constructor | src/Components/Modules/Menus.cpp:30-33 | a context starts with no loaded and no open menus |
| Menus.RemoveAt | src/Components/Modules/Menus.cpp:339-345 | the menus after position i move down one place, the vacated last slot is nulled, and the rest of the array is unchanged |
| Menus.RemoveAll | src/Components/Modules/Menus.cpp:326-371 | the array now starts with the old menus less every occurrence of m, in order; the count falls by the number of occurrences; the vacated slots are null; the slots beyond the old count are unchanged |
| Menus.WithoutFacts | src/Components/Modules/Menus.cpp:326-371 | removal drops every occurrence of m and keeps every other menu as often as it was there |
| Menus.UiContext.RemoveMenu | src/Components/Modules/Menus.cpp:326-371 | both arrays become RemoveFrom of the old context, neither count grows, and the vacated slots are null |
| Menus.RemoveFromDrops | src/Components/Modules/Menus.cpp:326-371 | m leaves both arrays, and the loaded count drops by its number of occurrences |
| Menus.RemoveFromKeeps | src/Components/Modules/Menus.cpp:326-371 | every other menu keeps its number of occurrences in both arrays |
| Menus.FindByName | src/Components/Modules/Menus.cpp:729 | the first loaded menu with the name, case aside, or Null exactly when there is none |
| Menus.ExistingOther | src/Components/Modules/Menus.cpp:721-737 | the menu found is never the new one, carries the name and is loaded in a context; when the new menu is not loaded yet, none is found exactly when no context knows the name |
| Menus.UiContext.Contains | src/Components/Modules/Menus.cpp:765-771 | the search loop finds m exactly when it is among the loaded menus |
| Menus.UiContext.AddMissing | src/Components/Modules/Menus.cpp:773-784 | m is appended when it is missing and the array has room, otherwise nothing changes |
| Menus.AppendMissingAdds | src/Components/Modules/Menus.cpp:773-784 | m is loaded afterwards exactly when it was already or there was room; it is never past the capacity and never there twice; the open menus stay |
| Menus.AppendMissingKeeps | src/Components/Modules/Menus.cpp:773-784 | appending keeps every other menu as often as it was there |
| Menus.MenuSystem.constructor | src/Components/Modules/Menus.cpp:30-38 | both contexts empty; no disk menus, menu lists or override records |
| Menus.AfterLoadedStep | src/Components/Modules/Menus.cpp:716-812 | the step leaves the disk menus and menu lists alone |
| Menus.MenuSystem.AfterLoadedMenuFromDisk | src/Components/Modules/Menus.cpp:716-812 | the state becomes AfterLoadedStep of the old one |
| Menus.AfterLoadedPlaces | src/Components/Modules/Menus.cpp:739-787 | an overridden game menu leaves every array of both contexts; the disk menu is in uiContext's loaded menus, once, when there was room; cgDC never gains it |
| Menus.AfterLoadedKeepsOpen | src/Components/Modules/Menus.cpp:716-812 | the open-menu stacks only lose the overridden game menu: loading never pushes onto a stack |
| Menus.AfterLoadedRecords | src/Components/Modules/Menus.cpp:739-761 | the override record keeps an earlier original, or records the game menu replaced, or Null for a new menu; no other name changes |
| Menus.PrepareUnloadStep | src/Components/Modules/Menus.cpp:658-714 | the step leaves the disk menus and menu lists alone |
| Menus.MenuSystem.PrepareToUnloadMenu | src/Components/Modules/Menus.cpp:658-714 | the state becomes PrepareUnloadStep of the old one |
| Menus.PrepareUnloadForgets | src/Components/Modules/Menus.cpp:708-713 | the name's override record is gone, and no other record changes |
| Menus.PrepareUnloadRestores | src/Components/Modules/Menus.cpp:675-706 | the disk menu leaves every array of both contexts; its recorded original is back in each context's loaded menus where it was or where there was room |
| Menus.PrepareUnloadKeepsOpen | src/Components/Modules/Menus.cpp:675-706 | the open stacks gain nothing and lose only the unloaded menu |
| Menus.ReinstateFacts | src/Components/Modules/Menus.cpp:684-705 | in one context, the original is put back only when missing and there is room, never past the capacity |
| Menus.OverrideRoundTrip | src/Components/Modules/Menus.cpp:658-812 | loading a disk menu that overrides a game menu and then unloading it: the disk menu is gone, the game menu is back in each context where it was or where there was room, and the open stacks are the old ones less the game menu |
| Menus.OverrideRoundTripForgets | src/Components/Modules/Menus.cpp:658-812 | the same round trip leaves the override records as they were |
| Menus.MenuSystem.UnloadMenuFromDisk | src/Components/Modules/Menus.cpp:1325-1333 | the state becomes UnloadStep of the old one |
| Menus.UnloadStep | src/Components/Modules/Menus.cpp:1325-1333 | afterwards the name is no longer filed, and no other name changes |
| Menus.MenuSystem.FilterOverrides | src/Components/Modules/Menus.cpp:397-419 | the erase loop keeps exactly KeepOverrides of the loaded menus |
| Menus.KeepOverridesFacts | src/Components/Modules/Menus.cpp:397-419 | the filter keeps exactly the menus whose names a context knows, in their order |
| Menus.TrackStep | src/Components/Modules/Menus.cpp:423-437 | after tracking one menu it is filed under its name, every other filed name stays, and the lists are unchanged |
| Menus.MenuSystem.TrackMenu | src/Components/Modules/Menus.cpp:425-436 | one pass of the tracking loop is TrackStep of the old state |
| Menus.TrackAll | src/Components/Modules/Menus.cpp:423-437 | the whole loop keeps every disk menu filed under its own name and leaves the lists alone |
| Menus.MenuSystem.TrackMenus | src/Components/Modules/Menus.cpp:423-437 | the loop's state is TrackAll of the old state over the kept menus |
| Menus.TrackAllFiles | src/Components/Modules/Menus.cpp:423-437 | after tracking, the filed names are the old ones plus every tracked menu's name, and the last menu tracked is filed under its name |
| Menus.MenuSystem.LoadScriptMenu | src/Components/Modules/Menus.cpp:387-480 | the state becomes LoadScriptStep of the old one |
| Menus.LoadScriptFacts | src/Components/Modules/Menus.cpp:387-480 | an empty load, or an override-only load that overrides nothing, changes nothing; otherwise the list records exactly the kept menus, each filed under its name |
| Menus.AfterLastSeparator | src/Components/Modules/Menus.cpp:1704-1705 | the result is a suffix of the name and holds no '/' or '\' |
| Menus.ShortName | src/Components/Modules/Menus.cpp:1703-1708 | the name looked up never contains a '/' or '\' |
| Menus.AfterLastSeparatorOfPath | src/Components/Modules/Menus.cpp:1704-1705 | everything up to the last separator of a path is dropped |
| Menus.ShortNameOfPath | src/Components/Modules/Menus.cpp:1703-1708 | "dir/name.menu", with either separator, maps to name |
| Menus.ShortNameOfPlain | src/Components/Modules/Menus.cpp:1703-1708 | a bare name is looked up as it is, and ".menu" alone is not stripped |
| Menus.FindHook | src/Components/Modules/Menus.cpp:1693-1722 | a disk menu is returned exactly when one is filed under the short name, and it is that one; Null otherwise |
| Menus.MenuSystem.MenuFindHook | src/Components/Modules/Menus.cpp:1693-1722 | the hook returns a menu exactly when one is filed under the short name |
| FileSystem.JoinPath | src/Components/Modules/FileSystem.cpp:241 | a joined relative path ends with its last component, and is longer than it when there are directories |
| FileSystem.LastIndexOf | src/Components/Modules/FileSystem.cpp:270 | the index found holds the character, and none follows it; none means the character is absent |
| FileSystem.ExtensionIwd | src/Components/Modules/FileSystem.cpp:270 | path::extension() is ".iwd" exactly when the name ends in ".iwd" with something before it |
| FileSystem.ShouldDeleteExactly | src/Components/Modules/FileSystem.cpp:239-278 | a file is deleted exactly when its lower-cased relative path is outside "zw3/" and it is one of the four legacy files or an old map archive |
| FileSystem.CurrentTreeKept | src/Components/Modules/FileSystem.cpp:250-260 | nothing under "zw3/", in any case, is deleted, including the short paths the length test lets through |
| FileSystem.KeptFilesUnderPrefix | src/Components/Modules/FileSystem.cpp:250-260 | the three named current files also fall under the "zw3/" rule |
| FileSystem.LegacyFilesDeleted | src/Components/Modules/FileSystem.cpp:262-268 | the four legacy paths are deleted whatever their case |
| FileSystem.MapArchiveNameLength | src/Components/Modules/FileSystem.cpp:270-275 | an old map archive's name has at least the 7 characters of "mp_" and ".iwd" |
| FileSystem.MapArchiveOutsideGap | src/Components/Modules/FileSystem.cpp:257-275 | an old map archive is never in the short-path gap of the "zw3/" rule |
| FileSystem.OutcomeOf | src/Components/Modules/FileSystem.cpp:340-393 | a file is counted deleted only if it exists and was classified; a fatal exit only comes from a classified existing file that DeleteFileW could not remove |
| FileSystem.Cleanup | src/Components/Modules/FileSystem.cpp:320-394 | nothing runs unless some file was classified; otherwise the counters count the outcomes of the files looked at, up to the first fatal one; the exit happens exactly when some file is fatal; the dialog refreshes are Updates |
| FileSystem.DeleteLegacy | src/Components/Modules/FileSystem.cpp:326-394 | the counting loop's deleted and skipped counters and refreshes for a given legacy set |
| FileSystem.Processed | src/Components/Modules/FileSystem.cpp:330-394 | the loop looks at every file up to and including the first fatal one, and at all of them when none is fatal |
| FileSystem.ProcessedAtFatal | src/Components/Modules/FileSystem.cpp:370-392 | the loop stops right after the first file it cannot remove |
| FileSystem.CountsPartition | src/Components/Modules/FileSystem.cpp:340-393 | every file falls in exactly one of deleted, skipped and fatal |
| FileSystem.ProcessedAccounts | src/Components/Modules/FileSystem.cpp:330-394 | deleted + skipped, plus one for an exit, is the number of files looked at |
| FileSystem.NothingOutsideLegacyDeleted | src/Components/Modules/FileSystem.cpp:341-351 | a file that is gone or was not classified is skipped, never deleted |
| FileSystem.UpdatesFacts | src/Components/Modules/FileSystem.cpp:332-338 | the dialog refreshes at file 1, at the last file and at every 25th, in increasing order, each with a percentage in 0..100 |
| FileSystem.UpdatesEnds | src/Components/Modules/FileSystem.cpp:332-338 | the first refresh is at file 1; a completed pass ends with a refresh at 100 percent |
| FileSystem.FileWrapperRotate | src/Components/Modules/FileSystem.cpp:804-852 | nothing to rotate when the file is missing; otherwise rename into the first free slot, or, with all 20 taken, into the oldest backup's slot (the first on ties); the result is the rename's |
| FileSystem.Pad3 | src/Components/Modules/FileSystem.cpp:822 | the index is written with three zero-filled digits that read back as the index |
| FileSystem.BackupNamesDistinct | src/Components/Modules/FileSystem.cpp:820-845 | distinct slots have distinct backup file names |
| FileSystem.NonNull | src/Components/Modules/FileSystem.cpp:566-572 | the list of names is never longer than the engine's listing |
| FileSystem.GetFileList | src/Components/Modules/FileSystem.cpp:557-578 | a null listing gives no names; otherwise the non-null names, in order |
| FileSystem.NonNullMembers | src/Components/Modules/FileSystem.cpp:566-572 | a name is listed exactly when the engine returned it |
| FileSystem.NonNullAppend | src/Components/Modules/FileSystem.cpp:566-572 | filtering keeps the engine's order: it filters each part on its own |
| FileSystem.NonNullOfNames | src/Components/Modules/FileSystem.cpp:566-572 | a listing without nulls is kept whole |
| FileSystem.ReaderReadWhole | src/Components/Modules/FileSystem.cpp:459-502 | for every reported size, a read succeeds exactly when the reader exists (a handle and a non-negative size), the request fits in the size and FS_Read returns every byte; a reader that does not exist never reads |
| FileSystem.ReadFile | src/Components/Modules/FileSystem.cpp:610-629 | the size is returned, with a buffer of size + 1, exactly when both pointers are given, the file exists with a size and the whole file is read; -1 otherwise, and the buffer is cleared exactly when the read itself failed |

## Left out

- Network I/O, `Utils::InfoString` parsing and building, `Node::Add`, `ServerList::Insert` and `Friends::UpdateServer`. The handlers return what they would send. The infoResponse handler returns a flag saying whether it reached the server-list update.
- `TextRenderer::StripMaterialTextIcons` is not part of this model. The stored message of the day is the raw `sv_motd`.
- `Party::Connect`'s challenge generator, `GenerateLobbyId`, and the xuid's hexadecimal parsing with `std::stoull` are parameters. Throwing `stoull` exceptions are not modelled.
- The commands that Party registers (`connect`, `reconnect` and others), the UI dvar hooks, and `Download::InitiateMapDownload` and `InitiateClientDownload` are not modelled. A download is an outcome.
- Party.JoinContainer.Tick does not model the wrap-around of the DWORD millisecond clock. Times are unbounded integers.
- Auth.PollSchedule does not model `int` overflow of `intervalSeconds`, or of the time points, after repeated slow_down replies.
- HTTP requests, JSON parsing, `BuildJson`, `GetDeviceGuid`, toasts and the scheduler's thread hops are left out. `StartRegister` and `StartActivation` are not modelled either: they hold no state beyond the toasts they show.
- The username POST of the Discord poll is an outcome (`SubmitUsername`); its result only shows a toast. The mutex around the flow is left out, as the model is sequential.
- `Menus_FindByName` is engine code that is not part of this model. It is modelled as the first loaded menu whose window name matches case-insensitively.
- Menu parsing and freeing (`ParseMenu`, the token loop of `LoadMenuByName_Recursive` and its nested `loadmenu` files, `FreeMenuOnly`, `FreeMenuListOnly`, the reallocation helpers), the allocator failures in `LoadScriptMenu`, and `ReloadDiskMenus` and `CheckMenus` are left out.
- A null `UiContext` is not modelled: both contexts always exist.
- When `PrepareToUnloadMenu` restores an overridden menu, it appends the menu at the end of the loaded menus. The model keeps that order, so the menu's position may differ from the one it had before the override.
- In the file-system cleanup, the directory walk and the roots are inputs, given as the list of files found.
- Cleanup treats the file system as an oracle: whether a file still exists when the loop reaches it, and what `DeleteFileW` or `remove` report, are per-file inputs. For a path found under two roots, each visit has its own answers.
- The `MessageBoxA` dialogs, `std::exit` and `Sleep` become the `exited` flag and the list of progress refreshes.
- Debug prints and log output are not modelled.
- The dvar engine (`Dvar::Register`, `Dvar::Var::set`) is not part of this model. A set is modelled as the engine's domain check: a value outside the range or enumeration a setting dvar was registered with is refused and the dvar keeps its value.
- FileSystem.FileWrapperRotate does not model `last_write_time` errors or `RemoveFile`'s result, which the source ignores.
- Menus.SourceTable.LoadAndFreeSource keeps only the source handle's life in `LoadMenuByName_Recursive`; a nested `loadmenu` file takes and frees its own handle in between, and the model leaves that out.

## Notes on the code

- The infoResponse handler has two early returns that skip `ServerList::Insert` and `Friends::UpdateServer` (Party.cpp:806-807). One is taken when the map is not installed (Party.cpp:740). The other is taken when `clients` or `sv_maxclients` does not parse (Party.cpp:758-762).
- The seven settings dvars are written from any response from the target of a valid attempt before its challenge is compared (Party.cpp:645-667).
- The challenge is compared for every match type, before any other check (Party.cpp:688-693).
- The host sends `isPrivate` as "1" exactly when the `g_password` dvar pointer is non-null (Party.cpp:566). The password's value is not consulted.
- `PrepareToUnloadMenu` puts a restored original menu back into each of the two UI contexts (Menus.cpp:675-705).
- In `shouldDelete`, the ".iwd" extension and the "main" parent folder are compared as written. Only the "mp_" prefix and the relative path are lower-cased (FileSystem.cpp:239-278).
- The three files kept by name in `shouldDelete` all start with "zw3/", so the rule that follows keeps them as well (FileSystem.cpp:250-260).
- The seven setting dvars are registered with domains (Party.cpp:337-343): `zombiemode` is an enumeration of three values, `addBots` takes 0 to 3 and the other five take 0 or 1. A set outside a domain is refused by the engine, and `parseAndSetDvar` reads the dvar back after setting it (Party.cpp:826-833). The model's settings therefore stay within their domains on every path.
- Auth.DiscordStartStep: when the start reply carries `state` and the ticket has no fallback state, `state.value_or(*fallbackState)` (ZW3Auth.cpp:450-456) still evaluates `*fallbackState`, which dereferences an empty optional. That is undefined behaviour, and a debug build asserts. The model gives the release-build result, the reply's state.

=== FILE: auth.dfy ===
/** The ZW3Auth component: percent-encoding and URL assembly for the
    authentication service, the session tokens and the authorization
    header built from them, the Discord device-authorization poller, and
    the openmenu gate that sends an unauthenticated player to the sign-in
    menu.

    HTTP requests, JSON parsing, toasts and the scheduler's thread hops
    are outside the model: a request is an outcome the handler returns, a
    reply is a Reply record holding what GetString and GetInt would return
    for each member, and the clock is an integer number of seconds passed
    in by the caller. */
module Auth {
  import opened Text

  // ---------------------------------------------------------------------
  // Percent-encoding

  /** The unreserved characters of section 2.3 of RFC 3986: ASCII letters
      and digits (isalnum in the "C" locale) and - _ . ~ */
  predicate IsUnreserved(c: char)
  {
    IsAlnum(c) || c == '-' || c == '_' || c == '.' || c == '~'
  }

  /** An upper-case hexadecimal digit, as std::hex with std::uppercase
      prints it (section 2.1 of RFC 3986 names these as the canonical
      form). */
  function HexDigit(d: nat): char
    requires d < 16
  {
    if d < 10 then ('0' as int + d) as char else ('A' as int + d - 10) as char
  }

  /** The value of an upper-case hexadecimal digit. */
  function HexValue(c: char): Option<nat>
  {
    if '0' <= c <= '9' then Some(c as int - '0' as int)
    else if 'A' <= c <= 'F' then Some(c as int - 'A' as int + 10)
    else None
  }

  /** One input byte as the encoder writes it: unchanged when unreserved,
      otherwise '%' and two upper-case hex digits of its value. */
  function EncodeByte(c: Byte): string
  {
    if IsUnreserved(c) then [c] else ['%', HexDigit(c as int / 16), HexDigit(c as int % 16)]
  }

  /** ZW3Auth::UrlEncode */
  function UrlEncode(s: seq<Byte>): string
  {
    if s == [] then [] else EncodeByte(s[0]) + UrlEncode(s[1..])
  }

  /** The inverse of UrlEncode: accepts exactly the canonical encodings
      (unreserved characters as they are, every other byte as an upper-case
      triplet) and gives back the bytes. */
  function UrlDecode(t: string): Option<seq<Byte>>
    decreases |t|
  {
    if t == [] then Some([])
    else if IsUnreserved(t[0]) then
      var rest := UrlDecode(t[1..]);
      if rest.None? then None else Some([t[0] as Byte] + rest.value)
    else if t[0] == '%' && |t| >= 3 && HexValue(t[1]).Some? && HexValue(t[2]).Some? then
      var b := 16 * HexValue(t[1]).value + HexValue(t[2]).value;
      var rest := UrlDecode(t[3..]);
      if IsUnreserved(b as char) || rest.None? then None else Some([b as char] + rest.value)
    else None
  }

  /** The number of bytes the encoder expands into a triplet. */
  function CountReserved(s: seq<Byte>): nat
  {
    if s == [] then 0 else (if IsUnreserved(s[0]) then 0 else 1) + CountReserved(s[1..])
  }

  lemma HexDigitValue(d: nat)
    requires d < 16
    ensures HexValue(HexDigit(d)) == Some(d)
  {
  }

  /** Decoding what the encoder wrote gives back the input. */
  lemma {:induction false} UrlDecodeOfEncode(s: seq<Byte>)
    ensures UrlDecode(UrlEncode(s)) == Some(s)
  {
    if s != [] {
      var c := s[0];
      var t := UrlEncode(s);
      UrlDecodeOfEncode(s[1..]);
      assert s == [c] + s[1..];
      if IsUnreserved(c) {
        assert t[0] == c && t[1..] == UrlEncode(s[1..]);
      } else {
        HexDigitValue(c as int / 16);
        HexDigitValue(c as int % 16);
        assert t[3..] == UrlEncode(s[1..]);
        assert t[1] == HexDigit(c as int / 16) && t[2] == HexDigit(c as int % 16);
        assert 16 * (c as int / 16) + c as int % 16 == c as int;
        assert t[0] == '%' && |t| >= 3;
      }
    }
  }

  lemma UrlEncodeCons(c: Byte, r: seq<Byte>)
    ensures UrlEncode([c] + r) == EncodeByte(c) + UrlEncode(r)
  {
    assert ([c] + r)[1..] == r;
  }

  /** A triplet the decoder accepts is how the encoder writes its byte. */
  lemma TripletOfHex(x: char, y: char)
    requires HexValue(x).Some? && HexValue(y).Some?
    requires !IsUnreserved((16 * HexValue(x).value + HexValue(y).value) as char)
    ensures EncodeByte((16 * HexValue(x).value + HexValue(y).value) as Byte) == ['%', x, y]
  {
    var h1, h2 := HexValue(x).value, HexValue(y).value;
    var b := 16 * h1 + h2;
    assert b / 16 == h1 && b % 16 == h2;
    assert HexDigit(h1) == x && HexDigit(h2) == y;
  }

  /** Only the encoder's own output decodes: a successful decode is undone
      by encoding. With UrlDecodeOfEncode this makes the encoding
      one-to-one. */
  lemma {:induction false} UrlEncodeOfDecode(t: string)
    requires UrlDecode(t).Some?
    ensures UrlEncode(UrlDecode(t).value) == t
    decreases |t|
  {
    if t != [] {
      if IsUnreserved(t[0]) {
        UrlEncodeOfDecode(t[1..]);
        UrlEncodeCons(t[0] as Byte, UrlDecode(t[1..]).value);
        assert t == [t[0]] + t[1..];
      } else {
        var b := 16 * HexValue(t[1]).value + HexValue(t[2]).value;
        UrlEncodeOfDecode(t[3..]);
        UrlEncodeCons(b as Byte, UrlDecode(t[3..]).value);
        TripletOfHex(t[1], t[2]);
        assert t == ['%', t[1], t[2]] + t[3..];
      }
    }
  }

  /** The output grows by two characters for every byte that is not
      unreserved. */
  lemma {:induction false} UrlEncodeLength(s: seq<Byte>)
    ensures |UrlEncode(s)| == |s| + 2 * CountReserved(s)
  {
    if s != [] {
      UrlEncodeLength(s[1..]);
    }
  }

  /** A string of unreserved characters is left as it is. */
  lemma {:induction false} UrlEncodeUnreserved(s: seq<Byte>)
    requires forall i :: 0 <= i < |s| ==> IsUnreserved(s[i])
    ensures UrlEncode(s) == s
    ensures CountReserved(s) == 0
  {
    if s != [] {
      UrlEncodeUnreserved(s[1..]);
    }
  }

  /** Every character of the output is unreserved or '%', so neither the
      query separators '&' and '=' nor '/' ever appear in it. */
  lemma {:induction false} UrlEncodeAlphabet(s: seq<Byte>)
    ensures forall i :: 0 <= i < |UrlEncode(s)| ==> IsUnreserved(UrlEncode(s)[i]) || UrlEncode(s)[i] == '%'
  {
    if s != [] {
      UrlEncodeAlphabet(s[1..]);
      var e, t := EncodeByte(s[0]), UrlEncode(s);
      assert forall i :: |e| <= i < |t| ==> t[i] == UrlEncode(s[1..])[i - |e|];
    }
  }

  // ---------------------------------------------------------------------
  // Query strings

  /** One key/value pair of a query. */
  datatype Param = Param(key: seq<Byte>, value: seq<Byte>)

  function EncodeParam(p: Param): string
  {
    UrlEncode(p.key) + "=" + UrlEncode(p.value)
  }

  /** The pairs in input order, joined by '&'. */
  function JoinParams(ps: seq<Param>): string
    requires ps != []
  {
    if |ps| == 1 then EncodeParam(ps[0]) else EncodeParam(ps[0]) + "&" + JoinParams(ps[1..])
  }

  /** ZW3Auth::BuildQuery */
  function BuildQuery(ps: seq<Param>): string
  {
    if ps == [] then "" else "?" + JoinParams(ps)
  }

  /** s cut at every occurrence of sep. */
  function Split(s: string, sep: char): (parts: seq<string>)
    ensures |parts| >= 1
  {
    if s == [] then [[]]
    else
      var rest := Split(s[1..], sep);
      if s[0] == sep then [[]] + rest else [[s[0]] + rest[0]] + rest[1..]
  }

  function ParseParam(field: string): Option<Param>
  {
    var kv := Split(field, '=');
    if |kv| != 2 then None
    else
      var k, v := UrlDecode(kv[0]), UrlDecode(kv[1]);
      if k.None? || v.None? then None else Some(Param(k.value, v.value))
  }

  function ParseParams(fields: seq<string>): Option<seq<Param>>
  {
    if fields == [] then Some([])
    else
      var p, rest := ParseParam(fields[0]), ParseParams(fields[1..]);
      if p.None? || rest.None? then None else Some([p.value] + rest.value)
  }

  /** A reader of query strings: "" is no pairs; otherwise a '?' and
      '&'-separated key=value fields. */
  function ParseQuery(q: string): Option<seq<Param>>
  {
    if q == [] then Some([])
    else if q[0] != '?' || q == "?" then None
    else ParseParams(Split(q[1..], '&'))
  }

  function Count(s: string, c: char): nat
  {
    if s == [] then 0 else (if s[0] == c then 1 else 0) + Count(s[1..], c)
  }

  lemma {:induction false} SplitWithout(a: string, sep: char)
    requires sep !in a
    ensures Split(a, sep) == [a]
    ensures Count(a, sep) == 0
  {
    if a != [] {
      SplitWithout(a[1..], sep);
      assert [a[0]] + a[1..] == a;
    }
  }

  lemma {:induction false} SplitAt(a: string, sep: char, b: string)
    requires sep !in a
    ensures Split(a + [sep] + b, sep) == [a] + Split(b, sep)
    ensures Count(a + [sep] + b, sep) == 1 + Count(b, sep)
  {
    if a == [] {
      assert a + [sep] + b == [sep] + b;
      assert ([sep] + b)[1..] == b;
    } else {
      SplitAt(a[1..], sep, b);
      assert (a + [sep] + b)[1..] == a[1..] + [sep] + b;
      assert [a[0]] + a[1..] == a;
    }
  }

  lemma NoSeparator(s: seq<Byte>, sep: char)
    requires !IsUnreserved(sep) && sep != '%'
    ensures sep !in UrlEncode(s)
  {
    UrlEncodeAlphabet(s);
  }

  lemma ParamRoundTrip(p: Param)
    ensures '&' !in EncodeParam(p)
    ensures ParseParam(EncodeParam(p)) == Some(p)
  {
    NoSeparator(p.key, '=');
    NoSeparator(p.value, '=');
    NoSeparator(p.key, '&');
    NoSeparator(p.value, '&');
    SplitWithout(UrlEncode(p.value), '=');
    SplitAt(UrlEncode(p.key), '=', UrlEncode(p.value));
    UrlDecodeOfEncode(p.key);
    UrlDecodeOfEncode(p.value);
  }

  lemma ParseParamsCons(f: string, fs: seq<string>)
    ensures ParseParams([f] + fs) ==
      if ParseParam(f).None? || ParseParams(fs).None? then None else Some([ParseParam(f).value] + ParseParams(fs).value)
  {
    assert ([f] + fs)[0] == f && ([f] + fs)[1..] == fs;
  }

  lemma JoinParamsSplitsOne(p: Param)
    ensures |Split(EncodeParam(p), '&')| == 1 && Count(EncodeParam(p), '&') == 0
    ensures ParseParams(Split(EncodeParam(p), '&')) == Some([p])
  {
    var x := EncodeParam(p);
    ParamRoundTrip(p);
    SplitWithout(x, '&');
    ParseParamsCons(x, []);
    assert [x] + [] == [x];
    assert ParseParams([]) == Some([]);
    assert [p] + [] == [p];
  }

  lemma JoinParamsSplitsCons(p: Param, rest: string, ps: seq<Param>)
    requires |Split(rest, '&')| == |ps| && Count(rest, '&') == |ps| - 1
    requires ParseParams(Split(rest, '&')) == Some(ps)
    ensures var joined := EncodeParam(p) + "&" + rest;
      && |Split(joined, '&')| == |ps| + 1 && Count(joined, '&') == |ps|
      && ParseParams(Split(joined, '&')) == Some([p] + ps)
  {
    var x := EncodeParam(p);
    ParamRoundTrip(p);
    SplitAt(x, '&', rest);
    ParseParamsCons(x, Split(rest, '&'));
  }

  lemma {:induction false} JoinParamsSplits(ps: seq<Param>)
    requires ps != []
    ensures |Split(JoinParams(ps), '&')| == |ps|
    ensures Count(JoinParams(ps), '&') == |ps| - 1
    ensures ParseParams(Split(JoinParams(ps), '&')) == Some(ps)
  {
    if |ps| == 1 {
      JoinParamsSplitsOne(ps[0]);
      assert ps == [ps[0]];
    } else {
      JoinParamsSplits(ps[1..]);
      JoinParamsSplitsCons(ps[0], JoinParams(ps[1..]), ps[1..]);
      assert ps == [ps[0]] + ps[1..];
    }
  }

  /** A query carries its pairs in order, separated by exactly |ps| - 1
      ampersands, and reading it back gives the pairs. */
  lemma QueryRoundTrip(ps: seq<Param>)
    ensures ParseQuery(BuildQuery(ps)) == Some(ps)
    ensures ps == [] <==> BuildQuery(ps) == ""
    ensures ps != [] ==> BuildQuery(ps)[0] == '?' && Count(BuildQuery(ps), '&') == |ps| - 1
  {
    if ps != [] {
      JoinParamsSplits(ps);
      var q := BuildQuery(ps);
      assert q[1..] == JoinParams(ps);
      assert Count(q, '&') == Count(q[1..], '&');
    }
  }

  // ---------------------------------------------------------------------
  // URLs

  const BASE_URL := "https://auth.zw3.eu"
  const LOGIN_PATH := "/v1/auth/login"
  const DISCORD_START_PATH := "/v1/auth/discord/start"
  const DISCORD_POLL_PATH := "/v1/auth/discord/poll"
  const START_TICKET_PATH := "/v1/auth/start-ticket"

  predicate EndsWithSlash(s: string) { s != [] && s[|s| - 1] == '/' }
  predicate StartsWithSlash(s: string) { s != [] && s[0] == '/' }

  /** ZW3Auth::BuildUrl, with the base as a parameter. */
  function JoinUrl(base: string, path: string): string
  {
    if EndsWithSlash(base) && StartsWithSlash(path) then base[..|base| - 1] + path
    else if !EndsWithSlash(base) && !StartsWithSlash(path) then base + "/" + path
    else base + path
  }

  /** ZW3Auth::BuildUrl */
  function BuildUrl(path: string): string
  {
    JoinUrl(BASE_URL, path)
  }

  function DropTrailingSlash(s: string): string
  {
    if EndsWithSlash(s) then s[..|s| - 1] else s
  }

  function DropLeadingSlash(s: string): string
  {
    if StartsWithSlash(s) then s[1..] else s
  }

  /** Base and path meet at exactly one '/': one slash of the base's end and
      the path's start is kept, and one is added when neither has it. */
  lemma JoinUrlOneSlash(base: string, path: string)
    ensures JoinUrl(base, path) == DropTrailingSlash(base) + "/" + DropLeadingSlash(path)
  {
    if EndsWithSlash(base) {
      assert base == base[..|base| - 1] + "/";
    }
    if StartsWithSlash(path) {
      assert path == "/" + path[1..];
    }
  }

  /** Every service URL starts with the base URL. */
  lemma BuildUrlUnderBase(path: string)
    ensures BuildUrl(path) == BASE_URL + "/" + DropLeadingSlash(path)
    ensures StartsWith(BuildUrl(path), BASE_URL)
  {
    JoinUrlOneSlash(BASE_URL, path);
    var u := BuildUrl(path);
    assert u[..|BASE_URL|] == BASE_URL;
  }

  // ---------------------------------------------------------------------
  // The session

  /** ZW3Auth::DiscordFlowState; the two time points are whole seconds. */
  datatype DiscordFlow = DiscordFlow(active: bool, state: string, url: string,
                                     intervalSeconds: int, nextPoll: int, expiresAt: int)

  /** A value-initialised DiscordFlowState (both time points at the clock's
      epoch). */
  const IDLE_FLOW := DiscordFlow(false, "", "", 5, 0, 0)

  const DEFAULT_INTERVAL := 5
  const DEFAULT_EXPIRES_IN := 600
  /** The increase that section 3.5 of RFC 8628 asks for on slow_down. */
  const SLOW_DOWN_SECONDS := 5

  /** The component's static state, and the two dvars its handlers read
      and clear (zw3_auth_username and zw3_auth_password). */
  datatype Session = Session(
    accessToken: string, refreshToken: string, tokenType: string,
    discordTicket: string, discordUrl: string, guestMode: bool,
    flow: DiscordFlow, username: string, password: string)

  /** ZW3Auth::IsAuthenticated */
  predicate Authenticated(s: Session)
  {
    s.accessToken != ""
  }

  /** ZW3Auth::GetAuthHeader */
  function AuthHeader(s: Session): (r: string)
    ensures r == "" <==> !Authenticated(s)
  {
    if !Authenticated(s) then "" else s.tokenType + " " + s.accessToken
  }

  /** The header as a server reads it: the scheme up to the first space,
      then the credentials. */
  function SplitAtSpace(h: string): (string, string)
  {
    if h == [] then ("", "")
    else if h[0] == ' ' then ("", h[1..])
    else
      var rest := SplitAtSpace(h[1..]);
      ([h[0]] + rest.0, rest.1)
  }

  lemma {:induction false} SplitAtSpaceOf(a: string, b: string)
    requires ' ' !in a
    ensures SplitAtSpace(a + " " + b) == (a, b)
  {
    if a == [] {
      assert a + " " + b == [' '] + b;
    } else {
      SplitAtSpaceOf(a[1..], b);
      assert (a + " " + b)[1..] == a[1..] + " " + b;
      assert [a[0]] + a[1..] == a;
    }
  }

  /** When authenticated, the header splits back into the token type and
      the access token (a token type never holds a space). */
  lemma AuthHeaderSplits(s: Session)
    requires Authenticated(s) && ' ' !in s.tokenType
    ensures SplitAtSpace(AuthHeader(s)) == (s.tokenType, s.accessToken)
  {
    SplitAtSpaceOf(s.tokenType, s.accessToken);
  }

  /** ZW3Auth::Logout: tokens, ticket and URL cleared, the token type back
      to "Bearer", guest mode off, the Discord flow back to its defaults. */
  function LogoutStep(s: Session): Session
  {
    Session("", "", "Bearer", "", "", false, IDLE_FLOW, s.username, s.password)
  }

  /** ZW3Auth::PlayAsGuest: Logout, then guest mode on. */
  function GuestStep(s: Session): Session
  {
    LogoutStep(s).(guestMode := true)
  }

  // ---------------------------------------------------------------------
  // Replies

  /** What the handlers learn from an HTTP reply: whether it arrived
      non-empty, whether it parsed as a JSON object, and what GetString
      (a string member) or, for interval and expires_in, the raw integer
      member holds. */
  datatype Reply = Reply(
    received: bool, isObject: bool,
    error: Option<string>, accessToken: Option<string>, sessionToken: Option<string>,
    refreshToken: Option<string>, tokenType: Option<string>,
    needsUsername: Option<bool>, ok: Option<bool>,
    state: Option<string>, url: Option<string>,
    interval: Option<int>, expiresIn: Option<int>)

  const INT64_MIN: int := -0x8000_0000_0000_0000
  const INT64_MAX: int := 0x7FFF_FFFF_FFFF_FFFF

  /** ZW3Auth::GetInt on an integer member: an int as it is, an int64 cast
      to int (keeping the low 32 bits), anything wider absent. */
  function GetInt(raw: Option<int>): (r: Option<int>)
    ensures r.Some? ==> IsInt32(r.value)
    ensures r.Some? <==> raw.Some? && INT64_MIN <= raw.value <= INT64_MAX
    ensures raw.Some? && IsInt32(raw.value) ==> r == raw
    ensures r.Some? ==> (r.value - raw.value) % 0x1_0000_0000 == 0
  {
    if raw.None? then None
    else if IsInt32(raw.value) then raw
    else if INT64_MIN <= raw.value <= INT64_MAX then
      var low := raw.value % 0x1_0000_0000;
      Some(if low > INT32_MAX then low - 0x1_0000_0000 else low)
    else None
  }

  /** A reply that carries something to act on. */
  predicate Usable(r: Reply)
  {
    r.received && r.isObject && r.error.None?
  }

  // ---------------------------------------------------------------------
  // Sign-in with a password

  datatype LoginStart = MissingCredentials | LoginRequest(email: string, password: string)

  /** StartLogin up to the request: guest mode is switched off first; the
      request needs both dvars non-empty. */
  function BeginLoginStep(s: Session): (Session, LoginStart)
  {
    (s.(guestMode := false),
     if s.username == "" || s.password == "" then MissingCredentials else LoginRequest(s.username, s.password))
  }

  /** The login reply handler: the password dvar is cleared whatever
      arrives; a usable reply sets the access token (session_token taking
      precedence over access_token, and bringing the "Bearer" type), the
      refresh token, and the token type. */
  function LoginReplyStep(s: Session, r: Reply): Session
  {
    var s1 := s.(password := "");
    if !Usable(r) then s1
    else
      var access := if r.accessToken.Some? then r.accessToken.value else s1.accessToken;
      var access2 := if r.sessionToken.Some? then r.sessionToken.value else access;
      var type1 := if r.sessionToken.Some? then "Bearer" else s1.tokenType;
      s1.(accessToken := access2,
          tokenType := if r.tokenType.Some? then r.tokenType.value else type1,
          refreshToken := if r.refreshToken.Some? then r.refreshToken.value else s1.refreshToken)
  }

  /** Which token the login reply installs, and that a failed or refused
      login changes nothing but the cleared password. */
  lemma LoginTokenSelection(s: Session, r: Reply)
    ensures var t := LoginReplyStep(s, r);
      && t.password == ""
      && (!Usable(r) ==> t == s.(password := ""))
      && (Usable(r) && r.sessionToken.Some? ==> t.accessToken == r.sessionToken.value)
      && (Usable(r) && r.sessionToken.None? && r.accessToken.Some? ==> t.accessToken == r.accessToken.value)
      && (Usable(r) && r.tokenType.Some? ==> t.tokenType == r.tokenType.value)
      && (Usable(r) && r.tokenType.None? && r.sessionToken.Some? ==> t.tokenType == "Bearer")
      && t.flow == s.flow && t.guestMode == s.guestMode
  {
  }

  /** A usable reply with a non-empty session token and no token type signs
      the player in with a Bearer header for that token. */
  lemma SessionTokenSignsIn(s: Session, r: Reply)
    requires Usable(r) && r.sessionToken.Some? && r.sessionToken.value != "" && r.tokenType.None?
    ensures Authenticated(LoginReplyStep(s, r))
    ensures AuthHeader(LoginReplyStep(s, r)) == "Bearer " + r.sessionToken.value
  {
  }

  // ---------------------------------------------------------------------
  // The Discord device flow

  datatype StartOutcome =
    | StartFailed(message: string)
    | FlowStarted(openedUrl: Option<string>)

  const DISCORD_UNREACHABLE := "Discord start failed. Service unreachable."
  const DISCORD_INVALID := "Discord start failed. Invalid response."
  const DISCORD_MISSING_STATE := "Discord start failed. Missing state."

  /** The start reply handler. `fallback` is the state the start-ticket
      reply carried, if the first start request failed and the ticket
      request succeeded. The browser is opened on the URL unless it is
      empty. */
  function DiscordStartStep(s: Session, r: Reply, fallback: Option<string>, now: int): (Session, StartOutcome)
  {
    if !r.received then (s, StartFailed(DISCORD_UNREACHABLE))
    else if !r.isObject then (s, StartFailed(DISCORD_INVALID))
    else if r.error.Some? then (s, StartFailed(r.error.value))
    else if (r.state.None? && fallback.None?) || r.url.None? then (s, StartFailed(DISCORD_MISSING_STATE))
    else
      var ticket := if r.state.Some? then r.state.value else fallback.value;
      var url := r.url.value;
      var interval := if GetInt(r.interval).Some? then GetInt(r.interval).value else DEFAULT_INTERVAL;
      var expiresIn := if GetInt(r.expiresIn).Some? then GetInt(r.expiresIn).value else DEFAULT_EXPIRES_IN;
      (s.(discordTicket := ticket, discordUrl := url,
          flow := DiscordFlow(true, ticket, url, interval, now + interval, now + expiresIn)),
       FlowStarted(if url == "" then None else Some(url)))
  }

  /** A started flow polls with the reply's state (or the ticket's) on the
      reply's URL, every interval seconds as the reply gives them (5 when
      it has none), first after one interval, and expires after expires_in
      seconds (600 when the reply has none). */
  lemma DiscordStartArms(s: Session, r: Reply, fallback: Option<string>, now: int)
    requires Usable(r) && r.url.Some? && (r.state.Some? || fallback.Some?)
    ensures var (t, o) := DiscordStartStep(s, r, fallback, now);
      && o == FlowStarted(if r.url.value == "" then None else Some(r.url.value))
      && t.flow.active
      && t.flow.state == t.discordTicket
      && t.flow.state == (if r.state.Some? then r.state.value else fallback.value)
      && t.flow.url == r.url.value && t.discordUrl == r.url.value
      && t.flow.intervalSeconds == (if GetInt(r.interval).Some? then GetInt(r.interval).value else DEFAULT_INTERVAL)
      && t.flow.nextPoll == now + t.flow.intervalSeconds
      && t.flow.expiresAt == now + (if GetInt(r.expiresIn).Some? then GetInt(r.expiresIn).value else DEFAULT_EXPIRES_IN)
      && t.accessToken == s.accessToken && t.tokenType == s.tokenType && t.guestMode == s.guestMode
  {
  }

  /** A start reply that is unreachable, not an object, carries an error,
      or lacks both states or the URL changes nothing and reports why. */
  lemma DiscordStartRefused(s: Session, r: Reply, fallback: Option<string>, now: int)
    ensures var (t, o) := DiscordStartStep(s, r, fallback, now);
      && (o.StartFailed? <==> !Usable(r) || r.url.None? || (r.state.None? && fallback.None?))
      && (o.StartFailed? ==> t == s)
      && (!r.received ==> o == StartFailed(DISCORD_UNREACHABLE))
      && (r.received && !r.isObject ==> o == StartFailed(DISCORD_INVALID))
      && (r.received && r.isObject && r.error.Some? ==> o == StartFailed(r.error.value))
      && (Usable(r) && (r.url.None? || (r.state.None? && fallback.None?)) ==> o == StartFailed(DISCORD_MISSING_STATE))
  {
  }

  /** What one scheduler tick of PollDiscord does. */
  datatype PollAction = Idle | Expired | Poll(state: string)

  /** ZW3Auth::PollDiscord: nothing while no flow is active or before the
      next poll time; an expired flow is reset; otherwise a poll request is
      sent with the flow's state and the next poll is one interval away. */
  function PollTickStep(s: Session, now: int): (Session, PollAction)
  {
    if !s.flow.active || now < s.flow.nextPoll then (s, Idle)
    else if now >= s.flow.expiresAt then (s.(flow := IDLE_FLOW), Expired)
    else (s.(flow := s.flow.(nextPoll := now + s.flow.intervalSeconds)), Poll(s.flow.state))
  }

  /** A poll request goes out exactly when a flow is active, its next poll
      time has come and it has not expired; it carries the flow's state and
      pushes the next poll one interval later. An expired flow is dropped. */
  lemma PollSchedule(s: Session, now: int)
    ensures var (t, a) := PollTickStep(s, now);
      && (a.Poll? <==> s.flow.active && s.flow.nextPoll <= now < s.flow.expiresAt)
      && (a.Expired? <==> s.flow.active && s.flow.nextPoll <= now && now >= s.flow.expiresAt)
      && (a.Poll? ==> a.state == s.flow.state && t.flow == s.flow.(nextPoll := now + s.flow.intervalSeconds))
      && (a.Expired? ==> t.flow == IDLE_FLOW)
      && (a.Idle? ==> t == s)
      && t.accessToken == s.accessToken && t.tokenType == s.tokenType
  {
  }

  /** What a poll reply did. */
  datatype PollResult = NoChange | SlowedDown | Cancelled | UsernameRequired
                      | SubmitUsername(state: string, username: string) | Signed

  const PENDING := "authorization_pending"
  const SLOW_DOWN := "slow_down"

  predicate EndsFlow(error: string)
  {
    error == "access_denied" || error == "cancelled" || error == "expired_token"
  }

  /** The poll reply handler, for the request sent with `state`; `now` is
      the time the reply is handled. */
  function PollReplyStep(s: Session, state: string, r: Reply, now: int): (Session, PollResult)
  {
    if !r.received || !r.isObject then (s, NoChange)
    else if r.error.Some? then
      var e := r.error.value;
      if e == PENDING then (s, NoChange)
      else if e == SLOW_DOWN then
        var interval := s.flow.intervalSeconds + SLOW_DOWN_SECONDS;
        (s.(flow := s.flow.(intervalSeconds := interval, nextPoll := now + interval)), SlowedDown)
      else if EndsFlow(e) then (s.(flow := IDLE_FLOW), Cancelled)
      else (s, NoChange)
    else if r.needsUsername == Some(true) then
      if s.username == "" then (s, UsernameRequired) else (s, SubmitUsername(state, s.username))
    else if r.ok != Some(true) then (s, NoChange)
    else
      var s1 := if r.sessionToken.Some? then s.(accessToken := r.sessionToken.value, tokenType := "Bearer") else s;
      var s2 := if r.refreshToken.Some? then s1.(refreshToken := r.refreshToken.value) else s1;
      var s3 := if r.tokenType.Some? then s2.(tokenType := r.tokenType.value) else s2;
      if s3.accessToken != "" then (s3.(flow := IDLE_FLOW), Signed) else (s3, NoChange)
  }

  /** The error codes of section 3.5 of RFC 8628: authorization_pending
      keeps polling unchanged; slow_down adds five seconds to the interval
      and waits that long; access_denied and expired_token (and the
      service's own "cancelled") end the flow without touching the
      tokens. */
  lemma PollErrorCodes(s: Session, state: string, r: Reply, now: int)
    requires r.received && r.isObject && r.error.Some?
    ensures var (t, res) := PollReplyStep(s, state, r, now);
      && (r.error.value == PENDING ==> t == s && res == NoChange)
      && (r.error.value == SLOW_DOWN ==>
            && t.flow.intervalSeconds == s.flow.intervalSeconds + 5
            && t.flow.nextPoll == now + t.flow.intervalSeconds
            && t.flow.active == s.flow.active && t.flow.state == s.flow.state
            && t.flow.expiresAt == s.flow.expiresAt)
      && (EndsFlow(r.error.value) ==> !t.flow.active && t.flow == IDLE_FLOW && res == Cancelled)
      && t.accessToken == s.accessToken && t.refreshToken == s.refreshToken && t.tokenType == s.tokenType
  {
  }

  /** A successful poll that brings a non-empty session token signs the
      player in and ends the flow; one that brings no access token leaves
      the flow running. */
  lemma PollSuccess(s: Session, state: string, r: Reply, now: int)
    requires Usable(r) && r.needsUsername != Some(true) && r.ok == Some(true)
    ensures var (t, res) := PollReplyStep(s, state, r, now);
      && (res == Signed <==> t.accessToken != "")
      && (res == Signed ==> Authenticated(t) && t.flow == IDLE_FLOW)
      && (r.sessionToken.Some? ==> t.accessToken == r.sessionToken.value)
      && (res != Signed ==> t.flow == s.flow)
  {
  }

  /** After Logout or PlayAsGuest nobody is signed in, no header is sent,
      and the poller stays idle. */
  lemma SignedOutIsIdle(s: Session, now: int)
    ensures !Authenticated(LogoutStep(s)) && AuthHeader(LogoutStep(s)) == ""
    ensures !Authenticated(GuestStep(s)) && GuestStep(s).guestMode && !LogoutStep(s).guestMode
    ensures PollTickStep(LogoutStep(s), now).1 == Idle && PollTickStep(GuestStep(s), now).1 == Idle
  {
  }

  // ---------------------------------------------------------------------
  // The openmenu gate

  const AUTH_MENU := "zw3_auth"
  const AUTH_REGISTER_MENU := "zw3_auth_register"

  /** A menu the command opens, and whether it gives the UI the key
      catcher. */
  datatype MenuOpen = MenuOpen(menu: string, catchKeys: bool)

  /** The openmenu command: params[1] is the menu name; a player who is
      neither signed in nor a guest gets the sign-in menu instead of any
      menu other than the two auth menus. */
  function OpenMenu(params: seq<string>, authenticated: bool, guest: bool, inGame: bool): (r: Option<MenuOpen>)
    ensures r.None? <==> |params| != 2
    ensures r.Some? && !authenticated && !guest ==>
              r.value.menu == AUTH_MENU || r.value.menu == AUTH_REGISTER_MENU
    ensures r.Some? && (authenticated || guest) ==> r.value.menu == params[1]
  {
    if |params| != 2 then None
    else
      var menuName := params[1];
      if !authenticated && !guest && menuName != AUTH_MENU && menuName != AUTH_REGISTER_MENU then
        Some(MenuOpen(AUTH_MENU, true))
      else Some(MenuOpen(menuName, inGame))
  }

  /** A player who chose to play as a guest opens any menu; one who signed
      out is sent to the sign-in menu. */
  lemma GateAfterSignOut(s: Session, params: seq<string>, inGame: bool)
    requires |params| == 2 && params[1] != AUTH_MENU && params[1] != AUTH_REGISTER_MENU
    ensures OpenMenu(params, Authenticated(GuestStep(s)), GuestStep(s).guestMode, inGame)
              == Some(MenuOpen(params[1], inGame))
    ensures OpenMenu(params, Authenticated(LogoutStep(s)), LogoutStep(s).guestMode, inGame)
              == Some(MenuOpen(AUTH_MENU, true))
  {
  }

  // ---------------------------------------------------------------------
  // The component's static state

  class AuthState {
    var accessToken: string
    var refreshToken: string
    var tokenType: string
    var discordTicket: string
    var discordUrl: string
    var guestMode: bool
    var flow: DiscordFlow
    var username: string   // zw3_auth_username
    var password: string   // zw3_auth_password

    function Snapshot(): Session
      reads this
    {
      Session(accessToken, refreshToken, tokenType, discordTicket, discordUrl, guestMode, flow, username, password)
    }

    /** The statics' initial values: no tokens, type "Bearer", guest mode
        on, no flow. */
    constructor ()
      ensures Snapshot() == Session("", "", "Bearer", "", "", true, IDLE_FLOW, "", "")
      ensures !Authenticated(Snapshot())
    {
      accessToken, refreshToken, tokenType := "", "", "Bearer";
      discordTicket, discordUrl := "", "";
      guestMode := true;
      flow := IDLE_FLOW;
      username, password := "", "";
    }

    /** ZW3Auth::GetAuthHeader */
    function GetAuthHeader(): (r: string)
      reads this
      ensures r == AuthHeader(Snapshot())
    {
      if accessToken == "" then "" else tokenType + " " + accessToken
    }

    /** ZW3Auth::Logout */
    method Logout()
      modifies this
      ensures Snapshot() == LogoutStep(old(Snapshot()))
    {
      accessToken := "";
      refreshToken := "";
      tokenType := "Bearer";
      discordTicket := "";
      discordUrl := "";
      guestMode := false;
      flow := IDLE_FLOW;
    }

    /** ZW3Auth::PlayAsGuest */
    method PlayAsGuest()
      modifies this
      ensures Snapshot() == GuestStep(old(Snapshot()))
    {
      Logout();
      guestMode := true;
    }

    /** ZW3Auth::StartLogin, up to the request it schedules. */
    method StartLogin() returns (start: LoginStart)
      modifies this`guestMode
      ensures (Snapshot(), start) == BeginLoginStep(old(Snapshot()))
    {
      guestMode := false;
      if username == "" || password == "" {
        start := MissingCredentials;
      } else {
        start := LoginRequest(username, password);
      }
    }

    /** The login reply handler of StartLogin. */
    method OnLoginReply(r: Reply)
      modifies this`password, this`accessToken, this`tokenType, this`refreshToken
      ensures Snapshot() == LoginReplyStep(old(Snapshot()), r)
    {
      password := "";
      if !r.received || !r.isObject || r.error.Some? {
        return;
      }
      if r.accessToken.Some? {
        accessToken := r.accessToken.value;
      }
      if r.sessionToken.Some? {
        accessToken := r.sessionToken.value;
        tokenType := "Bearer";
      }
      if r.refreshToken.Some? {
        refreshToken := r.refreshToken.value;
      }
      if r.tokenType.Some? {
        tokenType := r.tokenType.value;
      }
    }

    /** ZW3Auth::StartDiscord, up to the request it schedules. */
    method StartDiscord()
      modifies this`guestMode
      ensures Snapshot() == old(Snapshot()).(guestMode := false)
    {
      guestMode := false;
    }

    /** The start reply handler of StartDiscord, with OpenDiscordUrl. */
    method OnDiscordStart(r: Reply, fallback: Option<string>, now: int) returns (outcome: StartOutcome)
      modifies this`discordTicket, this`discordUrl, this`flow
      ensures (Snapshot(), outcome) == DiscordStartStep(old(Snapshot()), r, fallback, now)
    {
      if !r.received {
        return StartFailed(DISCORD_UNREACHABLE);
      }
      if !r.isObject {
        return StartFailed(DISCORD_INVALID);
      }
      if r.error.Some? {
        return StartFailed(r.error.value);
      }
      if (r.state.None? && fallback.None?) || r.url.None? {
        return StartFailed(DISCORD_MISSING_STATE);
      }
      discordTicket := if r.state.Some? then r.state.value else fallback.value;
      discordUrl := r.url.value;
      var interval := GetInt(r.interval);
      var expiresIn := GetInt(r.expiresIn);
      var seconds := if interval.Some? then interval.value else DEFAULT_INTERVAL;
      flow := DiscordFlow(true, discordTicket, r.url.value, seconds,
                          now + seconds,
                          now + if expiresIn.Some? then expiresIn.value else DEFAULT_EXPIRES_IN);
      outcome := FlowStarted(if discordUrl == "" then None else Some(discordUrl));
    }

    /** ZW3Auth::PollDiscord */
    method PollDiscord(now: int) returns (action: PollAction)
      modifies this`flow
      ensures (Snapshot(), action) == PollTickStep(old(Snapshot()), now)
    {
      if !flow.active {
        return Idle;
      }
      var flowCopy := flow;
      if now < flowCopy.nextPoll {
        return Idle;
      }
      if now >= flowCopy.expiresAt {
        flow := IDLE_FLOW;
        return Expired;
      }
      action := Poll(flowCopy.state);
      flow := flow.(nextPoll := now + flow.intervalSeconds);
    }

    /** The poll reply handler of PollDiscord. */
    method OnPollReply(state: string, r: Reply, now: int) returns (result: PollResult)
      modifies this`flow, this`accessToken, this`tokenType, this`refreshToken
      ensures (Snapshot(), result) == PollReplyStep(old(Snapshot()), state, r, now)
    {
      if !r.received || !r.isObject {
        return NoChange;
      }
      if r.error.Some? {
        var e := r.error.value;
        if e == PENDING {
          return NoChange;
        }
        if e == SLOW_DOWN {
          flow := flow.(intervalSeconds := flow.intervalSeconds + SLOW_DOWN_SECONDS);
          flow := flow.(nextPoll := now + flow.intervalSeconds);
          return SlowedDown;
        }
        if e == "access_denied" || e == "cancelled" || e == "expired_token" {
          flow := IDLE_FLOW;
          return Cancelled;
        }
        return NoChange;
      }
      if r.needsUsername == Some(true) {
        if username == "" {
          return UsernameRequired;
        }
        return SubmitUsername(state, username);
      }
      if r.ok != Some(true) {
        return NoChange;
      }
      if r.sessionToken.Some? {
        accessToken := r.sessionToken.value;
        tokenType := "Bearer";
      }
      if r.refreshToken.Some? {
        refreshToken := r.refreshToken.value;
      }
      if r.tokenType.Some? {
        tokenType := r.tokenType.value;
      }
      result := NoChange;
      if accessToken != "" {
        flow := IDLE_FLOW;
        result := Signed;
      }
    }
  }
}

=== FILE: filesystem.dfy ===
/** The policy parts of the FileSystem component: which files the start-up
    cleanup of an old install deletes and how it counts them, which backup
    slot a file rotation uses, the null filtering of a file listing, and the
    guards of file reading.

    The file system itself (whether a file exists, its modification time,
    what a delete, rename or read reports) is an oracle: the caller supplies
    its answers as parameters. */
module FileSystem {
  import opened Text

  // ---------------------------------------------------------------------
  // The legacy-file predicate of the cleanup pass

  /** A regular file found under a scanned root: the directories between
      the root and the file, the file name, and the name of the root
      directory itself (the parent of a file that sits directly in it). */
  datatype Candidate = Candidate(dirs: seq<string>, fileName: string, rootName: string)

  /** Components joined by '/', as generic_string writes a relative
      path. */
  function JoinPath(parts: seq<string>): (r: string)
    requires parts != []
    ensures EndsWith(r, parts[|parts| - 1])
    ensures |parts| == 1 ==> r == parts[0]
    ensures |parts| > 1 ==> |r| > |parts[|parts| - 1]|
  {
    if |parts| == 1 then parts[0]
    else
      var r := JoinPath(parts[..|parts| - 1]) + "/" + parts[|parts| - 1];
      assert r[|r| - |parts[|parts| - 1]|..] == parts[|parts| - 1];
      r
  }

  /** path.lexically_relative(root).generic_string() */
  function RelativePath(c: Candidate): string
  {
    JoinPath(c.dirs + [c.fileName])
  }

  /** path.parent_path().filename() */
  function ParentName(c: Candidate): string
  {
    if c.dirs == [] then c.rootName else c.dirs[|c.dirs| - 1]
  }

  /** The index of the last occurrence of ch in s. */
  function LastIndexOf(s: string, ch: char): (r: Option<nat>)
    ensures r.Some? ==> r.value < |s| && s[r.value] == ch && forall k :: r.value < k < |s| ==> s[k] != ch
    ensures r.None? ==> forall k :: 0 <= k < |s| ==> s[k] != ch
  {
    if s == [] then None
    else if s[|s| - 1] == ch then Some(|s| - 1)
    else LastIndexOf(s[..|s| - 1], ch)
  }

  /** path::extension() of a file name: from the last '.' on, unless that
      dot starts the name, and empty for "." and "..". */
  function Extension(fileName: string): string
  {
    var dot := LastIndexOf(fileName, '.');
    if fileName == "." || fileName == ".." || dot.None? || dot.value == 0 then ""
    else fileName[dot.value..]
  }

  const IWD_EXTENSION := ".iwd"

  /** The three files of the current install that are always kept. */
  const KEPT_FILES: set<string> := {"zw3/zw3.iwd", "zw3/zone/patch/patch_mp.ff", "zw3/zone/english/zw3_common.ff"}

  const CURRENT_PREFIX := "zw3/"

  /** The four files of the old layout that are always deleted. */
  const LEGACY_FILES: set<string> := {"iw4x/zw3.iwd", "zw3.iwd", "main/zw3.iwd", "zone/patch/patch_mp.ff"}

  /** An old map archive: an .iwd file whose lower-cased name starts with
      "mp_", directly inside a folder named "main". The extension and the
      folder name are compared as they are, case included. */
  predicate IsMapArchive(c: Candidate)
  {
    Extension(c.fileName) == IWD_EXTENSION && StartsWith(ToLower(c.fileName), "mp_") && ParentName(c) == "main"
  }

  /** shouldDelete in CleanupZw3Files */
  predicate ShouldDelete(c: Candidate)
  {
    var relative := ToLower(RelativePath(c));
    if relative in KEPT_FILES then false
    else if |relative| >= 8 && StartsWith(relative, CURRENT_PREFIX) then false
    else if relative in LEGACY_FILES then true
    else IsMapArchive(c)
  }

  /** The extension test holds exactly for names that end in ".iwd" with
      something before it. */
  lemma ExtensionIwd(fileName: string)
    ensures Extension(fileName) == IWD_EXTENSION <==> EndsWith(fileName, IWD_EXTENSION) && |fileName| > 4
  {
    var dot := LastIndexOf(fileName, '.');
    if EndsWith(fileName, IWD_EXTENSION) && |fileName| > 4 {
      assert fileName[|fileName| - 4] == '.';
      assert dot == Some(|fileName| - 4);
    }
  }

  /** An old map archive's name is at least "mp_" + ".iwd" long, since the
      prefix and the suffix cannot overlap. */
  lemma MapArchiveNameLength(c: Candidate)
    requires IsMapArchive(c)
    ensures |c.fileName| >= 7
  {
    ExtensionIwd(c.fileName);
    var n := |c.fileName|;
    assert ToLower(c.fileName)[n - 4] == '.';
    assert ToLower(c.fileName)[..3] == "mp_";
  }

  /** An old map archive never falls under the short-path gap of the
      "zw3/" rule: either its relative path does not start with "zw3/" or
      it is at least 8 characters long. */
  lemma MapArchiveOutsideGap(c: Candidate)
    requires IsMapArchive(c)
    ensures !StartsWith(ToLower(RelativePath(c)), CURRENT_PREFIX) || |RelativePath(c)| >= 8
  {
    MapArchiveNameLength(c);
    assert ToLower(c.fileName)[..3] == "mp_";
    assert ToLower(c.fileName)[0] == 'm';
    NameOutsideGap(c.dirs, c.fileName);
  }

  lemma NameOutsideGap(dirs: seq<string>, fileName: string)
    requires |fileName| >= 7 && ToLower(fileName)[0] == 'm'
    ensures var relative := JoinPath(dirs + [fileName]);
      !StartsWith(ToLower(relative), CURRENT_PREFIX) || |relative| >= 8
  {
    var parts := dirs + [fileName];
    if dirs == [] {
      assert parts == [fileName];
      assert ToLower(JoinPath(parts))[0] == 'm';
    } else {
      assert |parts| > 1 && parts[|parts| - 1] == fileName;
    }
  }

  /** Nothing under "zw3/" is ever deleted, whatever its case. */
  lemma CurrentTreeKept(c: Candidate)
    requires StartsWith(ToLower(RelativePath(c)), CURRENT_PREFIX)
    ensures !ShouldDelete(c)
  {
    var relative := ToLower(RelativePath(c));
    if IsMapArchive(c) {
      MapArchiveOutsideGap(c);
    }
    assert relative[0] == 'z' && relative[1] == 'w' && relative[3] == '/';
  }

  /** Every kept file lies under the "zw3/" prefix rule as well. */
  lemma KeptFilesUnderPrefix()
    ensures forall p :: p in KEPT_FILES ==> |p| >= 8 && StartsWith(p, CURRENT_PREFIX)
  {
    assert "zw3/zw3.iwd"[..4] == CURRENT_PREFIX;
    assert "zw3/zone/patch/patch_mp.ff"[..4] == CURRENT_PREFIX;
    assert "zw3/zone/english/zw3_common.ff"[..4] == CURRENT_PREFIX;
  }

  /** The classification in one statement: a file is deleted exactly when
      it is outside the "zw3/" tree and is one of the four legacy files or
      an old map archive. */
  lemma ShouldDeleteExactly(c: Candidate)
    ensures var relative := ToLower(RelativePath(c));
      ShouldDelete(c) <==> !StartsWith(relative, CURRENT_PREFIX) && (relative in LEGACY_FILES || IsMapArchive(c))
  {
    var relative := ToLower(RelativePath(c));
    KeptFilesUnderPrefix();
    if StartsWith(relative, CURRENT_PREFIX) {
      CurrentTreeKept(c);
    }
  }

  /** The four legacy files are deleted wherever their case differs. */
  lemma LegacyFilesDeleted(c: Candidate)
    requires ToLower(RelativePath(c)) in LEGACY_FILES
    ensures ShouldDelete(c)
  {
    var relative := ToLower(RelativePath(c));
    ShouldDeleteExactly(c);
    assert relative[0] != 'z' || relative[1] != 'w' || relative[3] != '/';
  }

  // ---------------------------------------------------------------------
  // The cleanup loop

  /** What DeleteFileW and GetLastError report for a file, and, for an
      error other than the three the loop names, whether the fallback
      std::filesystem::remove succeeds. */
  datatype DeleteResult = Removed | FileNotFound | SharingViolation | AccessDenied | OtherError(fallbackRemoved: bool)

  /** A file of allFiles: its full path, where it was found, whether it
      still exists when the loop reaches it, and what deleting it does. */
  datatype Entry = Entry(path: string, candidate: Candidate, present: bool, deletion: DeleteResult)

  /** legacySet: the full paths of the files classified for deletion. */
  function LegacySet(entries: seq<Entry>): set<string>
  {
    set e | e in entries && ShouldDelete(e.candidate) :: e.path
  }

  /** What the loop does with one file: the process exits on a file in use
      or one that cannot be removed at all. */
  datatype Outcome = Deleted | Skipped | Fatal

  function OutcomeOf(e: Entry, legacy: set<string>): (o: Outcome)
    ensures o == Deleted ==> e.present && e.path in legacy
    ensures o == Fatal ==> e.present && e.path in legacy && !e.deletion.Removed? && !e.deletion.FileNotFound?
  {
    if !e.present || e.path !in legacy then Skipped
    else match e.deletion
      case Removed => Deleted
      case FileNotFound => Skipped
      case SharingViolation => Fatal
      case AccessDenied => Fatal
      case OtherError(fallbackRemoved) => if fallbackRemoved then Deleted else Fatal
  }

  /** How many files of s have outcome o. */
  function Count(s: seq<Entry>, legacy: set<string>, o: Outcome): nat
  {
    if s == [] then 0
    else Count(s[..|s| - 1], legacy, o) + (if OutcomeOf(s[|s| - 1], legacy) == o then 1 else 0)
  }

  /** The number of files the loop looks at: up to and including the
      first fatal one. */
  function Processed(s: seq<Entry>, legacy: set<string>): (n: nat)
    ensures n <= |s|
    ensures forall k :: 0 <= k < n - 1 ==> OutcomeOf(s[k], legacy) != Fatal
    ensures n == |s| || (n > 0 && OutcomeOf(s[n - 1], legacy) == Fatal)
    ensures n < |s| || forall k :: 0 <= k < |s| - 1 ==> OutcomeOf(s[k], legacy) != Fatal
  {
    if s == [] then 0
    else if OutcomeOf(s[0], legacy) == Fatal then 1
    else
      var n := 1 + Processed(s[1..], legacy);
      assert forall k :: 1 <= k < |s| ==> s[k] == s[1..][k - 1];
      n
  }

  /** A refresh of the progress dialog. */
  datatype Progress = Progress(index: nat, percent: int)

  predicate ShowsProgress(index: int, total: int)
  {
    index == 1 || index == total || index % 25 == 0
  }

  /** (index * 100) / totalFiles, or 100 for an empty list. */
  function Percent(index: int, total: int): int
  {
    if total > 0 then (index * 100) / total else 100
  }

  /** The refreshes made while the loop reaches files 1 .. n. */
  function Updates(n: nat, total: int): seq<Progress>
  {
    if n == 0 then []
    else Updates(n - 1, total) + (if ShowsProgress(n, total) then [Progress(n, Percent(n, total))] else [])
  }

  /** What the cleanup pass reports: whether it ran (some file was
      classified for deletion), its counters, whether it exited the process
      on a file it could not remove, and the progress refreshes. */
  datatype CleanupReport = CleanupReport(ran: bool, deleted: nat, skipped: nat, exited: bool, updates: seq<Progress>)

  /** CleanupZw3Files after the classification pass: nothing happens
      unless some file was classified for deletion. */
  method Cleanup(entries: seq<Entry>) returns (report: CleanupReport)
    ensures var legacy, n := LegacySet(entries), Processed(entries, LegacySet(entries));
      && (report.ran <==> legacy != {})
      && (!report.ran ==> report == CleanupReport(false, 0, 0, false, []))
      && (report.ran ==>
            && report.deleted == Count(entries[..n], legacy, Deleted)
            && report.skipped == Count(entries[..n], legacy, Skipped)
            && (report.exited <==> exists k :: 0 <= k < |entries| && OutcomeOf(entries[k], legacy) == Fatal)
            && report.updates == Updates(n, |entries|))
  {
    var legacy := LegacySet(entries);
    if legacy == {} {
      return CleanupReport(false, 0, 0, false, []);
    }
    report := DeleteLegacy(entries, legacy);
  }

  /** The counting loop over allFiles, against a given legacySet. */
  method DeleteLegacy(entries: seq<Entry>, legacy: set<string>) returns (report: CleanupReport)
    ensures var n := Processed(entries, legacy);
      && report.ran
      && report.deleted == Count(entries[..n], legacy, Deleted)
      && report.skipped == Count(entries[..n], legacy, Skipped)
      && (report.exited <==> exists k :: 0 <= k < |entries| && OutcomeOf(entries[k], legacy) == Fatal)
      && report.updates == Updates(n, |entries|)
  {
    var total := |entries|;
    var deleted, skipped := 0, 0;
    var updates := [];
    var index := 0;
    while index < total
      invariant 0 <= index <= total
      invariant forall k :: 0 <= k < index ==> OutcomeOf(entries[k], legacy) != Fatal
      invariant deleted == Count(entries[..index], legacy, Deleted)
      invariant skipped == Count(entries[..index], legacy, Skipped)
      invariant updates == Updates(index, total)
    {
      var e := entries[index];
      ghost var o := OutcomeOf(e, legacy);
      CountStep(entries, legacy, index);
      index := index + 1;
      if ShowsProgress(index, total) {
        updates := updates + [Progress(index, Percent(index, total))];
      }
      if !e.present || e.path !in legacy {
        skipped := skipped + 1;
      } else if e.deletion.Removed? {
        deleted := deleted + 1;
      } else if e.deletion.FileNotFound? {
        skipped := skipped + 1;
      } else if e.deletion.SharingViolation? || e.deletion.AccessDenied? || !e.deletion.fallbackRemoved {
        assert o == Fatal;
        ProcessedAtFatal(entries, legacy, index - 1);
        return CleanupReport(true, deleted, skipped, true, updates);
      } else {
        deleted := deleted + 1;
      }
    }
    assert entries[..index] == entries;
    report := CleanupReport(true, deleted, skipped, false, updates);
  }

  lemma CountStep(s: seq<Entry>, legacy: set<string>, i: nat)
    requires i < |s|
    ensures forall o :: Count(s[..i + 1], legacy, o) == Count(s[..i], legacy, o) + (if OutcomeOf(s[i], legacy) == o then 1 else 0)
  {
    assert s[..i + 1][..i] == s[..i];
  }

  lemma {:induction false} ProcessedAtFatal(s: seq<Entry>, legacy: set<string>, k: nat)
    requires k < |s| && OutcomeOf(s[k], legacy) == Fatal
    requires forall j :: 0 <= j < k ==> OutcomeOf(s[j], legacy) != Fatal
    ensures Processed(s, legacy) == k + 1
    decreases k
  {
    if k > 0 {
      assert forall j :: 0 <= j < k - 1 ==> s[1..][j] == s[j + 1];
      ProcessedAtFatal(s[1..], legacy, k - 1);
    }
  }

  /** Every file the loop looks at moves exactly one counter, or ends the
      process: deleted + skipped + (exited ? 1 : 0) is the number looked at. */
  lemma {:induction false} CountsPartition(s: seq<Entry>, legacy: set<string>)
    ensures Count(s, legacy, Deleted) + Count(s, legacy, Skipped) + Count(s, legacy, Fatal) == |s|
  {
    if s != [] {
      CountsPartition(s[..|s| - 1], legacy);
    }
  }

  lemma {:induction false} NoFatalCount(s: seq<Entry>, legacy: set<string>)
    requires forall k :: 0 <= k < |s| ==> OutcomeOf(s[k], legacy) != Fatal
    ensures Count(s, legacy, Fatal) == 0
  {
    if s != [] {
      NoFatalCount(s[..|s| - 1], legacy);
    }
  }

  lemma ProcessedAccounts(s: seq<Entry>, legacy: set<string>)
    ensures var n := Processed(s, legacy);
      var exited := n > 0 && OutcomeOf(s[n - 1], legacy) == Fatal;
      Count(s[..n], legacy, Deleted) + Count(s[..n], legacy, Skipped) + (if exited then 1 else 0) == n
  {
    var n := Processed(s, legacy);
    var p := s[..n];
    CountsPartition(p, legacy);
    if n > 0 {
      assert p[..n - 1] == s[..n - 1];
      NoFatalCount(s[..n - 1], legacy);
    }
  }

  /** A file that was gone, or was not classified for deletion, is never
      counted as deleted: with no such file present, everything is skipped. */
  lemma {:induction false} NothingOutsideLegacyDeleted(s: seq<Entry>, legacy: set<string>)
    requires forall k :: 0 <= k < |s| ==> !s[k].present || s[k].path !in legacy
    ensures Count(s, legacy, Deleted) == 0 && Count(s, legacy, Skipped) == |s|
  {
    if s != [] {
      NothingOutsideLegacyDeleted(s[..|s| - 1], legacy);
    }
  }

  /** The dialog is refreshed at the first file, at the last and at every
      25th, in order, each time with a percentage between 0 and 100. */
  lemma {:induction false} UpdatesFacts(n: nat, total: nat)
    requires n <= total
    ensures forall k :: 0 <= k < |Updates(n, total)| ==>
      var u := Updates(n, total)[k];
      1 <= u.index <= n && ShowsProgress(u.index, total) && u.percent == Percent(u.index, total) && 0 <= u.percent <= 100
    ensures forall k, l :: 0 <= k < l < |Updates(n, total)| ==> Updates(n, total)[k].index < Updates(n, total)[l].index
    ensures forall i :: 1 <= i <= n && ShowsProgress(i, total) ==> Progress(i, Percent(i, total)) in Updates(n, total)
  {
    if n > 0 {
      UpdatesFacts(n - 1, total);
      PercentInRange(n, total);
      var prev := Updates(n - 1, total);
      var tail := if ShowsProgress(n, total) then [Progress(n, Percent(n, total))] else [];
      assert Updates(n, total) == prev + tail;
      assert forall k :: 0 <= k < |prev| ==> (prev + tail)[k] == prev[k];
    }
  }

  lemma PercentInRange(index: nat, total: nat)
    requires index <= total
    ensures 0 <= Percent(index, total) <= 100
  {
    if total > 0 {
      assert index * 100 <= total * 100;
      assert (total * 100) / total == 100;
    }
  }

  /** The first refresh is at file 1 and, when the loop finishes, the last
      is at 100 percent. */
  lemma UpdatesEnds(total: nat)
    requires total > 0
    ensures Updates(1, total) == [Progress(1, 100 / total)]
    ensures var u := Updates(total, total); |u| > 0 && u[|u| - 1] == Progress(total, 100)
  {
    assert Percent(1, total) == 100 / total;
    assert Updates(1, total) == Updates(0, total) + [Progress(1, Percent(1, total))];
    assert total * 100 / total == 100;
    assert Updates(total, total) == Updates(total - 1, total) + [Progress(total, Percent(total, total))];
  }

  // ---------------------------------------------------------------------
  // Backup rotation of a log file

  const MAX_BACKUPS: nat := 20

  /** The index written with at least three digits, zero-filled to a width of three. */
  function Pad3(i: nat): (r: string)
    requires i < 1000
    ensures |r| == 3 && AllDigits(r) && DecimalValue(r) == i
  {
    var r := [DigitChar(i / 100), DigitChar(i / 10 % 10), DigitChar(i % 10)];
    assert DecimalValue(r[..1]) == i / 100 by {
      assert r[..1][..0] == [];
    }
    assert DecimalValue(r[..2]) == i / 10 by {
      assert r[..2][..1] == r[..1];
    }
    r
  }

  /** "<ospath>.<index>" */
  function BackupName(ospath: string, i: nat): string
    requires i < 1000
  {
    ospath + "." + Pad3(i)
  }

  /** Distinct slots have distinct file names, so the rename never lands
      on another slot. */
  lemma BackupNamesDistinct(ospath: string, i: nat, j: nat)
    requires i < 1000 && j < 1000 && i != j
    ensures BackupName(ospath, i) != BackupName(ospath, j)
  {
    var a, b := BackupName(ospath, i), BackupName(ospath, j);
    assert a[|ospath| + 1..] == Pad3(i);
    assert b[|ospath| + 1..] == Pad3(j);
  }

  /** What the rotation does with the file: nothing when it does not exist,
      a rename into the first free slot, or, with every slot taken, the
      removal of the oldest backup and a rename into its slot. */
  datatype Rotation = NothingToRotate | MoveTo(slot: nat, target: string) | ReplaceOldest(slot: nat, target: string)

  /** FileWrapper_Rotate. backups[i] is the last-write time of backup i, or
      None when that file does not exist; renameOk is whether
      std::filesystem::rename succeeds. */
  method FileWrapperRotate(ospath: string, sourceExists: bool, backups: seq<Option<int>>, renameOk: bool)
    returns (ok: bool, rotation: Rotation)
    requires |backups| == MAX_BACKUPS
    ensures !sourceExists ==> ok && rotation == NothingToRotate
    ensures sourceExists ==>
      && !rotation.NothingToRotate? && ok == renameOk
      && rotation.slot < MAX_BACKUPS && rotation.target == BackupName(ospath, rotation.slot)
    ensures sourceExists && (exists i :: 0 <= i < MAX_BACKUPS && backups[i].None?) ==>
      && rotation.MoveTo?
      && backups[rotation.slot].None?
      && (forall j :: 0 <= j < rotation.slot ==> backups[j].Some?)
    ensures sourceExists && (forall i :: 0 <= i < MAX_BACKUPS ==> backups[i].Some?) ==>
      && rotation.ReplaceOldest?
      && (forall j :: 0 <= j < MAX_BACKUPS ==> backups[rotation.slot].value <= backups[j].value)
      && (forall j :: 0 <= j < rotation.slot ==> backups[rotation.slot].value < backups[j].value)
  {
    if !sourceExists {
      return true, NothingToRotate;
    }
    var oldest: Option<nat> := None;
    var oldestTime := 0;
    var current := 0;
    while current < MAX_BACKUPS
      invariant 0 <= current <= MAX_BACKUPS
      invariant forall j :: 0 <= j < current ==> backups[j].Some?
      invariant oldest.None? <==> current == 0
      invariant oldest.Some? ==> oldest.value < current && backups[oldest.value].value == oldestTime
      invariant oldest.Some? ==> forall j :: 0 <= j < current ==> oldestTime <= backups[j].value
      invariant oldest.Some? ==> forall j :: 0 <= j < oldest.value ==> oldestTime < backups[j].value
    {
      if backups[current].None? {
        break;
      }
      var time := backups[current].value;
      if oldest.None? || time < oldestTime {
        oldestTime := time;
        oldest := Some(current);
      }
      current := current + 1;
    }
    if current == MAX_BACKUPS {
      rotation := ReplaceOldest(oldest.value, BackupName(ospath, oldest.value));
    } else {
      rotation := MoveTo(current, BackupName(ospath, current));
    }
    ok := renameOk;
  }

  // ---------------------------------------------------------------------
  // File listings

  /** The names of a listing, without its null entries, in order. */
  function NonNull(files: seq<Option<string>>): (r: seq<string>)
    ensures |r| <= |files|
  {
    if files == [] then []
    else NonNull(files[..|files| - 1]) + (if files[|files| - 1].Some? then [files[|files| - 1].value] else [])
  }

  /** GetFileList: files is what FS_ListFiles returned, None for a null list. */
  method GetFileList(files: Option<seq<Option<string>>>) returns (fileList: seq<string>)
    ensures files.None? ==> fileList == []
    ensures files.Some? ==> fileList == NonNull(files.value)
  {
    fileList := [];
    if files.Some? {
      var list := files.value;
      for i := 0 to |list|
        invariant fileList == NonNull(list[..i])
      {
        assert list[..i + 1][..i] == list[..i];
        if list[i].Some? {
          fileList := fileList + [list[i].value];
        }
      }
      assert list[..|list|] == list;
    }
  }

  /** A name is listed exactly when the engine returned it. */
  lemma {:induction false} NonNullMembers(files: seq<Option<string>>, name: string)
    ensures name in NonNull(files) <==> Some(name) in files
  {
    if files != [] {
      var init := files[..|files| - 1];
      NonNullMembers(init, name);
      assert files == init + [files[|files| - 1]];
    }
  }

  /** The listing keeps the engine's order: it filters each part on its own. */
  lemma {:induction false} NonNullAppend(a: seq<Option<string>>, b: seq<Option<string>>)
    ensures NonNull(a + b) == NonNull(a) + NonNull(b)
    decreases |b|
  {
    if b == [] {
      assert a + b == a;
    } else {
      var init := b[..|b| - 1];
      assert (a + b)[..|a + b| - 1] == a + init;
      assert (a + b)[|a + b| - 1] == b[|b| - 1];
      NonNullAppend(a, init);
    }
  }

  /** Without null entries nothing is dropped. */
  lemma {:induction false} NonNullOfNames(files: seq<Option<string>>)
    requires forall i :: 0 <= i < |files| ==> files[i].Some?
    ensures |NonNull(files)| == |files|
    ensures forall i :: 0 <= i < |files| ==> NonNull(files)[i] == files[i].value
  {
    if files != [] {
      NonNullOfNames(files[..|files| - 1]);
    }
  }

  // ---------------------------------------------------------------------
  // Reading a whole file

  /** An open FileReader: whether the file was found and the size the
      engine reported. */
  datatype Reader = Reader(present: bool, size: int)

  /** size_t of the 32-bit build: a negative int wraps to a large value. */
  function SizeT(x: int): nat
    requires IsInt32(x)
  {
    if x < 0 then x + UINT32_MAX + 1 else x
  }

  /** int of a size_t of the 32-bit build. */
  function IntOfSizeT(n: nat): int
  {
    if n > INT32_MAX then n - (UINT32_MAX + 1) else n
  }

  /** FileReader::exists: a handle and a non-negative size. */
  predicate ReaderExists(r: Reader)
  {
    r.present && 0 <= r.size
  }

  /** FileReader::read: returned is what FS_Read reports for a request of
      request bytes. */
  predicate ReaderRead(r: Reader, request: nat, returned: int)
    requires IsInt32(r.size) && request <= UINT32_MAX
  {
    ReaderExists(r) && !(SizeT(r.size) < request) && returned == IntOfSizeT(request)
  }

  /** For every reported size, a read succeeds exactly when the reader
      exists, the request fits in the file and FS_Read returns every byte
      asked for; a reader without a handle or with a negative size never
      reads. */
  lemma ReaderReadWhole(r: Reader, request: nat, returned: int)
    requires IsInt32(r.size) && request <= INT32_MAX
    ensures ReaderRead(r, request, returned) <==> r.present && 0 <= r.size && request <= r.size && returned == request
    ensures !ReaderExists(r) ==> !ReaderRead(r, request, returned)
  {
  }

  /** What ReadFile leaves in *buffer. */
  datatype BufferState = Untouched | Allocated(capacity: int) | Cleared

  /** ReadFile(path, buffer): pathGiven and bufferGiven say whether the
      pointers are non-null, returned is what FS_Read reports. */
  function ReadFile(pathGiven: bool, bufferGiven: bool, r: Reader, returned: int): (result: (int, BufferState))
    requires IsInt32(r.size)
    ensures result.0 >= 0 <==> pathGiven && bufferGiven && r.present && 0 <= r.size && returned == r.size
    ensures result.0 >= 0 ==> result == (r.size, Allocated(r.size + 1))
    ensures result.0 < 0 ==> result.0 == -1 && !result.1.Allocated?
    ensures result.1 == Cleared <==> pathGiven && bufferGiven && r.present && 0 <= r.size && result.0 == -1
  {
    if !bufferGiven || !pathGiven then (-1, Untouched)
    else if ReaderExists(r) then
      if ReaderRead(r, r.size, returned) then (r.size, Allocated(r.size + 1))
      else (-1, Cleared)
    else (-1, Untouched)
  }
}

=== FILE: menus.dfy ===
/** The bookkeeping of the Menus component: the keyword hash of the menu
    parser, the table of script source handles, the removal of a menu from
    a UI context, the tracking of menus loaded from disk that override the
    game's own, and the name normalisation of the menu asset hook.

    A menuDef_t pointer is a MenuPtr: Null, or a menu with an identity and
    its window name. The two UI contexts are fixed-capacity arrays with
    counts, as in the engine. */
module Menus {
  import opened Text

  // ---------------------------------------------------------------------
  // The keyword hash

  /** The seed of the menu parser's table (KeywordHashEntry<menuDef_t, 128,
      3523>). */
  const MENU_HASH_SEED := 3523
  const HASH_COUNT := 128

  /** A 32-bit signed int after wrap-around. */
  function Wrap32(x: int): (r: int)
    ensures IsInt32(r) && (r - x) % 0x1_0000_0000 == 0
  {
    var low := x % 0x1_0000_0000;
    if low > INT32_MAX then low - 0x1_0000_0000 else low
  }

  /** The running sum of KeywordHashKey after the whole keyword:
      the i-th byte, lower-cased, weighted by i + seed. */
  function HashSum(keyword: seq<Byte>, seed: int): int
  {
    if keyword == [] then 0
    else
      var i := |keyword| - 1;
      Wrap32(HashSum(keyword[..i], seed) + (i + seed) * Lower(keyword[i]) as int)
  }

  /** The final fold: (hash + (hash >> 8)) & 127, where >> on a negative
      int is an arithmetic shift, that is, a floor division. */
  function KeyOfSum(hash: int): (key: int)
    ensures 0 <= key < HASH_COUNT
  {
    (hash + hash / 256) % HASH_COUNT
  }

  function KeywordKey(keyword: seq<Byte>, seed: int): (key: int)
    ensures 0 <= key < HASH_COUNT
  {
    KeyOfSum(HashSum(keyword, seed))
  }

  /** KeywordHashKey */
  method KeywordHashKey(keyword: seq<Byte>, seed: int) returns (key: int)
    ensures key == KeywordKey(keyword, seed)
    ensures 0 <= key < HASH_COUNT
  {
    var hash := 0;
    var i := 0;
    while i < |keyword|
      invariant 0 <= i <= |keyword|
      invariant hash == HashSum(keyword[..i], seed)
    {
      assert keyword[..i + 1][..i] == keyword[..i];
      hash := Wrap32(hash + (i + seed) * Lower(keyword[i]) as int);
      i := i + 1;
    }
    assert keyword[..i] == keyword;
    key := (hash + hash / 256) % HASH_COUNT;
  }

  lemma LowerIdempotent(c: char)
    ensures Lower(Lower(c)) == Lower(c)
  {
  }

  /** The bytes of s lower-cased, as bytes. */
  function LowerBytes(s: seq<Byte>): (r: seq<Byte>)
    ensures |r| == |s| && forall i :: 0 <= i < |s| ==> r[i] == Lower(s[i])
  {
    seq(|s|, i requires 0 <= i < |s| => Lower(s[i]))
  }

  /** The hash only sees the lower-cased keyword. */
  lemma {:induction false} HashSumOfLower(keyword: seq<Byte>, seed: int)
    ensures HashSum(LowerBytes(keyword), seed) == HashSum(keyword, seed)
  {
    if keyword != [] {
      var i := |keyword| - 1;
      assert LowerBytes(keyword)[..i] == LowerBytes(keyword[..i]);
      HashSumOfLower(keyword[..i], seed);
      LowerIdempotent(keyword[i]);
    }
  }

  /** Keywords that are equal but for case hash to the same bucket. */
  lemma KeywordKeyIgnoresCase(a: seq<Byte>, b: seq<Byte>, seed: int)
    requires EqualsIgnoreCase(a, b)
    ensures KeywordKey(a, seed) == KeywordKey(b, seed)
  {
    HashSumOfLower(a, seed);
    HashSumOfLower(b, seed);
    assert LowerBytes(a) == ToLower(a) == ToLower(b) == LowerBytes(b);
  }

  /** A keyword entry of the parser's table. */
  datatype KeywordEntry = KeywordEntry(keyword: seq<Byte>, handler: nat)

  /** KeywordHashFind: the entry in the keyword's bucket, if its keyword
      matches case-insensitively. */
  function KeywordHashFind(table: seq<Option<KeywordEntry>>, keyword: seq<Byte>, seed: int): (r: Option<KeywordEntry>)
    requires |table| == HASH_COUNT
    ensures r.Some? ==> r == table[KeywordKey(keyword, seed)] && EqualsIgnoreCase(r.value.keyword, keyword)
    ensures r.None? ==> table[KeywordKey(keyword, seed)].None?
                        || !EqualsIgnoreCase(table[KeywordKey(keyword, seed)].value.keyword, keyword)
  {
    var entry := table[KeywordKey(keyword, seed)];
    if entry.Some? && EqualsIgnoreCase(entry.value.keyword, keyword) then entry else None
  }

  /** An entry filed under its own keyword's bucket is found by that keyword
      written in any case. */
  lemma FindAnyCase(table: seq<Option<KeywordEntry>>, e: KeywordEntry, keyword: seq<Byte>, seed: int)
    requires |table| == HASH_COUNT && table[KeywordKey(e.keyword, seed)] == Some(e)
    requires EqualsIgnoreCase(e.keyword, keyword)
    ensures KeywordHashFind(table, keyword, seed) == Some(e)
  {
    KeywordKeyIgnoresCase(e.keyword, keyword, seed);
  }

  // ---------------------------------------------------------------------
  // Script source handles

  /** MAX_SOURCEFILES */
  const MAX_SOURCEFILES := 64

  /** The first empty slot of 1 .. 63 at or after `from`, or 0 when all are
      taken. */
  function FirstFree(slots: seq<bool>, from: nat): (h: nat)
    requires |slots| == MAX_SOURCEFILES && 1 <= from
    ensures h == 0 || (from <= h < MAX_SOURCEFILES && !slots[h])
    ensures h == 0 <==> forall i :: from <= i < MAX_SOURCEFILES ==> slots[i]
    ensures h != 0 ==> forall i :: from <= i < h ==> slots[i]
    decreases MAX_SOURCEFILES - from
  {
    if from >= MAX_SOURCEFILES then 0
    else if !slots[from] then from
    else FirstFree(slots, from + 1)
  }

  /** Game::sourceFiles, reduced to which slots hold a source. */
  class SourceTable {
    const slots: array<bool>

    constructor ()
      ensures slots.Length == MAX_SOURCEFILES && forall i :: 0 <= i < MAX_SOURCEFILES ==> !slots[i]
    {
      slots := new bool[MAX_SOURCEFILES](_ => false);
    }

    /** Menus::IsValidSourceHandle */
    predicate IsValidSourceHandle(h: int)
      reads this, slots
      requires slots.Length == MAX_SOURCEFILES
    {
      0 < h < MAX_SOURCEFILES && slots[h]
    }

    /** Menus::ReserveSourceHandle: marks the smallest empty slot of 1 .. 63
        taken and returns it; 0 and no change when every slot is taken. */
    method ReserveSourceHandle() returns (h: int)
      requires slots.Length == MAX_SOURCEFILES
      modifies slots
      ensures h == FirstFree(old(slots[..]), 1)
      ensures slots[..] == if h == 0 then old(slots[..]) else old(slots[..])[h := true]
      ensures h != 0 ==> IsValidSourceHandle(h)
    {
      var i := 1;
      while i < MAX_SOURCEFILES
        invariant 1 <= i <= MAX_SOURCEFILES
        invariant FirstFree(slots[..], i) == FirstFree(slots[..], 1)
      {
        if !slots[i] {
          break;
        }
        i := i + 1;
      }
      if i >= MAX_SOURCEFILES {
        return 0;
      }
      slots[i] := true;
      h := i;
    }

    /** Menus::FreeMenuSource: an invalid handle is ignored; a valid one's
        slot is emptied. */
    method FreeMenuSource(h: int)
      requires slots.Length == MAX_SOURCEFILES
      modifies slots
      ensures slots[..] == if 0 < h < MAX_SOURCEFILES && old(slots[h]) then old(slots[..])[h := false] else old(slots[..])
      ensures !IsValidSourceHandle(h)
    {
      if !IsValidSourceHandle(h) {
        return;
      }
      slots[h] := false;
    }

    /** Menus::LoadMenuSource, with the script allocation's success as a
        parameter: a reserved slot whose script cannot be allocated is freed
        again, and 0 is returned. */
    method LoadMenuSource(scriptAllocated: bool) returns (h: int)
      requires slots.Length == MAX_SOURCEFILES
      modifies slots
      ensures var free := FirstFree(old(slots[..]), 1);
        && h == (if scriptAllocated then free else 0)
        && slots[..] == if h == 0 then old(slots[..]) else old(slots[..])[h := true]
    {
      var handle := ReserveSourceHandle();
      if !IsValidSourceHandle(handle) {
        return 0;
      }
      if !scriptAllocated {
        slots[handle] := false;
        assert slots[..] == old(slots[..]);
        return 0;
      }
      h := handle;
    }

    /** The handle's life in Menus::LoadMenuByName_Recursive: the menu
        file's source is loaded and, when its handle is valid, freed once
        parsing ends. The handle is the first free slot when the script
        could be allocated, and the table ends exactly as it started. */
    method LoadAndFreeSource(scriptAllocated: bool) returns (h: int)
      requires slots.Length == MAX_SOURCEFILES
      modifies slots
      ensures h == if scriptAllocated then FirstFree(old(slots[..]), 1) else 0
      ensures slots[..] == old(slots[..])
    {
      h := LoadMenuSource(scriptAllocated);
      if IsValidSourceHandle(h) {
        FreeMenuSource(h);
      }
    }
  }

  // ---------------------------------------------------------------------
  // Removing a menu from a UI context

  /** A menuDef_t pointer: null, or a menu with an identity and its
      window name. */
  datatype MenuPtr = Null | Menu(id: nat, name: string)

  /** s without any occurrence of m, the rest in order. */
  function Without(s: seq<MenuPtr>, m: MenuPtr): seq<MenuPtr>
  {
    if s == [] then []
    else Without(s[..|s| - 1], m) + (if s[|s| - 1] == m then [] else [s[|s| - 1]])
  }

  /** The number of occurrences of m in s. */
  function Occurrences(s: seq<MenuPtr>, m: MenuPtr): nat
  {
    if s == [] then 0 else Occurrences(s[..|s| - 1], m) + (if s[|s| - 1] == m then 1 else 0)
  }

  /** Removal drops every occurrence of m and keeps every other menu as
      often as it was there, so the length falls by the number of
      occurrences of m. */
  lemma {:induction false} WithoutFacts(s: seq<MenuPtr>, m: MenuPtr)
    ensures |Without(s, m)| == |s| - Occurrences(s, m)
    ensures Occurrences(Without(s, m), m) == 0
    ensures forall x :: x != m ==> Occurrences(Without(s, m), x) == Occurrences(s, x)
  {
    if s != [] {
      var init, last := s[..|s| - 1], s[|s| - 1];
      WithoutFacts(init, m);
      var w := Without(s, m);
      if last != m {
        assert w == Without(init, m) + [last];
        assert w[..|w| - 1] == Without(init, m) && w[|w| - 1] == last;
      } else {
        assert w == Without(init, m);
      }
    }
  }

  lemma {:induction false} OccurrencesIn(s: seq<MenuPtr>, m: MenuPtr)
    ensures m in s <==> Occurrences(s, m) > 0
  {
    if s != [] {
      OccurrencesIn(s[..|s| - 1], m);
      assert s == s[..|s| - 1] + [s[|s| - 1]];
    }
  }

  lemma {:induction false} WithoutAbsent(s: seq<MenuPtr>, m: MenuPtr)
    requires m !in s
    ensures Without(s, m) == s
  {
    if s != [] {
      var init, last := s[..|s| - 1], s[|s| - 1];
      assert s == init + [last];
      WithoutAbsent(init, m);
      assert Without(s, m) == Without(init, m) + [last];
    }
  }

  predicate AllNull(s: seq<MenuPtr>)
  {
    forall k :: 0 <= k < |s| ==> s[k] == Null
  }

  lemma WithoutStep(s: seq<MenuPtr>, p: int, m: MenuPtr)
    requires 0 <= p < |s|
    ensures Without(s[..p + 1], m) == Without(s[..p], m) + (if s[p] == m then [] else [s[p]])
  {
    assert s[..p + 1][..p] == s[..p];
  }

  /** The inner loop of RemoveMenuFromContext and the store that follows
      it: a[i + 1 .. n) moves down one place and the vacated slot a[n - 1]
      is nulled. */
  method RemoveAt(a: array<MenuPtr>, i: int, n: int)
    requires 0 <= i < n <= a.Length
    modifies a
    ensures a[..i] == old(a[..i]) && a[i..n - 1] == old(a[i + 1..n])
    ensures a[n - 1] == Null && a[n..] == old(a[n..])
  {
    for j := i to n - 1
      invariant a[..i] == old(a[..i])
      invariant a[i..j] == old(a[i + 1..j + 1])
      invariant a[j..] == old(a[j..])
    {
      a[j] := a[j + 1];
      assert a[i..j + 1] == a[i..j] + [a[j]];
    }
    a[n - 1] := Null;
  }

  /** The state of RemoveAll after it has looked at p of the `count`
      original menus and kept i of them: the kept ones come first, the
      unseen ones follow, then one null per removal, then the untouched
      rest of the array. */
  ghost predicate Removing(cur: seq<MenuPtr>, original: seq<MenuPtr>, rest: seq<MenuPtr>,
                           m: MenuPtr, i: int, n: int, p: int)
  {
    var count := |original|;
    0 <= i <= n <= count && p == i + (count - n) && |cur| == count + |rest|
    && cur[..i] == Without(original[..p], m)
    && cur[i..n] == original[p..]
    && AllNull(cur[n..count])
    && cur[count..] == rest
  }

  lemma RemovingSkip(cur: seq<MenuPtr>, original: seq<MenuPtr>, rest: seq<MenuPtr>,
                     m: MenuPtr, i: int, n: int, p: int)
    requires Removing(cur, original, rest, m, i, n, p) && i < n && cur[i] != m
    ensures Removing(cur, original, rest, m, i + 1, n, p + 1)
  {
    assert cur[i] == cur[i..n][0] == original[p];
    WithoutStep(original, p, m);
    assert cur[..i + 1] == cur[..i] + [cur[i]];
    assert cur[i + 1..n] == cur[i..n][1..];
  }

  lemma RemovingDrop(cur: seq<MenuPtr>, next: seq<MenuPtr>, original: seq<MenuPtr>, rest: seq<MenuPtr>,
                     m: MenuPtr, i: int, n: int, p: int)
    requires Removing(cur, original, rest, m, i, n, p) && i < n && cur[i] == m
    requires |next| == |cur| && next[..i] == cur[..i] && next[i..n - 1] == cur[i + 1..n]
    requires next[n - 1] == Null && next[n..] == cur[n..]
    ensures Removing(next, original, rest, m, i, n - 1, p + 1)
  {
    var count := |original|;
    assert cur[i] == cur[i..n][0] == original[p];
    WithoutStep(original, p, m);
    assert cur[i + 1..n] == cur[i..n][1..];
    assert AllNull(next[n - 1..count]) by {
      forall k | n <= k < count
        ensures next[k] == Null
      {
        assert next[k] == next[n..][k - n] == cur[n..][k - n] == cur[n..count][k - n];
      }
    }
    assert next[count..] == next[n..][count - n..];
  }

  lemma RemovingStart(original: seq<MenuPtr>, rest: seq<MenuPtr>, m: MenuPtr)
    ensures Removing(original + rest, original, rest, m, 0, |original|, 0)
  {
    var cur := original + rest;
    assert cur[..0] == [] == Without(original[..0], m);
    assert cur[0..|original|] == original == original[0..];
  }

  /** When RemoveAll's loop ends, the array holds the kept menus, then
      one null per removal, then the untouched rest. */
  lemma RemovingDone(cur: seq<MenuPtr>, original: seq<MenuPtr>, rest: seq<MenuPtr>,
                     m: MenuPtr, i: int, n: int, p: int)
    requires Removing(cur, original, rest, m, i, n, p) && i >= n
    ensures 0 <= n <= |original| && cur[..n] == Without(original, m)
    ensures n == |original| - Occurrences(original, m)
    ensures AllNull(cur[n..|original|]) && cur[|original|..] == rest
  {
    assert original[..p] == original;
    WithoutFacts(original, m);
  }

  /** One pass of the loop of RemoveAll: the menu at i is either kept, or
      removed by RemoveAt and the count decremented. */
  method RemoveStep(a: array<MenuPtr>, m: MenuPtr, i: int, n: int,
                    ghost original: seq<MenuPtr>, ghost rest: seq<MenuPtr>, ghost p: int)
    returns (i': int, n': int)
    requires Removing(a[..], original, rest, m, i, n, p) && i < n
    modifies a
    ensures Removing(a[..], original, rest, m, i', n', p + 1)
    ensures n' - i' == n - i - 1
  {
    if a[i] == m {
      ghost var cur := a[..];
      RemoveAt(a, i, n);
      RemovingDrop(cur, a[..], original, rest, m, i, n, p);
      i', n' := i, n - 1;
    } else {
      RemovingSkip(a[..], original, rest, m, i, n, p);
      i', n' := i + 1, n;
    }
  }

  /** One of the two loops of RemoveMenuFromContext, on the array a holding
      `count` menus: every occurrence of m is removed by shifting the rest
      down, each removal nulls the slot it vacates, and the count drops by
      one per removal. */
  method RemoveAll(a: array<MenuPtr>, count: int, m: MenuPtr) returns (newCount: int)
    requires 0 <= count <= a.Length
    modifies a
    ensures 0 <= newCount <= count
    ensures a[..newCount] == Without(old(a[..count]), m)
    ensures newCount == count - Occurrences(old(a[..count]), m)
    ensures AllNull(a[newCount..count])
    ensures a[count..] == old(a[count..])
  {
    ghost var original, rest := a[..count], a[count..];
    var i := 0;
    newCount := count;
    ghost var p := 0;
    assert a[..] == original + rest;
    RemovingStart(original, rest, m);
    while i < newCount
      invariant Removing(a[..], original, rest, m, i, newCount, p)
      decreases newCount - i
    {
      i, newCount := RemoveStep(a, m, i, newCount, original, rest, p);
      p := p + 1;
    }
    RemovingDone(a[..], original, rest, m, i, newCount, p);
  }

  // ---------------------------------------------------------------------
  // UI contexts

  /** p is a menu whose window name equals name, case aside. */
  predicate Named(p: MenuPtr, name: string)
  {
    p.Menu? && EqualsIgnoreCase(p.name, name)
  }

  /** Menus_FindByName: the first loaded menu carrying the name, or Null. */
  function FindByName(s: seq<MenuPtr>, name: string): (r: MenuPtr)
    ensures r != Null ==> r in s && Named(r, name)
    ensures r != Null ==> exists k :: 0 <= k < |s| && s[k] == r && forall j :: 0 <= j < k ==> !Named(s[j], name)
    ensures r == Null <==> forall k :: 0 <= k < |s| ==> !Named(s[k], name)
  {
    if s == [] then Null
    else if Named(s[0], name) then s[0]
    else
      var r := FindByName(s[1..], name);
      assert forall k :: 1 <= k < |s| ==> s[k] == s[1..][k - 1];
      r
  }

  /** What a UI context holds: the loaded menus Menus[0 .. menuCount), the
      open ones menuStack[0 .. openMenuCount), and the capacity of Menus. */
  datatype Ctx = Ctx(loaded: seq<MenuPtr>, open: seq<MenuPtr>, capacity: nat)

  /** The loaded menus fit the array. */
  predicate Fits(c: Ctx)
  {
    |c.loaded| <= c.capacity
  }

  /** The context after RemoveMenuFromContext(m); a null m changes
      nothing. */
  function RemoveFrom(c: Ctx, m: MenuPtr): Ctx
  {
    if m == Null then c else c.(loaded := Without(c.loaded, m), open := Without(c.open, m))
  }

  /** The context after the "add if not there yet and there is room" step
      shared by AfterLoadedMenuFromDisk and PrepareToUnloadMenu. */
  function AppendMissing(c: Ctx, m: MenuPtr): Ctx
  {
    if m in c.loaded || |c.loaded| >= c.capacity then c else c.(loaded := c.loaded + [m])
  }

  /** Removal takes m out of both arrays and shortens the loaded menus by
      the number of times m was there. */
  lemma RemoveFromDrops(c: Ctx, m: MenuPtr)
    requires m != Null
    ensures var r := RemoveFrom(c, m);
      && m !in r.loaded && m !in r.open && r.capacity == c.capacity
      && |r.loaded| == |c.loaded| - Occurrences(c.loaded, m)
      && (m in c.loaded ==> |r.loaded| < |c.loaded|)
  {
    WithoutFacts(c.loaded, m);
    OccurrencesIn(c.loaded, m);
    OccurrencesIn(Without(c.loaded, m), m);
    WithoutFacts(c.open, m);
    OccurrencesIn(Without(c.open, m), m);
  }

  /** Removal keeps every other menu as often as it was there. */
  lemma RemoveFromKeeps(c: Ctx, m: MenuPtr, x: MenuPtr)
    requires x != m
    ensures var r := RemoveFrom(c, m);
      Occurrences(r.loaded, x) == Occurrences(c.loaded, x) && Occurrences(r.open, x) == Occurrences(c.open, x)
  {
    if m != Null {
      WithoutFacts(c.loaded, m);
      WithoutFacts(c.open, m);
    }
  }

  /** Appending adds m exactly when it was missing and there was room,
      never past the capacity, and never twice; the open menus stay. */
  lemma AppendMissingAdds(c: Ctx, m: MenuPtr)
    ensures var r := AppendMissing(c, m);
      && (m in r.loaded <==> m in c.loaded || |c.loaded| < c.capacity)
      && (|c.loaded| <= c.capacity ==> |r.loaded| <= c.capacity)
      && (Occurrences(c.loaded, m) <= 1 ==> Occurrences(r.loaded, m) <= 1)
      && (m !in c.loaded ==> Occurrences(r.loaded, m) == |r.loaded| - |c.loaded|)
      && r.open == c.open && r.capacity == c.capacity
  {
    var r := AppendMissing(c, m);
    OccurrencesIn(c.loaded, m);
    if r.loaded != c.loaded {
      assert r.loaded[..|r.loaded| - 1] == c.loaded;
    }
  }

  /** Appending keeps every other menu as often as it was there. */
  lemma AppendMissingKeeps(c: Ctx, m: MenuPtr, x: MenuPtr)
    requires x != m
    ensures Occurrences(AppendMissing(c, m).loaded, x) == Occurrences(c.loaded, x)
  {
    var r := AppendMissing(c, m);
    if r.loaded != c.loaded {
      assert r.loaded[..|r.loaded| - 1] == c.loaded;
    }
  }

  /** Game::UiContext, reduced to its two menu arrays. */
  class UiContext {
    const menus: array<MenuPtr>
    var menuCount: int
    const menuStack: array<MenuPtr>
    var openMenuCount: int

    ghost predicate Valid()
      reads this
    {
      menus != menuStack && 0 <= menuCount <= menus.Length && 0 <= openMenuCount <= menuStack.Length
    }

    function Snapshot(): Ctx
      reads this, menus, menuStack
      requires Valid()
    {
      Ctx(menus[..menuCount], menuStack[..openMenuCount], menus.Length)
    }

    constructor (capacity: nat, stackCapacity: nat)
      ensures Valid() && Snapshot() == Ctx([], [], capacity)
      ensures fresh(menus) && fresh(menuStack)
    {
      menus := new MenuPtr[capacity](_ => Null);
      menuCount := 0;
      menuStack := new MenuPtr[stackCapacity](_ => Null);
      openMenuCount := 0;
    }

    /** Menus::RemoveMenuFromContext: every occurrence of m leaves both
        arrays, the vacated slots are nulled, and a null m changes
        nothing. */
    method RemoveMenu(m: MenuPtr)
      requires Valid()
      modifies this, menus, menuStack
      ensures Valid() && Snapshot() == RemoveFrom(old(Snapshot()), m)
      ensures menuCount <= old(menuCount) && openMenuCount <= old(openMenuCount)
      ensures AllNull(menus[menuCount..old(menuCount)])
      ensures AllNull(menuStack[openMenuCount..old(openMenuCount)])
    {
      if m == Null {
        return;
      }
      menuCount := RemoveAll(menus, menuCount, m);
      openMenuCount := RemoveAll(menuStack, openMenuCount, m);
    }

    /** The search loop before an append: whether m is loaded. */
    method Contains(m: MenuPtr) returns (found: bool)
      requires Valid()
      ensures found <==> m in Snapshot().loaded
    {
      found := false;
      var i := 0;
      while i < menuCount
        invariant 0 <= i <= menuCount
        invariant m !in menus[..i]
      {
        if menus[i] == m {
          return true;
        }
        assert menus[..i + 1] == menus[..i] + [menus[i]];
        i := i + 1;
      }
      assert menus[..i] == Snapshot().loaded;
    }

    /** Appends m to the loaded menus unless it is there already or the
        array is full. */
    method AddMissing(m: MenuPtr)
      requires Valid()
      modifies this, menus
      ensures Valid() && Snapshot() == AppendMissing(old(Snapshot()), m)
    {
      var present := Contains(m);
      if present || menuCount >= menus.Length {
        return;
      }
      menus[menuCount] := m;
      menuCount := menuCount + 1;
      assert menus[..menuCount] == old(menus[..menuCount]) + [m];
    }

    /** One context's share of Menus::PrepareToUnloadMenu. */
    method RemoveThenRestore(menu: MenuPtr, original: MenuPtr)
      requires Valid()
      modifies this, menus, menuStack
      ensures Valid() && Snapshot() == Reinstate(old(Snapshot()), menu, original)
    {
      RemoveMenu(menu);
      if original != Null {
        AddMissing(original);
      }
    }
  }

  // ---------------------------------------------------------------------
  // Menus loaded from disk

  /** The state the component keeps: the two UI contexts (Game::uiContext
      and the in-game Game::cgDC), OverridenMenus (the game menu each disk
      menu replaced, Null for a brand new one), MenusFromDisk and
      MenuListsFromDisk. */
  datatype World = World(ui: Ctx, cg: Ctx, overrides: map<string, MenuPtr>,
                         fromDisk: map<string, MenuPtr>, lists: map<string, seq<MenuPtr>>)

  /** MenusFromDisk files each menu under its own window name. */
  predicate DiskKeyed(d: map<string, MenuPtr>)
  {
    forall n :: n in d ==> d[n].Menu? && d[n].name == n
  }

  /** Menus::MenuAlreadyExists: a context finds a menu by that name. */
  predicate MenuAlreadyExists(w: World, name: string)
  {
    FindByName(w.ui.loaded, name) != Null || FindByName(w.cg.loaded, name) != Null
  }

  /** The search at the head of AfterLoadedMenuFromDisk: the first context,
      in the order uiContext then cgDC, whose find by the menu's name
      returns a menu other than the new one; Null when there is none. */
  function ExistingOther(w: World, menu: MenuPtr): (r: MenuPtr)
    requires menu.Menu?
    ensures r != Null ==> r != menu && Named(r, menu.name) && (r in w.ui.loaded || r in w.cg.loaded)
    ensures menu !in w.ui.loaded && menu !in w.cg.loaded ==> (r == Null <==> !MenuAlreadyExists(w, menu.name))
  {
    var inUi := FindByName(w.ui.loaded, menu.name);
    if inUi != Null && inUi != menu then inUi
    else
      var inCg := FindByName(w.cg.loaded, menu.name);
      if inCg != Null && inCg != menu then inCg else Null
  }

  /** Menus::AfterLoadedMenuFromDisk */
  function AfterLoadedStep(w: World, menu: MenuPtr): (r: World)
    requires menu.Menu?
    ensures r.fromDisk == w.fromDisk && r.lists == w.lists
  {
    var name := menu.name;
    var existing := ExistingOther(w, menu);
    var w1 :=
      if existing != Null then
        w.(overrides := if name !in w.overrides || w.overrides[name] == Null then w.overrides[name := existing] else w.overrides,
           ui := RemoveFrom(w.ui, existing),
           cg := RemoveFrom(w.cg, existing))
      else w.(overrides := w.overrides[name := Null]);
    w1.(ui := AppendMissing(w1.ui, menu))
  }

  /** One context in PrepareToUnloadMenu: the menu leaves it, then the
      menu it replaced, if any, comes back when missing and there is room. */
  function Reinstate(c: Ctx, menu: MenuPtr, original: MenuPtr): Ctx
  {
    var r := RemoveFrom(c, menu);
    if original != Null then AppendMissing(r, original) else r
  }

  /** The menu a disk menu of this name replaced, Null when none. */
  function OriginalOf(w: World, name: string): MenuPtr
  {
    if name in w.overrides then w.overrides[name] else Null
  }

  /** Menus::PrepareToUnloadMenu */
  function PrepareUnloadStep(w: World, menu: MenuPtr): (r: World)
    requires menu.Menu?
    ensures r.fromDisk == w.fromDisk && r.lists == w.lists
  {
    var original := OriginalOf(w, menu.name);
    w.(ui := Reinstate(w.ui, menu, original),
       cg := Reinstate(w.cg, menu, original),
       overrides := w.overrides - {menu.name})
  }

  /** Menus::UnloadMenuFromDisk */
  function UnloadStep(w: World, name: string): (r: World)
    requires DiskKeyed(w.fromDisk)
    ensures r.fromDisk == w.fromDisk - {name} && r.lists == w.lists
  {
    if name in w.fromDisk then
      var w1 := PrepareUnloadStep(w, w.fromDisk[name]);
      w1.(fromDisk := w1.fromDisk - {name})
    else w
  }

  /** The tracking of one loaded menu in LoadScriptMenu: an earlier disk
      menu of the same name is unloaded, the new one is filed under its
      name, then AfterLoadedMenuFromDisk places it. */
  function TrackStep(w: World, menu: MenuPtr): (r: World)
    requires menu.Menu? && DiskKeyed(w.fromDisk)
    ensures r.fromDisk == w.fromDisk[menu.name := menu] && DiskKeyed(r.fromDisk)
    ensures r.lists == w.lists
  {
    var w1 := UnloadStep(w, menu.name);
    var w2 := w1.(fromDisk := w1.fromDisk[menu.name := menu]);
    assert w2.fromDisk == w.fromDisk[menu.name := menu];
    AfterLoadedStep(w2, menu)
  }

  /** No null pointer among the menus. */
  predicate AllMenus(s: seq<MenuPtr>)
  {
    Null !in s
  }

  /** The tracking loop of LoadScriptMenu over the first |s| menus. */
  function TrackAll(w: World, s: seq<MenuPtr>): (r: World)
    requires AllMenus(s) && DiskKeyed(w.fromDisk)
    ensures DiskKeyed(r.fromDisk) && r.lists == w.lists
  {
    if s == [] then w else TrackStep(TrackAll(w, s[..|s| - 1]), s[|s| - 1])
  }

  /** The override filter of LoadScriptMenu: the loaded menus whose names a
      context already knows, in their order. */
  function KeepOverrides(w: World, s: seq<MenuPtr>): seq<MenuPtr>
    requires AllMenus(s)
  {
    if s == [] then []
    else KeepOverrides(w, s[..|s| - 1]) + (if MenuAlreadyExists(w, s[|s| - 1].name) then [s[|s| - 1]] else [])
  }

  /** Menus::LoadScriptMenu, with the menus read from the file as the
      parameter `loaded`. */
  function LoadScriptStep(w: World, listName: string, loaded: seq<MenuPtr>, allowNewMenus: bool): World
    requires AllMenus(loaded) && DiskKeyed(w.fromDisk)
  {
    if loaded == [] then w
    else
      var kept := if allowNewMenus then loaded else KeepOverrides(w, loaded);
      if kept == [] then w
      else
        KeepOverridesFacts(w, loaded);
        var t := TrackAll(w, kept);
        t.(lists := t.lists[listName := kept])
  }

  lemma KeepOverridesStep(w: World, s: seq<MenuPtr>, j: int)
    requires AllMenus(s) && 0 <= j < |s|
    ensures KeepOverrides(w, s[..j + 1])
         == KeepOverrides(w, s[..j]) + (if MenuAlreadyExists(w, s[j].name) then [s[j]] else [])
  {
    assert s[..j + 1][..j] == s[..j];
  }

  /** The filter keeps exactly the menus whose names a context knows, and
      keeps them in order. */
  lemma {:induction false} KeepOverridesFacts(w: World, s: seq<MenuPtr>)
    requires AllMenus(s)
    ensures forall x :: x in KeepOverrides(w, s) <==> x in s && MenuAlreadyExists(w, x.name)
    ensures |KeepOverrides(w, s)| <= |s|
    ensures AllMenus(KeepOverrides(w, s))
  {
    if s != [] {
      assert AllMenus(s[..|s| - 1]);
      KeepOverridesFacts(w, s[..|s| - 1]);
      assert s == s[..|s| - 1] + [s[|s| - 1]];
    }
  }

  /** After a disk menu is placed: the game menu it overrides has left
      every array of both contexts; the disk menu is in uiContext's loaded
      menus when it was already or there was room, and never twice; the
      in-game context does not gain it. */
  lemma AfterLoadedPlaces(w: World, menu: MenuPtr)
    requires menu.Menu?
    ensures var r, e := AfterLoadedStep(w, menu), ExistingOther(w, menu);
      && (e != Null ==> e !in r.ui.loaded && e !in r.ui.open && e !in r.cg.loaded && e !in r.cg.open)
      && (menu in w.ui.loaded || |w.ui.loaded| < w.ui.capacity ==> menu in r.ui.loaded)
      && (Occurrences(w.ui.loaded, menu) <= 1 ==> Occurrences(r.ui.loaded, menu) <= 1)
      && Occurrences(r.cg.loaded, menu) == Occurrences(w.cg.loaded, menu)
  {
    var e := ExistingOther(w, menu);
    if e != Null {
      var ui := RemoveFrom(w.ui, e);
      RemoveFromDrops(w.ui, e);
      RemoveFromDrops(w.cg, e);
      RemoveFromKeeps(w.ui, e, menu);
      RemoveFromKeeps(w.cg, e, menu);
      OccurrencesIn(w.ui.loaded, menu);
      OccurrencesIn(ui.loaded, menu);
      AppendMissingAdds(ui, menu);
      OccurrencesIn(AppendMissing(ui, menu).loaded, e);
      AppendMissingKeeps(ui, menu, e);
    } else {
      AppendMissingAdds(w.ui, menu);
    }
  }

  /** The open stacks only lose the overridden game menu. */
  lemma AfterLoadedKeepsOpen(w: World, menu: MenuPtr, x: MenuPtr)
    requires menu.Menu? && x != ExistingOther(w, menu)
    ensures var r := AfterLoadedStep(w, menu);
      Occurrences(r.ui.open, x) == Occurrences(w.ui.open, x) && Occurrences(r.cg.open, x) == Occurrences(w.cg.open, x)
  {
    var e := ExistingOther(w, menu);
    RemoveFromKeeps(w.ui, e, x);
    RemoveFromKeeps(w.cg, e, x);
  }

  /** OverridenMenus after a disk menu is placed: the name's entry records
      the game menu it overrides, unless an earlier original is still on
      record, and Null for a brand new menu; no other entry changes. */
  lemma AfterLoadedRecords(w: World, menu: MenuPtr)
    requires menu.Menu?
    ensures var r, e, name := AfterLoadedStep(w, menu), ExistingOther(w, menu), menu.name;
      && name in r.overrides
      && (e == Null ==> r.overrides[name] == Null)
      && (e != Null && (name !in w.overrides || w.overrides[name] == Null) ==> r.overrides[name] == e)
      && (e != Null && name in w.overrides && w.overrides[name] != Null ==> r.overrides[name] == w.overrides[name])
      && (forall n :: n != name ==> (n in r.overrides <==> n in w.overrides))
      && (forall n :: n != name && n in w.overrides ==> r.overrides[n] == w.overrides[n])
  {
  }

  /** After a disk menu is unloaded: the name's override entry is gone and
      no other entry changes. */
  lemma PrepareUnloadForgets(w: World, menu: MenuPtr)
    requires menu.Menu?
    ensures var r, name := PrepareUnloadStep(w, menu), menu.name;
      && name !in r.overrides
      && (forall n :: n != name ==> (n in r.overrides <==> n in w.overrides))
      && (forall n :: n != name && n in w.overrides ==> r.overrides[n] == w.overrides[n])
  {
  }

  /** After a disk menu is unloaded: it has left every array of both
      contexts (unless it is its own recorded original), and the original
      it replaced is back in each context's loaded menus when it was there
      or there is room once the disk menu has left. */
  lemma PrepareUnloadRestores(w: World, menu: MenuPtr)
    requires menu.Menu? && Fits(w.ui) && Fits(w.cg)
    ensures var r, original := PrepareUnloadStep(w, menu), OriginalOf(w, menu.name);
      && (original != menu ==> menu !in r.ui.loaded && menu !in r.ui.open && menu !in r.cg.loaded && menu !in r.cg.open)
      && (original != Null && (original in w.ui.loaded || |w.ui.loaded| - Occurrences(w.ui.loaded, menu) < w.ui.capacity)
          ==> original in r.ui.loaded)
      && (original != Null && (original in w.cg.loaded || |w.cg.loaded| - Occurrences(w.cg.loaded, menu) < w.cg.capacity)
          ==> original in r.cg.loaded)
  {
    var original := OriginalOf(w, menu.name);
    ReinstateFacts(w.ui, menu, original);
    ReinstateFacts(w.cg, menu, original);
  }

  /** The open stacks gain nothing and lose only the unloaded menu. */
  lemma PrepareUnloadKeepsOpen(w: World, menu: MenuPtr, x: MenuPtr)
    requires menu.Menu? && x != menu
    ensures var r := PrepareUnloadStep(w, menu);
      Occurrences(r.ui.open, x) == Occurrences(w.ui.open, x) && Occurrences(r.cg.open, x) == Occurrences(w.cg.open, x)
  {
    RemoveFromKeeps(w.ui, menu, x);
    RemoveFromKeeps(w.cg, menu, x);
  }

  lemma ReinstateFacts(c: Ctx, menu: MenuPtr, original: MenuPtr)
    requires menu.Menu? && Fits(c)
    ensures var r := Reinstate(c, menu, original);
      && (original != menu ==> menu !in r.loaded && menu !in r.open)
      && (original != Null && (original in c.loaded || |c.loaded| - Occurrences(c.loaded, menu) < c.capacity) ==> original in r.loaded)
  {
    var removed := RemoveFrom(c, menu);
    RemoveFromDrops(c, menu);
    if original != Null {
      AppendMissingAdds(removed, original);
      if original != menu {
        OccurrencesIn(c.loaded, original);
        OccurrencesIn(removed.loaded, original);
        RemoveFromKeeps(c, menu, original);
        OccurrencesIn(AppendMissing(removed, original).loaded, menu);
        AppendMissingKeeps(removed, original, menu);
      }
    }
  }

  /** A context after the overridden game menu e has left it and the disk
      menu has (or has not) been appended: it still fits, and once the disk
      menu leaves again there is room for e where e was or where there was
      room before. */
  lemma RoomAfterOverride(c: Ctx, e: MenuPtr, menu: MenuPtr, append: bool)
    requires Fits(c) && e != Null && e != menu && menu !in c.loaded
    ensures var removed := RemoveFrom(c, e);
      var c1 := if append then AppendMissing(removed, menu) else removed;
      && Fits(c1)
      && (e in c.loaded || |c.loaded| < c.capacity ==> |c1.loaded| - Occurrences(c1.loaded, menu) < c.capacity)
  {
    var removed := RemoveFrom(c, e);
    RemoveFromDrops(c, e);
    RemoveFromKeeps(c, e, menu);
    OccurrencesIn(c.loaded, menu);
    OccurrencesIn(removed.loaded, menu);
    if append {
      AppendMissingAdds(removed, menu);
    }
  }

  /** The open stacks of a context after the disk menu's round trip lose
      the overridden game menu and nothing else. */
  lemma OpenAfterOverride(open: seq<MenuPtr>, e: MenuPtr, menu: MenuPtr)
    requires menu !in open && e != menu
    ensures Without(Without(open, e), menu) == Without(open, e)
  {
    WithoutFacts(open, e);
    OccurrencesIn(open, menu);
    OccurrencesIn(Without(open, e), menu);
    WithoutAbsent(Without(open, e), menu);
  }

  lemma UpdateThenErase(m: map<string, MenuPtr>, k: string, v: MenuPtr)
    requires k !in m
    ensures m[k := v] - {k} == m
  {
    assert (m[k := v] - {k}).Keys == m.Keys;
  }

  lemma AfterLoadedOverrideShape(w: World, menu: MenuPtr)
    requires menu.Menu? && menu.name !in w.overrides && ExistingOther(w, menu) != Null
    ensures var e, w1 := ExistingOther(w, menu), AfterLoadedStep(w, menu);
      && w1.ui == AppendMissing(RemoveFrom(w.ui, e), menu) && w1.cg == RemoveFrom(w.cg, e)
      && OriginalOf(w1, menu.name) == e
  {
  }

  /** Loading a disk menu that overrides a game menu and unloading it
      again: the disk menu is gone from both contexts, the game menu is
      back in each context's loaded menus where it was or where there was
      room (at the end, so its position may change), and it stays closed. */
  lemma OverrideRoundTrip(w: World, menu: MenuPtr)
    requires menu.Menu? && Fits(w.ui) && Fits(w.cg)
    requires menu !in w.ui.loaded && menu !in w.ui.open && menu !in w.cg.loaded && menu !in w.cg.open
    requires menu.name !in w.overrides && ExistingOther(w, menu) != Null
    ensures var e, r := ExistingOther(w, menu), PrepareUnloadStep(AfterLoadedStep(w, menu), menu);
      && menu !in r.ui.loaded && menu !in r.ui.open && menu !in r.cg.loaded && menu !in r.cg.open
      && (e in w.ui.loaded || |w.ui.loaded| < w.ui.capacity ==> e in r.ui.loaded)
      && (e in w.cg.loaded || |w.cg.loaded| < w.cg.capacity ==> e in r.cg.loaded)
      && r.ui.open == Without(w.ui.open, e) && r.cg.open == Without(w.cg.open, e)
  {
    var e := ExistingOther(w, menu);
    var w1 := AfterLoadedStep(w, menu);
    AfterLoadedOverrideShape(w, menu);
    RoomAfterOverride(w.ui, e, menu, true);
    RoomAfterOverride(w.cg, e, menu, false);
    PrepareUnloadRestores(w1, menu);
    OpenAfterOverride(w.ui.open, e, menu);
    OpenAfterOverride(w.cg.open, e, menu);
  }

  /** The same round trip leaves OverridenMenus as it was. */
  lemma OverrideRoundTripForgets(w: World, menu: MenuPtr)
    requires menu.Menu? && menu.name !in w.overrides
    ensures PrepareUnloadStep(AfterLoadedStep(w, menu), menu).overrides == w.overrides
  {
    var e := ExistingOther(w, menu);
    var w1 := AfterLoadedStep(w, menu);
    assert w1.overrides == w.overrides[menu.name := if e != Null then e else Null];
    UpdateThenErase(w.overrides, menu.name, if e != Null then e else Null);
  }

  /** The window names of the menus of s. */
  function Names(s: seq<MenuPtr>): (r: set<string>)
    requires AllMenus(s)
    ensures forall k :: 0 <= k < |s| ==> s[k].name in r
  {
    if s == [] then {} else Names(s[..|s| - 1]) + {s[|s| - 1].name}
  }

  /** The tracking loop files every loaded menu under its name, keeps every
      name filed before and files nothing else, and the last menu of s is
      the one filed under its name. */
  lemma {:induction false} TrackAllFiles(w: World, s: seq<MenuPtr>)
    requires AllMenus(s) && DiskKeyed(w.fromDisk)
    ensures TrackAll(w, s).fromDisk.Keys == w.fromDisk.Keys + Names(s)
    ensures s != [] ==> TrackAll(w, s).fromDisk[s[|s| - 1].name] == s[|s| - 1]
  {
    if s != [] {
      var init, last := s[..|s| - 1], s[|s| - 1];
      assert AllMenus(init);
      TrackAllFiles(w, init);
      var prev := TrackAll(w, init);
      assert TrackAll(w, s) == TrackStep(prev, last);
      assert TrackAll(w, s).fromDisk == prev.fromDisk[last.name := last];
    }
  }

  /** LoadScriptMenu: an empty load, or one that may only override and
      overrides nothing, changes nothing; otherwise the list records exactly
      the menus kept (all of them, or those whose names a context knows),
      and each of them is filed under its name. */
  lemma LoadScriptFacts(w: World, listName: string, loaded: seq<MenuPtr>, allowNewMenus: bool)
    requires AllMenus(loaded) && DiskKeyed(w.fromDisk)
    ensures var r := LoadScriptStep(w, listName, loaded, allowNewMenus);
      && (loaded == [] ==> r == w)
      && (!allowNewMenus && (forall x :: x in loaded ==> !MenuAlreadyExists(w, x.name)) ==> r == w)
      && (allowNewMenus && loaded != [] ==> listName in r.lists && r.lists[listName] == loaded)
      && (!allowNewMenus && (exists x :: x in loaded && MenuAlreadyExists(w, x.name)) ==>
            listName in r.lists && forall x :: x in r.lists[listName] <==> x in loaded && MenuAlreadyExists(w, x.name))
      && (loaded != [] && (allowNewMenus || exists x :: x in loaded && MenuAlreadyExists(w, x.name)) ==>
            listName in r.lists && forall x :: x in r.lists[listName] ==> x.Menu? && x.name in r.fromDisk)
  {
    KeepOverridesFacts(w, loaded);
    var kept := if allowNewMenus then loaded else KeepOverrides(w, loaded);
    if loaded != [] && kept != [] {
      TrackAllFiles(w, kept);
    }
  }

  // ---------------------------------------------------------------------
  // The menu asset hook

  predicate IsSeparator(c: char) { c == '/' || c == '\\' }

  /** What follows the last '/' or '\\' of s; all of s when it has
      neither. */
  function AfterLastSeparator(s: string): (r: string)
    ensures forall k :: 0 <= k < |r| ==> !IsSeparator(r[k])
    ensures |r| <= |s| && r == s[|s| - |r|..]
  {
    if s == [] then []
    else if IsSeparator(s[|s| - 1]) then []
    else
      var r := AfterLastSeparator(s[..|s| - 1]);
      assert s[..|s| - 1][|s| - 1 - |r|..] + [s[|s| - 1]] == s[|s| - |r| - 1..];
      r + [s[|s| - 1]]
  }

  const MENU_EXTENSION := ".menu"

  /** The short name MenuFindHook looks up: the part after the last
      separator, less a ".menu" suffix when something precedes it. */
  function ShortName(filename: string): (r: string)
    ensures forall k :: 0 <= k < |r| ==> !IsSeparator(r[k])
  {
    var base := AfterLastSeparator(filename);
    if |base| > |MENU_EXTENSION| && base[|base| - |MENU_EXTENSION|..] == MENU_EXTENSION
    then base[..|base| - |MENU_EXTENSION|]
    else base
  }

  /** A name with no separator is its own last component. */
  lemma {:induction false} AfterLastSeparatorPlain(s: string)
    requires forall k :: 0 <= k < |s| ==> !IsSeparator(s[k])
    ensures AfterLastSeparator(s) == s
  {
    if s != [] {
      AfterLastSeparatorPlain(s[..|s| - 1]);
      assert s[..|s| - 1] + [s[|s| - 1]] == s;
    }
  }

  /** Everything up to the last separator is dropped. */
  lemma {:induction false} AfterLastSeparatorOfPath(dir: string, sep: char, name: string)
    requires IsSeparator(sep) && forall k :: 0 <= k < |name| ==> !IsSeparator(name[k])
    ensures AfterLastSeparator(dir + [sep] + name) == name
  {
    if name == [] {
      assert (dir + [sep] + name)[|dir|] == sep;
    } else {
      var init, last := name[..|name| - 1], name[|name| - 1];
      var path := dir + [sep] + name;
      assert path == (dir + [sep] + init) + [last];
      assert path[..|path| - 1] == dir + [sep] + init;
      AfterLastSeparatorOfPath(dir, sep, init);
    }
  }

  /** The path of a menu file maps to the menu's name. */
  lemma ShortNameOfPath(dir: string, sep: char, name: string)
    requires IsSeparator(sep) && name != [] && forall k :: 0 <= k < |name| ==> !IsSeparator(name[k])
    ensures ShortName(dir + [sep] + name + MENU_EXTENSION) == name
  {
    var base := name + MENU_EXTENSION;
    assert dir + [sep] + name + MENU_EXTENSION == dir + [sep] + base;
    AfterLastSeparatorOfPath(dir, sep, base);
    assert base[..|base| - 5] == name;
  }

  /** A bare name without the suffix is looked up as it is, and the
      suffix alone is not stripped. */
  lemma ShortNameOfPlain(name: string)
    requires forall k :: 0 <= k < |name| ==> !IsSeparator(name[k])
    requires !EndsWith(name, MENU_EXTENSION) || name == MENU_EXTENSION
    ensures ShortName(name) == name
  {
    AfterLastSeparatorPlain(name);
  }

  /** Menus::MenuFindHook: the disk menu filed under the short name, or
      Null so that the game's own asset handler loads it. */
  function FindHook(fromDisk: map<string, MenuPtr>, filename: string): (r: MenuPtr)
    requires DiskKeyed(fromDisk)
    ensures r != Null <==> ShortName(filename) in fromDisk
    ensures r != Null ==> r == fromDisk[ShortName(filename)] && r.name == ShortName(filename)
  {
    var shortName := ShortName(filename);
    if shortName in fromDisk then fromDisk[shortName] else Null
  }

  // ---------------------------------------------------------------------
  // The component

  /** The Menus component's state: the two UI contexts of GameUiContexts
      and its three maps. */
  class MenuSystem {
    const ui: UiContext
    const cg: UiContext
    var overrides: map<string, MenuPtr>
    var fromDisk: map<string, MenuPtr>
    var menuLists: map<string, seq<MenuPtr>>

    ghost predicate Valid()
      reads this, ui, cg
    {
      && ui != cg && ui.Valid() && cg.Valid()
      && ui.menus != cg.menus && ui.menus != cg.menuStack
      && ui.menuStack != cg.menus && ui.menuStack != cg.menuStack
      && DiskKeyed(fromDisk)
    }

    function Snapshot(): World
      reads this, ui, cg, ui.menus, ui.menuStack, cg.menus, cg.menuStack
      requires Valid()
    {
      World(ui.Snapshot(), cg.Snapshot(), overrides, fromDisk, menuLists)
    }

    constructor (capacity: nat, stackCapacity: nat)
      ensures Valid()
      ensures Snapshot() == World(Ctx([], [], capacity), Ctx([], [], capacity), map[], map[], map[])
    {
      ui := new UiContext(capacity, stackCapacity);
      cg := new UiContext(capacity, stackCapacity);
      overrides, fromDisk, menuLists := map[], map[], map[];
    }

    /** Menus::AfterLoadedMenuFromDisk */
    method AfterLoadedMenuFromDisk(menu: MenuPtr)
      requires Valid() && menu.Menu?
      modifies this, ui, cg, ui.menus, ui.menuStack, cg.menus, cg.menuStack
      ensures Valid() && Snapshot() == AfterLoadedStep(old(Snapshot()), menu)
    {
      var name := menu.name;
      var existing := ExistingOther(Snapshot(), menu);
      if existing != Null {
        if name !in overrides || overrides[name] == Null {
          overrides := overrides[name := existing];
        }
        RemoveFromBoth(existing);
      } else {
        overrides := overrides[name := Null];
      }
      ui.AddMissing(menu);
    }

    /** The replaced game menu leaving both contexts. */
    method RemoveFromBoth(m: MenuPtr)
      requires Valid()
      modifies ui, cg, ui.menus, ui.menuStack, cg.menus, cg.menuStack
      ensures Valid()
      ensures Snapshot() == old(Snapshot()).(ui := RemoveFrom(old(ui.Snapshot()), m), cg := RemoveFrom(old(cg.Snapshot()), m))
    {
      ui.RemoveMenu(m);
      cg.RemoveMenu(m);
    }

    /** The disk menu leaving both contexts and the game menu it replaced
        coming back. */
    method ReinstateInBoth(menu: MenuPtr, original: MenuPtr)
      requires Valid()
      modifies ui, cg, ui.menus, ui.menuStack, cg.menus, cg.menuStack
      ensures Valid()
      ensures Snapshot() == old(Snapshot()).(ui := Reinstate(old(ui.Snapshot()), menu, original),
                                            cg := Reinstate(old(cg.Snapshot()), menu, original))
    {
      ui.RemoveThenRestore(menu, original);
      cg.RemoveThenRestore(menu, original);
    }

    /** Menus::PrepareToUnloadMenu */
    method PrepareToUnloadMenu(menu: MenuPtr)
      requires Valid() && menu.Menu?
      modifies this, ui, cg, ui.menus, ui.menuStack, cg.menus, cg.menuStack
      ensures Valid() && Snapshot() == PrepareUnloadStep(old(Snapshot()), menu)
    {
      var name := menu.name;
      var original := if name in overrides then overrides[name] else Null;
      ReinstateInBoth(menu, original);
      overrides := overrides - {name};
    }

    /** Menus::UnloadMenuFromDisk */
    method UnloadMenuFromDisk(name: string)
      requires Valid()
      modifies this, ui, cg, ui.menus, ui.menuStack, cg.menus, cg.menuStack
      ensures Valid() && Snapshot() == UnloadStep(old(Snapshot()), name)
    {
      if name in fromDisk {
        PrepareToUnloadMenu(fromDisk[name]);
        fromDisk := fromDisk - {name};
      }
    }

    /** The filter loop of LoadScriptMenu when new menus are not allowed:
        a loaded menu whose name no context knows is erased in place. */
    method FilterOverrides(loaded: seq<MenuPtr>) returns (kept: seq<MenuPtr>)
      requires Valid() && AllMenus(loaded)
      ensures kept == KeepOverrides(Snapshot(), loaded)
    {
      var w := Snapshot();
      kept := loaded;
      var i := 0;
      ghost var j := 0;
      while i < |kept|
        invariant 0 <= i <= |kept| && 0 <= j <= |loaded|
        invariant kept[..i] == KeepOverrides(w, loaded[..j])
        invariant kept[i..] == loaded[j..]
        decreases |kept| - i
      {
        KeepOverridesStep(w, loaded, j);
        assert kept[i] == kept[i..][0] == loaded[j];
        if MenuAlreadyExists(w, kept[i].name) {
          assert kept[..i + 1] == kept[..i] + [kept[i]];
          assert kept[i + 1..] == kept[i..][1..];
          i := i + 1;
        } else {
          assert (kept[..i] + kept[i + 1..])[i..] == kept[i..][1..];
          kept := kept[..i] + kept[i + 1..];
        }
        j := j + 1;
      }
      assert loaded[..j] == loaded;
    }

    /** The body of the tracking loop of LoadScriptMenu. */
    method TrackMenu(menu: MenuPtr)
      requires Valid() && menu.Menu?
      modifies this, ui, cg, ui.menus, ui.menuStack, cg.menus, cg.menuStack
      ensures Valid() && Snapshot() == TrackStep(old(Snapshot()), menu)
    {
      ghost var w0 := Snapshot();
      if menu.name in fromDisk {
        UnloadMenuFromDisk(menu.name);
        fromDisk := fromDisk - {menu.name};
      }
      ghost var w1 := Snapshot();
      assert w1 == UnloadStep(w0, menu.name);
      fromDisk := fromDisk[menu.name := menu];
      assert Snapshot() == w1.(fromDisk := w1.fromDisk[menu.name := menu]);
      AfterLoadedMenuFromDisk(menu);
    }

    /** The tracking loop of LoadScriptMenu. */
    method TrackMenus(kept: seq<MenuPtr>)
      requires Valid() && AllMenus(kept)
      modifies this, ui, cg, ui.menus, ui.menuStack, cg.menus, cg.menuStack
      ensures Valid() && Snapshot() == TrackAll(old(Snapshot()), kept)
    {
      ghost var w0 := Snapshot();
      var i := 0;
      while i < |kept|
        invariant 0 <= i <= |kept|
        invariant Valid() && Snapshot() == TrackAll(w0, kept[..i])
      {
        assert kept[..i + 1][..i] == kept[..i];
        TrackMenu(kept[i]);
        i := i + 1;
      }
      assert kept[..i] == kept;
    }

    /** Menus::LoadScriptMenu, with the menus read from the file as the
        parameter `loaded`. */
    method LoadScriptMenu(listName: string, loaded: seq<MenuPtr>, allowNewMenus: bool)
      requires Valid() && AllMenus(loaded)
      modifies this, ui, cg, ui.menus, ui.menuStack, cg.menus, cg.menuStack
      ensures Valid() && Snapshot() == LoadScriptStep(old(Snapshot()), listName, loaded, allowNewMenus)
    {
      ghost var w0 := Snapshot();
      if |loaded| == 0 {
        return;
      }
      var kept := loaded;
      if !allowNewMenus {
        kept := FilterOverrides(loaded);
        if |kept| == 0 {
          return;
        }
      }
      KeepOverridesFacts(w0, loaded);
      assert AllMenus(kept) && kept == if allowNewMenus then loaded else KeepOverrides(w0, loaded);
      TrackMenus(kept);
      ghost var t := Snapshot();
      menuLists := menuLists[listName := kept];
      assert Snapshot() == t.(lists := t.lists[listName := kept]);
    }

    /** Menus::MenuFindHook */
    function MenuFindHook(filename: string): (r: MenuPtr)
      reads this, ui, cg
      requires Valid()
      ensures r != Null <==> ShortName(filename) in fromDisk
    {
      FindHook(fromDisk, filename)
    }
  }
}

=== FILE: party.dfy ===
/** The join handshake and lobby-settings replication of the Party
    component.

    A client arms a single JoinContainer with Connect and sends getinfo; the
    host answers with an infoResponse built by its getInfo handler; the
    client's infoResponse handler consumes the attempt, runs the validation
    chain in which the first failing check decides the outcome, and then joins
    a dedicated server, asks a party host for its playlist, or registers a
    private-party lobby. While hosting a party, a scheduler loop watches seven
    lobby settings and pushes them to every known member as dvarUpdate, which
    members apply key by key.

    The engine, the network and the clock are parameters: each handler is
    given the facts it would have read (LocalFacts, HostFacts) and returns
    what it would have sent or started (an Outcome, an InfoString, a list of
    recipients). */
module Party {
  import opened Text

  /** A Network::Address, reduced to what this code asks of it: its
      rendering (getString), its IPv4 address as one 32-bit word
      (getIP().full), its port, and whether it is a loopback address. */
  datatype Address = Address(text: string, ip: nat, port: nat, loopback: bool)

  /** The first local IP (*Game::localIP) as one 32-bit word, with the
      rendering getString gives a target once that IP is set in it
      (Network.cpp is not part of this model). */
  datatype LocalIp = LocalIp(ip: nat, text: string)

  /** The seven replicated lobby settings, in the order of the host's
      change detector. */
  const SETTING_KEYS: seq<string> :=
    ["zombiemode", "ui_hitmarker", "ui_showdamage", "ui_zombiecounter",
     "ui_perklocations", "thirdPerson", "addBots"]

  /** The values of the seven setting dvars, indexed like SETTING_KEYS. */
  type Settings = s: seq<int> | |s| == 7 witness [0, 0, 0, 0, 0, 0, 0]

  /** The seven setting values as text, indexed like SETTING_KEYS. */
  type SettingTexts = s: seq<string> | |s| == 7 witness ["", "", "", "", "", "", ""]

  const NO_SETTINGS: SettingTexts := ["", "", "", "", "", "", ""]

  /** The domains the seven setting dvars are registered with, indexed like
      SETTING_KEYS: zombiemode is an enum of three names (0 .. 2), addBots
      takes 0 .. 3, and the five toggles take 0 .. 1. */
  const SETTING_MAX: seq<int> := [2, 1, 1, 1, 1, 1, 3]

  /** The registered default values. */
  const DEFAULT_SETTINGS: Settings := [0, 1, 1, 0, 0, 0, 0]

  predicate InDomain(i: int, v: int)
    requires 0 <= i < 7
  {
    0 <= v <= SETTING_MAX[i]
  }

  predicate SettingsInDomain(s: Settings)
  {
    forall i :: 0 <= i < 7 ==> InDomain(i, s[i])
  }

  /** Setting dvar i to v in the engine: a value outside the dvar's domain
      is refused, and the dvar keeps its value. */
  function SetDvar(i: int, current: int, v: int): (r: int)
    requires 0 <= i < 7
    ensures InDomain(i, current) ==> InDomain(i, r)
    ensures r == v <==> InDomain(i, v) || current == v
  {
    if InDomain(i, v) then v else current
  }

  /** Setting all seven dvars, each through the engine's domain check. */
  function SetSettings(current: Settings, values: Settings): Settings
  {
    seq(7, i requires 0 <= i < 7 => SetDvar(i, current[i], values[i]))
  }

  /** Setting the seven dvars keeps them within their domains, and values
      within the domains are taken as they are. */
  lemma SetSettingsInDomain(current: Settings, values: Settings)
    ensures SettingsInDomain(current) ==> SettingsInDomain(SetSettings(current, values))
    ensures SettingsInDomain(values) ==> SetSettings(current, values) == values
    ensures forall i :: 0 <= i < 7 && !InDomain(i, values[i]) ==> SetSettings(current, values)[i] == current[i]
  {
  }

  /** An info string (Utils::InfoString), reduced to the keys this component
      reads or writes. Every handler reads it with get, which gives the empty
      string for an absent key, so an absent key is the empty string here.
      The field names follow the keys: fsGame is "fs_game", svMaxclients is
      "sv_maxclients", svRunning is "sv_running", svMotd is "sv_motd", and
      settings[i] is the value under SETTING_KEYS[i]. */
  datatype InfoString = InfoString(
    challenge: string, gamename: string, hostname: string, gametype: string,
    fsGame: string, xuid: string, clients: string, bots: string,
    svMaxclients: string, protocol: string, version: string, checksum: string,
    mapname: string, isPrivate: string, hc: string, securityLevel: string,
    svRunning: string, aimAssist: string, voiceChat: string,
    settings: SettingTexts, usermaphash: string, svMotd: string,
    matchtype: string, wwwDownload: string, wwwUrl: string, password: string)

  const EMPTY_INFO: InfoString :=
    InfoString("", "", "", "", "", "", "", "", "", "", "", "", "", "", "", "", "", "", "",
               NO_SETTINGS, "", "", "", "", "", "")

  // JoinContainer::MatchType
  const NO_MATCH := 0
  const PARTY_LOBBY := 1
  const DEDICATED_MATCH := 2
  const PRIVATE_PARTY := 3
  const MATCH_TYPE_COUNT := 4

  const INFO_TIMEOUT_MS := 10000
  const PLAYLIST_TIMEOUT_MS := 5000

  /** g_lobbyData->partyMembers has this many slots. */
  const PARTY_SLOTS := 18
  /** Used when party_maxplayers is zero or negative. */
  const DEFAULT_PARTY_SIZE := 4
  /** sv_maxclients reported when party_maxplayers is not registered. */
  const DEFAULT_MAX_CLIENTS := 18

  const CHALLENGE_MISMATCH := "Invalid join response: Challenge mismatch."
  const NOT_HOSTING := "Server is not hosting a match."
  const UNKNOWN_MATCHTYPE := "Invalid join response: Unknown matchtype"
  const INVALID_MAP := "Invalid map or gametype."
  const PASSWORD_REQUIRED := "A password is required to join this server! Set it at the bottom of the serverlist."
  const INVALID_INFO := "Invalid info string"
  const SERVER_FULL := "@EXE_SERVERISFULL"
  const INFO_TIMED_OUT := "Server connection timed out."
  const PLAYLIST_TIMED_OUT := "Playlist request timed out."

  /** What a handler did with one message. */
  datatype Outcome =
    | Ignored
    | Error(message: string)
    | IncreaseSecurity(level: nat)
    | MapDownload(mapname: string, isPrivate: bool)
    | ModDownload(fsGame: string, isPrivate: bool, downloadOnly: bool)
    | ClearModAndReconnect(vidRestart: bool)
    | MapNotInstalled
    | JoinDedicated(target: Address, mapname: string, gametype: string)
    | RequestPlaylist(target: Address, password: string, disconnectFirst: bool)  // getplaylist with the password as its argument
    | JoinLobby(lobbyId: nat, address: Address)

  predicate IsJoin(o: Outcome)
  {
    o.JoinDedicated? || o.RequestPlaylist? || o.JoinLobby?
  }

  /** What the client's infoResponse handler reads from its own side. */
  datatype LocalFacts = LocalFacts(
    securityLevel: nat,             // Auth::GetSecurityLevel()
    password: string,               // the password dvar
    usermapHash: nat,               // Maps::GetUsermapHash of the response's mapname
    fsGame: string,                 // fs_game
    modVidRestart: bool,            // cl_modVidRestart
    mapInstalled: bool,             // Maps::CheckMapInstalled of the response's mapname
    cgameInitialized: bool,         // CL_IsCgameInitialized()
    lobbyId: nat,                   // what GenerateLobbyId() would return now
    localIp: Option<LocalIp>)       // the first local IP, if numIP > 0

  // ---------------------------------------------------------------------
  // Client side: the validation chain of the infoResponse handler

  /** The seven settings the infoResponse handler reads, with strtol, from
      any response from the target, before any check. */
  function SettingsFromResponse(info: InfoString): Settings
  {
    seq(7, i requires 0 <= i < 7 => Strtol(info.settings[i]))
  }

  function ResponseMatchType(info: InfoString): int
  {
    Strtol(info.matchtype)
  }

  function ResponseSecurityLevel(info: InfoString): nat
  {
    Strtoul(info.securityLevel)
  }

  function ResponseIsPrivate(info: InfoString): bool
  {
    info.isPrivate == "1"
  }

  /** The address a private-party join registers: a loopback target gets
      the local IP, when one is known, and becomes a plain IP address; its
      port is kept. */
  function LobbyTarget(target: Address, localIp: Option<LocalIp>): (r: Address)
    ensures r.port == target.port
    ensures target.loopback && localIp.Some? ==> r.ip == localIp.value.ip && !r.loopback
    ensures !(target.loopback && localIp.Some?) ==> r == target
  {
    if target.loopback && localIp.Some? then
      target.(ip := localIp.value.ip, text := localIp.value.text, loopback := false)
    else target
  }

  /** Every check of the chain passes, and the map is installed. */
  predicate ChecksPass(info: InfoString, challenge: string, local: LocalFacts)
  {
    && info.challenge == challenge
    && ResponseSecurityLevel(info) <= local.securityLevel
    && NO_MATCH < ResponseMatchType(info) < MATCH_TYPE_COUNT
    && info.mapname != "" && info.gametype != ""
    && !(ResponseIsPrivate(info) && local.password == "")
    && (info.usermaphash == "" || Strtoul(info.usermaphash) == local.usermapHash)
    && (info.fsGame == "" || ToLower(local.fsGame) == ToLower(info.fsGame))
    && !(local.fsGame != "" && info.fsGame == "")
    && local.mapInstalled
  }

  /** The outcome of the first failing check of the chain, if one fails. */
  function Rejection(info: InfoString, challenge: string, downloadOnly: bool, local: LocalFacts): (r: Option<Outcome>)
    ensures r.Some? ==> !IsJoin(r.value)
  {
    var matchType := ResponseMatchType(info);
    var securityLevel := ResponseSecurityLevel(info);
    var isPrivate := ResponseIsPrivate(info);
    if info.challenge != challenge then Some(Error(CHALLENGE_MISMATCH))
    else if securityLevel > local.securityLevel then Some(IncreaseSecurity(securityLevel))
    else if matchType == NO_MATCH then Some(Error(NOT_HOSTING))
    else if matchType >= MATCH_TYPE_COUNT || matchType < NO_MATCH then Some(Error(UNKNOWN_MATCHTYPE))
    else if info.mapname == "" || info.gametype == "" then Some(Error(INVALID_MAP))
    else if isPrivate && local.password == "" then Some(Error(PASSWORD_REQUIRED))
    else if info.usermaphash != "" && Strtoul(info.usermaphash) != local.usermapHash then
      Some(MapDownload(info.mapname, isPrivate))
    else if info.fsGame != "" && ToLower(local.fsGame) != ToLower(info.fsGame) then
      Some(ModDownload(info.fsGame, isPrivate, downloadOnly))
    else if local.fsGame != "" && info.fsGame == "" then Some(ClearModAndReconnect(local.modVidRestart))
    else if !local.mapInstalled then Some(MapNotInstalled)
    else None
  }

  /** The chain lets a response through exactly when every check passes. */
  lemma RejectionIffChecksFail(info: InfoString, challenge: string, downloadOnly: bool, local: LocalFacts)
    ensures Rejection(info, challenge, downloadOnly, local).None? <==> ChecksPass(info, challenge, local)
  {
  }

  // ---------------------------------------------------------------------
  // The join handlers as functions of the client state

  /** The client state the join handlers read and write: the fields of the
      JoinContainer and the part of the component state these handlers
      touch. */
  datatype ClientState = ClientState(
    target: Address, challenge: string, motd: string, joinTime: int, valid: bool,
    downloadOnly: bool, matchType: int, info: InfoString, requestTime: int,
    awaitingPlaylist: bool, lobbyMap: map<nat, Address>, settings: Settings,
    privateServer: bool, serverVersion: string, wwwDownload: bool, wwwUrl: string,
    lobbyCreateInProgress: bool)

  /** A handler's new state, its outcome, and whether the server list and
      friends update at the end of the infoResponse handler was reached. */
  datatype Handled = Handled(state: ClientState, outcome: Outcome, listed: bool)

  /** A response is for the current attempt: one is armed and the response
      comes from its target. */
  predicate Matches(s: ClientState, sender: Address)
  {
    s.valid && s.target == sender
  }

  /** Party::PlaylistContinue: registers the attempt's target, or the local
      IP in place of a loopback target, under a fresh lobby id, and joins
      that lobby. */
  function ContinueStep(s: ClientState, lobbyId: nat, localIp: Option<LocalIp>): Handled
  {
    var t := LobbyTarget(s.target, localIp);
    Handled(s.(privateServer := false, lobbyCreateInProgress := false, awaitingPlaylist := false,
               target := t, lobbyMap := s.lobbyMap[lobbyId := t]),
            JoinLobby(lobbyId, t), true)
  }

  /** The tail of the infoResponse handler once every check has passed: the
      message of the day is stored, then the match type decides. */
  function AdmitStep(s: ClientState, info: InfoString, now: int, local: LocalFacts): Handled
  {
    var s1 := s.(motd := info.svMotd);
    var matchType := ResponseMatchType(info);
    if matchType == DEDICATED_MATCH then
      var clients := Stoi(info.clients);
      var maxClients := Stoi(info.svMaxclients);
      if clients.None? || maxClients.None? then Handled(s1, Error(INVALID_INFO), false)
      else if clients.value >= maxClients.value then Handled(s1, Error(SERVER_FULL), true)
      else Handled(s1.(privateServer := true, serverVersion := info.version),
                   JoinDedicated(s.target, info.mapname, info.gametype), true)
    else if matchType == PARTY_LOBBY then
      Handled(s1.(requestTime := now, awaitingPlaylist := true),
              RequestPlaylist(s.target, local.password, local.cgameInitialized), true)
    else ContinueStep(s1, local.lobbyId, local.localIp)
  }

  /** What the infoResponse handler writes for a response from the target
      of a valid attempt before any check: the attempt is consumed, the
      seven settings are set from the response (each only within its
      domain), and the match type and the download dvars are taken from it. */
  function ConsumeStep(s: ClientState, info: InfoString): ClientState
  {
    var www := info.wwwDownload == "1";
    s.(valid := false, info := info, settings := SetSettings(s.settings, SettingsFromResponse(info)),
       matchType := ResponseMatchType(info),
       wwwDownload := www, wwwUrl := if www then info.wwwUrl else "")
  }

  /** The infoResponse handler: a response from anyone but the target of a
      valid attempt is ignored. */
  function InfoResponseStep(s: ClientState, sender: Address, info: InfoString, now: int, local: LocalFacts): Handled
  {
    if !Matches(s, sender) then Handled(s, Ignored, true)
    else
      var s1 := ConsumeStep(s, info);
      match Rejection(info, s.challenge, s.downloadOnly, local)
      case Some(o) => Handled(s1, o, !o.MapNotInstalled?)
      case None => AdmitStep(s1, info, now, local)
  }

  /** A response that is not for the current attempt changes nothing. This
      covers a late answer to an attempt that a newer Connect replaced or
      that timed out. */
  lemma StaleResponseIgnored(s: ClientState, sender: Address, info: InfoString, now: int, local: LocalFacts)
    requires !Matches(s, sender)
    ensures InfoResponseStep(s, sender, info, now, local) == Handled(s, Ignored, true)
  {
  }

  /** A response for the current attempt consumes it: whatever arrives
      next, from anyone, is ignored until the next Connect. It also always
      sets the seven settings the response carries, each one that lies in
      its domain. */
  lemma ResponseConsumesAttempt(s: ClientState, sender: Address, info: InfoString, now: int, local: LocalFacts,
                                sender2: Address, info2: InfoString, now2: int, local2: LocalFacts)
    requires Matches(s, sender)
    ensures var h := InfoResponseStep(s, sender, info, now, local);
      && !h.state.valid
      && h.state.settings == SetSettings(s.settings, SettingsFromResponse(info))
      && h.state.challenge == s.challenge
      && InfoResponseStep(h.state, sender2, info2, now2, local2) == Handled(h.state, Ignored, true)
  {
    var s1 := ConsumeStep(s, info);
    if Rejection(info, s.challenge, s.downloadOnly, local).None? {
      AdmitOutcome(s1, info, now, local);
    }
  }

  /** A response whose challenge differs from the attempt's is refused
      before anything else is looked at, whatever it says. */
  lemma ChallengeMismatchAborts(s: ClientState, sender: Address, info: InfoString, now: int, local: LocalFacts)
    requires Matches(s, sender) && info.challenge != s.challenge
    ensures var h := InfoResponseStep(s, sender, info, now, local);
      h.outcome == Error(CHALLENGE_MISMATCH) && h.state.motd == s.motd && h.state.lobbyMap == s.lobbyMap
  {
  }

  /** A join of any kind happens exactly when every check passes and the
      match type says so; a dedicated join also needs both client counts to
      parse and a free slot. Two early returns skip the server list
      update: a map that is not installed, and client counts that do not
      parse. */
  lemma JoinOnlyWhenChecksPass(s: ClientState, sender: Address, info: InfoString, now: int, local: LocalFacts)
    requires Matches(s, sender)
    ensures var h := InfoResponseStep(s, sender, info, now, local);
      var pass := ChecksPass(info, s.challenge, local);
      && (h.outcome.JoinDedicated? <==>
            pass && ResponseMatchType(info) == DEDICATED_MATCH
            && Stoi(info.clients).Some? && Stoi(info.svMaxclients).Some?
            && Stoi(info.clients).value < Stoi(info.svMaxclients).value)
      && (h.outcome.RequestPlaylist? <==> pass && ResponseMatchType(info) == PARTY_LOBBY)
      && (h.outcome.JoinLobby? <==> pass && ResponseMatchType(info) == PRIVATE_PARTY)
      && (h.outcome.JoinDedicated? ==> h.outcome == JoinDedicated(s.target, info.mapname, info.gametype))
      && (h.state.motd == if pass then info.svMotd else s.motd)
      && (h.listed <==> !h.outcome.MapNotInstalled? && h.outcome != Error(INVALID_INFO))
  {
    RejectionIffChecksFail(info, s.challenge, s.downloadOnly, local);
    if ChecksPass(info, s.challenge, local) {
      AdmitOutcome(ConsumeStep(s, info), info, now, local);
    }
  }

  /** A dedicated server that answers with as many clients as slots is
      full: no join, whatever else the response says. */
  lemma FullServerIsRefused(s: ClientState, sender: Address, info: InfoString, now: int, local: LocalFacts)
    requires Matches(s, sender)
    requires ChecksPass(info, s.challenge, local) && ResponseMatchType(info) == DEDICATED_MATCH
    requires Stoi(info.clients).Some? && Stoi(info.svMaxclients).Some?
    requires Stoi(info.clients).value >= Stoi(info.svMaxclients).value
    ensures InfoResponseStep(s, sender, info, now, local).outcome == Error(SERVER_FULL)
  {
    RejectionIffChecksFail(info, s.challenge, s.downloadOnly, local);
  }

  /** Once every check has passed the match type alone picks the join: a
      dedicated join when both client counts parse and a slot is free, a
      playlist request for a party lobby, a private-party join otherwise.
      The attempt stays consumed and the message of the day is stored. */
  lemma {:induction false} AdmitOutcome(s: ClientState, info: InfoString, now: int, local: LocalFacts)
    ensures var h := AdmitStep(s, info, now, local);
      var matchType := ResponseMatchType(info);
      && (h.outcome.JoinDedicated? <==>
            matchType == DEDICATED_MATCH
            && Stoi(info.clients).Some? && Stoi(info.svMaxclients).Some?
            && Stoi(info.clients).value < Stoi(info.svMaxclients).value)
      && (h.outcome.RequestPlaylist? <==> matchType == PARTY_LOBBY)
      && (h.outcome.JoinLobby? <==> matchType != DEDICATED_MATCH && matchType != PARTY_LOBBY)
      && (h.outcome.JoinDedicated? ==> h.outcome == JoinDedicated(s.target, info.mapname, info.gametype))
      && !h.outcome.MapNotInstalled? && (h.listed <==> h.outcome != Error(INVALID_INFO))
      && h.state.motd == info.svMotd
      && h.state.valid == s.valid && h.state.settings == s.settings && h.state.challenge == s.challenge
  {
    var matchType := ResponseMatchType(info);
    var s1 := s.(motd := info.svMotd);
    if matchType == DEDICATED_MATCH {
    } else if matchType == PARTY_LOBBY {
    } else {
      assert AdmitStep(s, info, now, local) == ContinueStep(s1, local.lobbyId, local.localIp);
    }
  }

  /** What each join does to the state once every check has passed. */
  lemma {:induction false} AdmitEffects(s: ClientState, info: InfoString, now: int, local: LocalFacts)
    ensures var h := AdmitStep(s, info, now, local);
      && (h.outcome.JoinLobby? ==>
            && h.outcome.address == LobbyTarget(s.target, local.localIp)
            && h.state.lobbyMap == s.lobbyMap[h.outcome.lobbyId := h.outcome.address]
            && !h.state.privateServer && !h.state.awaitingPlaylist)
      && (!h.outcome.JoinLobby? ==> h.state.lobbyMap == s.lobbyMap)
      && (h.outcome.RequestPlaylist? ==>
            h.state.awaitingPlaylist && h.state.requestTime == now && h.outcome.password == local.password)
      && (h.outcome.JoinDedicated? ==> h.state.privateServer && h.state.serverVersion == info.version)
  {
    var matchType := ResponseMatchType(info);
    var s1 := s.(motd := info.svMotd);
    if matchType == DEDICATED_MATCH {
      var h := AdmitStep(s, info, now, local);
      assert h.state.lobbyMap == s1.lobbyMap;
    } else if matchType == PARTY_LOBBY {
    } else {
      assert AdmitStep(s, info, now, local) == ContinueStep(s1, local.lobbyId, local.localIp);
    }
  }

  /** A private-party join registers the lobby under the id it joins, at the
      attempt's target (or the local IP for a loopback target), and clears
      the private-server flag; a party-lobby join starts the playlist wait;
      a dedicated join sets the private-server flag and the server version.
      No other response touches the lobby map. */
  lemma JoinEffects(s: ClientState, sender: Address, info: InfoString, now: int, local: LocalFacts)
    requires Matches(s, sender)
    ensures var h := InfoResponseStep(s, sender, info, now, local);
      && (h.outcome.JoinLobby? ==>
            && h.outcome.address == LobbyTarget(s.target, local.localIp)
            && h.state.lobbyMap == s.lobbyMap[h.outcome.lobbyId := h.outcome.address]
            && !h.state.privateServer && !h.state.awaitingPlaylist)
      && (!h.outcome.JoinLobby? ==> h.state.lobbyMap == s.lobbyMap)
      && (h.outcome.RequestPlaylist? ==>
            h.state.awaitingPlaylist && h.state.requestTime == now && h.outcome.password == local.password)
      && (h.outcome.JoinDedicated? ==> h.state.privateServer && h.state.serverVersion == info.version)
  {
    var s1 := ConsumeStep(s, info);
    var rejected := Rejection(info, s.challenge, s.downloadOnly, local);
    if rejected.None? {
      AdmitEffects(s1, info, now, local);
    }
  }

  // ---------------------------------------------------------------------
  // The singleton join attempt

  /** The getinfo request Connect sends. */
  function GetInfoRequest(challenge: string, protocol: int, version: string, xuidHex: string): InfoString
  {
    EMPTY_INFO.(challenge := challenge, gamename := "IW4", protocol := IntToString(protocol),
                version := version, xuid := xuidHex)
  }

  class JoinContainer {
    var target: Address
    var challenge: string
    var motd: string
    var joinTime: int
    var valid: bool
    var downloadOnly: bool
    var matchType: int
    var info: InfoString
    var requestTime: int
    var awaitingPlaylist: bool

    /** The static container starts zeroed: no attempt. */
    constructor ()
      ensures !valid && !awaitingPlaylist && !downloadOnly
      ensures challenge == "" && motd == "" && info == EMPTY_INFO
      ensures joinTime == 0 && requestTime == 0 && matchType == NO_MATCH
    {
      target := Address("", 0, 0, false);
      challenge, motd := "", "";
      joinTime, requestTime, matchType := 0, 0, NO_MATCH;
      valid, downloadOnly, awaitingPlaylist := false, false, false;
      info := EMPTY_INFO;
    }

    /** Party::Connect: arms the container for a new attempt, overwriting
        any attempt in flight, and returns the getinfo request to send. */
    method Connect(t: Address, downloadOnly: bool, now: int, freshChallenge: string,
                   protocol: int, version: string, localXuidHex: string) returns (request: InfoString)
      modifies this
      ensures valid && !awaitingPlaylist
      ensures target == t && joinTime == now && challenge == freshChallenge
      ensures this.downloadOnly == downloadOnly
      ensures motd == old(motd) && matchType == old(matchType) && info == old(info)
      ensures requestTime == old(requestTime)
      ensures request == GetInfoRequest(freshChallenge, protocol, version, localXuidHex)
      ensures request.challenge == challenge
    {
      valid := true;
      awaitingPlaylist := false;
      joinTime := now;
      target := t;
      challenge := freshChallenge;
      this.downloadOnly := downloadOnly;
      request := GetInfoRequest(challenge, protocol, version, localXuidHex);
    }

    /** The client scheduler tick: an attempt times out strictly after
        10000 ms without a response, a playlist request strictly after
        5000 ms. Returns the error messages shown, in order. */
    method Tick(now: int) returns (errors: seq<string>)
      modifies this`valid, this`awaitingPlaylist
      ensures valid == (old(valid) && now - joinTime <= INFO_TIMEOUT_MS)
      ensures awaitingPlaylist == (old(awaitingPlaylist) && now - requestTime <= PLAYLIST_TIMEOUT_MS)
      ensures errors ==
        (if old(valid) && !valid then [INFO_TIMED_OUT] else []) +
        (if old(awaitingPlaylist) && !awaitingPlaylist then [PLAYLIST_TIMED_OUT] else [])
    {
      errors := [];
      if valid {
        if now - joinTime > INFO_TIMEOUT_MS {
          valid := false;
          errors := errors + [INFO_TIMED_OUT];
        }
      }
      if awaitingPlaylist {
        if now - requestTime > PLAYLIST_TIMEOUT_MS {
          awaitingPlaylist := false;
          errors := errors + [PLAYLIST_TIMED_OUT];
        }
      }
    }

    /** Party::PlaylistError */
    method PlaylistError(message: string) returns (outcome: Outcome)
      modifies this`valid, this`awaitingPlaylist
      ensures !valid && !awaitingPlaylist && outcome == Error(message)
    {
      valid := false;
      awaitingPlaylist := false;
      outcome := Error(message);
    }
  }

  /** The rest of the component's state that the handlers touch: the two
      directories, the setting dvars and the host's change detector. */
  class PartyState {
    var lobbyMap: map<nat, Address>       // Party::LobbyMap
    var xuidToAddress: map<nat, Address>  // Party::g_xuidToPublicAddressMap
    var settings: Settings                // the seven setting dvars
    var privateServer: bool               // xblive_privateserver
    var serverVersion: string             // Party::ServerVersion
    var wwwDownload: bool                 // sv_wwwDownload
    var wwwUrl: string                    // sv_wwwBaseUrl
    var lobbyCreateInProgress: bool       // *Game::g_lobbyCreateInProgress
    const lastValues: array<int>          // the change detector's lastValues[7]

    constructor ()
      ensures settings == DEFAULT_SETTINGS && SettingsInDomain(settings)
      ensures lobbyMap == map[] && xuidToAddress == map[]
      ensures fresh(lastValues) && lastValues[..] == [-1, -1, -1, -1, -1, -1, -1]
    {
      settings := DEFAULT_SETTINGS;
      lobbyMap, xuidToAddress := map[], map[];
      privateServer, serverVersion := false, "";
      wwwDownload, wwwUrl := false, "";
      lobbyCreateInProgress := false;
      lastValues := new int[7](_ => -1);
    }

    /** Party::RemoveLobby */
    method RemoveLobby(id: nat)
      modifies this`lobbyMap
      ensures lobbyMap == old(lobbyMap) - {id}
      ensures id !in lobbyMap
    {
      lobbyMap := lobbyMap - {id};
    }

    /** Party::GetLobbyInfo: the address and port registered for a lobby,
        printed with %d, which the reader gets back; "212" for an unknown
        lobby or key. */
    function LobbyInfo(id: nat, key: string): (r: string)
      reads this
      ensures id !in lobbyMap || (key != "addr" && key != "port") ==> r == "212"
      ensures id in lobbyMap && key == "port" && IsInt32(lobbyMap[id].port) ==>
                Strtol(r) == lobbyMap[id].port
      ensures id in lobbyMap && key == "addr" && lobbyMap[id].ip <= UINT32_MAX ==>
                Strtoul(r) == lobbyMap[id].ip
    {
      if id in lobbyMap && key == "addr" then SignedWordText(lobbyMap[id].ip)
      else if id in lobbyMap && key == "port" then PortText(lobbyMap[id].port)
      else "212"
    }
  }

  /** A 32-bit word printed with %d, that is, as a signed int. */
  function SignedWordText(w: nat): (r: string)
    ensures w <= UINT32_MAX ==> Strtoul(r) == w
  {
    var signed := if w > INT32_MAX then w - (UINT32_MAX + 1) else w;
    if w <= UINT32_MAX then
      StrtoulOfIntToString(signed);
      IntToString(signed)
    else IntToString(signed)
  }

  function PortText(port: nat): (r: string)
    ensures IsInt32(port) ==> Strtol(r) == port
  {
    if IsInt32(port) then
      StoiOfIntToString(port);
      IntToString(port)
    else IntToString(port)
  }

  /** The client state held by the container and the component state. */
  function ClientOf(c: JoinContainer, p: PartyState): ClientState
    reads c, p
  {
    ClientState(c.target, c.challenge, c.motd, c.joinTime, c.valid, c.downloadOnly, c.matchType,
                c.info, c.requestTime, c.awaitingPlaylist, p.lobbyMap, p.settings, p.privateServer,
                p.serverVersion, p.wwwDownload, p.wwwUrl, p.lobbyCreateInProgress)
  }

  /** Party::PlaylistContinue */
  method PlaylistContinue(c: JoinContainer, p: PartyState, lobbyId: nat, localIp: Option<LocalIp>)
    returns (outcome: Outcome)
    modifies c`awaitingPlaylist, c`target, p`privateServer, p`lobbyCreateInProgress, p`lobbyMap
    ensures var h := ContinueStep(old(ClientOf(c, p)), lobbyId, localIp);
      ClientOf(c, p) == h.state && outcome == h.outcome
    ensures lobbyId in p.lobbyMap && p.lobbyMap[lobbyId] == c.target && c.target.port == old(c.target.port)
    ensures old(c.target.loopback) && localIp.Some? ==> c.target.ip == localIp.value.ip && !c.target.loopback
  {
    p.privateServer := false;
    p.lobbyCreateInProgress := false;
    c.awaitingPlaylist := false;
    if c.target.loopback {
      if localIp.Some? {
        c.target := c.target.(ip := localIp.value.ip, text := localIp.value.text, loopback := false);
      }
    }
    p.lobbyMap := p.lobbyMap[lobbyId := c.target];
    outcome := JoinLobby(lobbyId, c.target);
  }

  /** The tail of the infoResponse handler once every check has passed;
      listed is false when it returns before the server list update. */
  method Admit(c: JoinContainer, p: PartyState, info: InfoString, now: int, local: LocalFacts)
    returns (outcome: Outcome, listed: bool)
    modifies c`motd, c`requestTime, c`awaitingPlaylist, c`target
    modifies p`privateServer, p`serverVersion, p`lobbyCreateInProgress, p`lobbyMap
    ensures var h := AdmitStep(old(ClientOf(c, p)), info, now, local);
      ClientOf(c, p) == h.state && outcome == h.outcome && listed == h.listed
  {
    listed := true;
    c.motd := info.svMotd;
    var matchType := ResponseMatchType(info);
    if matchType == DEDICATED_MATCH {
      var clients := Stoi(info.clients);
      var maxClients := Stoi(info.svMaxclients);
      if clients.None? || maxClients.None? {
        outcome := Error(INVALID_INFO);
        listed := false;
      } else if clients.value >= maxClients.value {
        outcome := Error(SERVER_FULL);
      } else {
        p.privateServer := true;
        p.serverVersion := info.version;
        outcome := JoinDedicated(c.target, info.mapname, info.gametype);
      }
    } else if matchType == PARTY_LOBBY {
      c.requestTime := now;
      c.awaitingPlaylist := true;
      outcome := RequestPlaylist(c.target, local.password, local.cgameInitialized);
    } else {
      outcome := PlaylistContinue(c, p, local.lobbyId, local.localIp);
    }
  }

  /** The writes the infoResponse handler makes before any check. */
  method Consume(c: JoinContainer, p: PartyState, info: InfoString)
    modifies c`valid, c`info, c`matchType, p`settings, p`wwwDownload, p`wwwUrl
    ensures ClientOf(c, p) == ConsumeStep(old(ClientOf(c, p)), info)
    ensures SettingsInDomain(old(p.settings)) ==> SettingsInDomain(p.settings)
  {
    SetSettingsInDomain(p.settings, SettingsFromResponse(info));
    c.valid := false;
    c.info := info;
    p.settings := SetSettings(p.settings, SettingsFromResponse(info));
    c.matchType := ResponseMatchType(info);
    if info.wwwDownload == "1" {
      p.wwwDownload := true;
      p.wwwUrl := info.wwwUrl;
    } else {
      p.wwwDownload := false;
      p.wwwUrl := "";
    }
  }

  /** The infoResponse handler. */
  method OnInfoResponse(c: JoinContainer, p: PartyState, sender: Address, info: InfoString, now: int, local: LocalFacts)
    returns (outcome: Outcome, listed: bool)
    modifies c, p
    ensures var h := InfoResponseStep(old(ClientOf(c, p)), sender, info, now, local);
      ClientOf(c, p) == h.state && outcome == h.outcome && listed == h.listed
    ensures p.xuidToAddress == old(p.xuidToAddress)
  {
    outcome := Ignored;
    listed := true;
    if c.valid && c.target == sender {
      Consume(c, p, info);
      var rejected := Rejection(info, c.challenge, c.downloadOnly, local);
      if rejected.Some? {
        outcome := rejected.value;
        listed := !outcome.MapNotInstalled?;
      } else {
        outcome, listed := Admit(c, p, info, now, local);
      }
    }
  }

  // ---------------------------------------------------------------------
  // Host side: the getInfo handler

  /** One entry of svs_clients as the getInfo handler classifies it. */
  datatype ClientSlot = ClientSlot(active: bool, hasClient: bool, testClient: bool, spectator: bool)

  predicate IsBot(s: ClientSlot) { s.active && s.hasClient && (s.testClient || s.spectator) }
  predicate IsReal(s: ClientSlot) { s.active && s.hasClient && !(s.testClient || s.spectator) }

  function CountBots(slots: seq<ClientSlot>): nat
  {
    if slots == [] then 0 else CountBots(slots[..|slots| - 1]) + (if IsBot(slots[|slots| - 1]) then 1 else 0)
  }

  function CountReal(slots: seq<ClientSlot>): nat
  {
    if slots == [] then 0 else CountReal(slots[..|slots| - 1]) + (if IsReal(slots[|slots| - 1]) then 1 else 0)
  }

  /** Every slot is counted at most once: as a bot, as a real client, or not
      at all when it is not active or has no game entity. */
  lemma {:induction false} CountsPartitionSlots(slots: seq<ClientSlot>)
    ensures CountBots(slots) + CountReal(slots) <= |slots|
    ensures (forall i :: 0 <= i < |slots| ==> slots[i].active && slots[i].hasClient) ==>
              CountBots(slots) + CountReal(slots) == |slots|
  {
    if slots != [] {
      CountsPartitionSlots(slots[..|slots| - 1]);
    }
  }

  datatype Counts = Counts(bots: int, effective: int, maxClients: int)

  /** What the host reads when it builds its answer to getinfo. */
  datatype HostFacts = HostFacts(
    hostname: string, gametype: string, fsGame: string, xuidHex: string,
    clients: seq<ClientSlot>,        // svs_clients[0 .. svs_clientCount)
    partyMaxPlayers: Option<int>,    // party_maxplayers; None when not registered
    partyMemberCount: int,           // PartyHost_CountMembers
    securityLevel: int,              // sv_securityLevel
    passwordDvarRegistered: bool,    // g_password is non-null
    protocol: int, version: string, now: int,
    mapname: string, uiMapname: string,
    hardcore: bool, dedicatedRunning: bool, aimAssist: bool, voiceChat: bool,
    settings: Settings,
    partyHost: bool, partyEnable: bool, svRunning: bool,
    loadedUserMapHash: Option<int>,  // the running user map's hash, if any
    uiMapIsUserMap: bool,            // Maps::IsUserMap(ui_mapname)
    lobbyUserMapHash: int,           // Maps::GetUsermapHash of the announced map name
    dedicatedEnabled: bool, svMotd: string,
    wwwDownload: bool, wwwUrl: string)

  /** Party::IsInLobby */
  predicate IsInLobby(f: HostFacts)
  {
    !f.dedicatedRunning && f.partyEnable && f.partyHost
  }

  /** The match type a host announces. */
  function ClassifyMatch(partyHost: bool, partyEnable: bool, svRunning: bool): (t: int)
    ensures t == PARTY_LOBBY <==> partyHost && partyEnable
    ensures t == PRIVATE_PARTY <==> partyHost && !partyEnable
    ensures t == DEDICATED_MATCH <==> !partyHost && svRunning
    ensures t == NO_MATCH <==> !partyHost && !svRunning
  {
    if partyHost then (if partyEnable then PARTY_LOBBY else PRIVATE_PARTY)
    else if svRunning then DEDICATED_MATCH
    else NO_MATCH
  }

  /** The counts the host reports: from the client slots while a server
      runs, from the party otherwise. */
  function HostCounts(f: HostFacts): Counts
  {
    if |f.clients| > 0 then Counts(CountBots(f.clients), CountReal(f.clients), |f.clients|)
    else Counts(0, f.partyMemberCount,
                if f.partyMaxPlayers.Some? then f.partyMaxPlayers.value else DEFAULT_MAX_CLIENTS)
  }

  /** The counting loop of the getInfo handler. */
  method CountClients(f: HostFacts) returns (counts: Counts)
    ensures counts == HostCounts(f)
  {
    var botCount := 0;
    var effectiveClientCount := 0;
    var maxClientCount := |f.clients|;
    if maxClientCount > 0 {
      var i := 0;
      while i < maxClientCount
        invariant 0 <= i <= maxClientCount
        invariant botCount == CountBots(f.clients[..i])
        invariant effectiveClientCount == CountReal(f.clients[..i])
      {
        assert f.clients[..i + 1][..i] == f.clients[..i];
        var slot := f.clients[i];
        if !slot.active || !slot.hasClient {
        } else if slot.testClient || slot.spectator {
          botCount := botCount + 1;
        } else {
          effectiveClientCount := effectiveClientCount + 1;
        }
        i := i + 1;
      }
      assert f.clients[..i] == f.clients;
    } else {
      maxClientCount := if f.partyMaxPlayers.Some? then f.partyMaxPlayers.value else DEFAULT_MAX_CLIENTS;
      effectiveClientCount := f.partyMemberCount;
    }
    counts := Counts(botCount, effectiveClientCount, maxClientCount);
  }

  function Flag(b: bool): string { if b then "1" else "0" }

  /** The seven settings as the host renders them. */
  function SettingsText(s: Settings): SettingTexts
  {
    seq(7, i requires 0 <= i < 7 => IntToString(s[i]))
  }

  /** The map name the host announces: ui_mapname in a lobby or when no map
      is loaded. */
  function AnnouncedMap(f: HostFacts): string
  {
    if f.mapname == "" || IsInLobby(f) then f.uiMapname else f.mapname
  }

  /** The user-map hash the host announces, if any. */
  function AnnouncedUserMapHash(f: HostFacts): string
  {
    if f.loadedUserMapHash.Some? then IntToString(f.loadedUserMapHash.value)
    else if IsInLobby(f) && f.uiMapIsUserMap then IntToString(f.lobbyUserMapHash)
    else ""
  }

  function ResponseWith(request: InfoString, f: HostFacts, counts: Counts): InfoString
  {
    InfoString(
      challenge := request.challenge,
      gamename := "IW4",
      hostname := f.hostname,
      gametype := f.gametype,
      fsGame := f.fsGame,
      xuid := f.xuidHex,
      clients := IntToString(counts.effective),
      bots := IntToString(counts.bots),
      svMaxclients := IntToString(counts.maxClients),
      protocol := IntToString(f.protocol),
      version := f.version,
      checksum := IntToString(f.now),
      mapname := AnnouncedMap(f),
      isPrivate := Flag(f.passwordDvarRegistered),
      hc := Flag(f.hardcore),
      securityLevel := IntToString(f.securityLevel),
      svRunning := Flag(f.dedicatedRunning),
      aimAssist := Flag(f.aimAssist),
      voiceChat := Flag(f.voiceChat),
      settings := SettingsText(f.settings),
      usermaphash := AnnouncedUserMapHash(f),
      svMotd := if f.dedicatedEnabled then f.svMotd else "",
      matchtype := IntToString(ClassifyMatch(f.partyHost, f.partyEnable, f.svRunning)),
      wwwDownload := Flag(f.wwwDownload),
      wwwUrl := f.wwwUrl,
      password := "")
  }

  /** The infoResponse a host sends back for a getinfo request. */
  function HostResponse(request: InfoString, f: HostFacts): InfoString
  {
    ResponseWith(request, f, HostCounts(f))
  }

  /** The getInfo handler: records the sender under its xuid (when
      non-zero) and answers. `requestXuid` is the request's hexadecimal xuid
      field, already parsed. */
  method OnGetInfo(p: PartyState, sender: Address, request: InfoString, requestXuid: nat, f: HostFacts)
    returns (response: InfoString)
    modifies p`xuidToAddress
    ensures p.xuidToAddress == if requestXuid != 0 then old(p.xuidToAddress)[requestXuid := sender]
                               else old(p.xuidToAddress)
    ensures response == HostResponse(request, f)
  {
    if requestXuid != 0 {
      p.xuidToAddress := p.xuidToAddress[requestXuid := sender];
    }
    var counts := CountClients(f);
    response := ResponseWith(request, f, counts);
  }

  predicate SettingsInt32(s: Settings)
  {
    forall i :: 0 <= i < 7 ==> IsInt32(s[i])
  }

  /** The host echoes the challenge, announces its match type so that the
      client reads it back unchanged, and carries its seven settings so that
      the client adopts them. */
  lemma HostResponseCarries(request: InfoString, f: HostFacts)
    requires SettingsInt32(f.settings)
    ensures var r := HostResponse(request, f);
      && r.challenge == request.challenge
      && ResponseMatchType(r) == ClassifyMatch(f.partyHost, f.partyEnable, f.svRunning)
      && SettingsFromResponse(r) == f.settings
  {
    var r := HostResponse(request, f);
    StoiOfIntToString(ClassifyMatch(f.partyHost, f.partyEnable, f.svRunning));
    forall i | 0 <= i < 7
      ensures SettingsFromResponse(r)[i] == f.settings[i]
    {
      StoiOfIntToString(f.settings[i]);
    }
  }

  /** The whole handshake with a dedicated server that has room: the host's
      answer to the client's own getinfo passes every check and joins that
      host with the map and game type it announced. */
  lemma DedicatedHandshakeJoins(s: ClientState, protocol: int, version: string, xuidHex: string,
                                f: HostFacts, now: int, local: LocalFacts)
    requires s.valid
    requires !f.partyHost && f.svRunning
    requires 0 <= f.securityLevel <= local.securityLevel && IsInt32(f.securityLevel)
    requires 0 < |f.clients| <= INT32_MAX && CountReal(f.clients) < |f.clients|
    requires f.mapname != "" && f.gametype != ""
    requires !f.passwordDvarRegistered || local.password != ""
    requires f.loadedUserMapHash.None?
    requires f.fsGame == local.fsGame
    requires local.mapInstalled
    ensures var h := InfoResponseStep(s, s.target, HostResponse(GetInfoRequest(s.challenge, protocol, version, xuidHex), f),
                                      now, local);
      && h.outcome == JoinDedicated(s.target, f.mapname, f.gametype)
      && h.state.privateServer && h.state.serverVersion == f.version && h.listed
  {
    var r := HostResponse(GetInfoRequest(s.challenge, protocol, version, xuidHex), f);
    StoiOfIntToString(DEDICATED_MATCH);
    StrtoulOfIntToString(f.securityLevel);
    CountsPartitionSlots(f.clients);
    StoiOfIntToString(CountReal(f.clients));
    StoiOfIntToString(|f.clients|);
    assert ChecksPass(r, s.challenge, local);
    RejectionIffChecksFail(r, s.challenge, s.downloadOnly, local);
  }

  // ---------------------------------------------------------------------
  // Host side: replication of the seven settings

  datatype PartyMember = PartyMember(status: int, xuid: nat)

  /** The recipient filter of BroadcastDvarUpdate. */
  predicate Eligible(m: PartyMember, localXuid: nat, directory: map<nat, Address>)
  {
    m.status != 0 && m.xuid != localXuid && m.xuid in directory && directory[m.xuid].text != "127.0.0.1"
  }

  /** The eligible members' addresses, in slot order. */
  function Recipients(members: seq<PartyMember>, localXuid: nat, directory: map<nat, Address>): seq<Address>
  {
    if members == [] then []
    else
      var last := members[|members| - 1];
      Recipients(members[..|members| - 1], localXuid, directory)
      + (if Eligible(last, localXuid, directory) then [directory[last.xuid]] else [])
  }

  /** How many slots BroadcastDvarUpdate scans. */
  function ScanLimit(maxPartyMembers: int): (n: nat)
    ensures 1 <= n <= PARTY_SLOTS
    ensures maxPartyMembers <= 0 ==> n == DEFAULT_PARTY_SIZE
    ensures 0 < maxPartyMembers ==> n == if maxPartyMembers < PARTY_SLOTS then maxPartyMembers else PARTY_SLOTS
  {
    var m := if maxPartyMembers <= 0 then DEFAULT_PARTY_SIZE else maxPartyMembers;
    if m < PARTY_SLOTS then m else PARTY_SLOTS
  }

  /** Who receives a dvarUpdate: nobody unless hosting a party that has
      members. */
  function BroadcastTargets(partyHost: bool, maxPartyMembers: int, memberCount: int,
                            members: seq<PartyMember>, localXuid: nat, directory: map<nat, Address>): seq<Address>
    requires |members| == PARTY_SLOTS
  {
    if !partyHost || memberCount <= 0 then []
    else Recipients(members[..ScanLimit(maxPartyMembers)], localXuid, directory)
  }

  /** An address receives the update exactly when some scanned slot holds
      an eligible member registered at that address. */
  lemma {:induction false} RecipientsExactly(members: seq<PartyMember>, localXuid: nat,
                                             directory: map<nat, Address>, a: Address)
    ensures a in Recipients(members, localXuid, directory) <==>
      exists j :: 0 <= j < |members| && Eligible(members[j], localXuid, directory)
                  && directory[members[j].xuid] == a
    ensures |Recipients(members, localXuid, directory)| <= |members|
  {
    if members != [] {
      var init := members[..|members| - 1];
      RecipientsExactly(init, localXuid, directory, a);
      if a in Recipients(init, localXuid, directory) {
        var j :| 0 <= j < |init| && Eligible(init[j], localXuid, directory) && directory[init[j].xuid] == a;
        assert members[j] == init[j];
      }
      if exists j :: 0 <= j < |members| && Eligible(members[j], localXuid, directory)
                     && directory[members[j].xuid] == a {
        var j :| 0 <= j < |members| && Eligible(members[j], localXuid, directory) && directory[members[j].xuid] == a;
        if j < |init| {
          assert init[j] == members[j];
        }
      }
    }
  }

  /** The dvarUpdate payload: the seven settings and nothing else. */
  function UpdatePayload(s: Settings): InfoString
  {
    EMPTY_INFO.(settings := SettingsText(s))
  }

  /** Party::BroadcastDvarUpdate: the payload and the addresses it is sent
      to, in slot order. */
  method BroadcastDvarUpdate(p: PartyState, partyHost: bool, maxPartyMembers: int, memberCount: int,
                             members: seq<PartyMember>, localXuid: nat)
    returns (payload: InfoString, sent: seq<Address>)
    requires |members| == PARTY_SLOTS
    ensures payload == UpdatePayload(p.settings)
    ensures sent == BroadcastTargets(partyHost, maxPartyMembers, memberCount, members, localXuid, p.xuidToAddress)
  {
    payload := UpdatePayload(p.settings);
    sent := [];
    if !partyHost {
      return;
    }
    var limit := maxPartyMembers;
    if limit <= 0 {
      limit := DEFAULT_PARTY_SIZE;
    }
    if memberCount <= 0 {
      return;
    }
    var i := 0;
    while i < limit
      invariant 0 <= i <= PARTY_SLOTS && i <= limit
      invariant sent == Recipients(members[..i], localXuid, p.xuidToAddress)
    {
      if i >= PARTY_SLOTS {
        break;
      }
      assert members[..i + 1][..i] == members[..i];
      var member := members[i];
      if member.status != 0 && member.xuid != localXuid && member.xuid in p.xuidToAddress {
        var targetAddr := p.xuidToAddress[member.xuid];
        if targetAddr.text != "127.0.0.1" {
          sent := sent + [targetAddr];
        }
      }
      i := i + 1;
    }
    assert i == ScanLimit(maxPartyMembers);
  }

  /** One pass of the host's settings loop: reads the seven setting dvars,
      copies every changed value into lastValues and, when at least one
      changed, broadcasts the payload built from the same dvars (an empty
      payload to no one otherwise). */
  method SettingsTick(p: PartyState, partyHost: bool, maxPartyMembers: int,
                      memberCount: int, members: seq<PartyMember>, localXuid: nat)
    returns (changed: bool, payload: InfoString, sent: seq<Address>)
    requires p.lastValues.Length == 7 && |members| == PARTY_SLOTS
    modifies p.lastValues
    ensures p.lastValues[..] == p.settings
    ensures changed == (old(p.lastValues[..]) != p.settings)
    ensures payload == if changed then UpdatePayload(p.settings) else EMPTY_INFO
    ensures sent == if changed then BroadcastTargets(partyHost, maxPartyMembers, memberCount, members, localXuid, p.xuidToAddress)
                    else []
  {
    var current := p.settings;
    changed := false;
    for i := 0 to 7
      invariant p.lastValues[..i] == current[..i]
      invariant forall k :: i <= k < 7 ==> p.lastValues[k] == old(p.lastValues[k])
      invariant changed == (old(p.lastValues[..i]) != current[..i])
    {
      assert old(p.lastValues[..i + 1]) == old(p.lastValues[..i]) + [old(p.lastValues[i])];
      assert current[..i + 1] == current[..i] + [current[i]];
      if current[i] != p.lastValues[i] {
        p.lastValues[i] := current[i];
        changed := true;
      }
    }
    assert current[..7] == current;
    payload, sent := EMPTY_INFO, [];
    if changed {
      payload, sent := BroadcastDvarUpdate(p, partyHost, maxPartyMembers, memberCount, members, localXuid);
    }
  }

  // ---------------------------------------------------------------------
  // Member side: the dvarUpdate handler

  /** Every non-empty setting value of the payload is a decimal int (the
      handler's std::stoi would throw otherwise). */
  predicate WellFormedUpdate(info: InfoString)
  {
    forall i :: 0 <= i < 7 ==> info.settings[i] == "" || Stoi(info.settings[i]).Some?
  }

  /** parseAndSetDvar for dvar i: an empty or absent value keeps the
      current one; any other is set, which the engine refuses outside the
      dvar's domain. */
  function ApplySetting(i: int, current: int, received: string): int
    requires 0 <= i < 7 && (received == "" || Stoi(received).Some?)
  {
    if received == "" then current else SetDvar(i, current, Stoi(received).value)
  }

  function ApplyDvarUpdate(local: Settings, info: InfoString): Settings
    requires WellFormedUpdate(info)
  {
    seq(7, i requires 0 <= i < 7 => ApplySetting(i, local[i], info.settings[i]))
  }

  /** The dvarUpdate handler. */
  method OnDvarUpdate(p: PartyState, info: InfoString)
    requires WellFormedUpdate(info)
    modifies p`settings
    ensures p.settings == ApplyDvarUpdate(old(p.settings), info)
    ensures SettingsInDomain(old(p.settings)) ==> SettingsInDomain(p.settings)
  {
    forall i | 0 <= i < 7 {
      ApplyKeepsAbsent(p.settings, info, i);
    }
    p.settings := ApplyDvarUpdate(p.settings, info);
  }

  /** Each setting is replaced by the payload's value when the payload has
      one within the dvar's domain, and kept otherwise; the settings stay
      within their domains. */
  lemma ApplyKeepsAbsent(local: Settings, info: InfoString, i: int)
    requires WellFormedUpdate(info) && 0 <= i < 7
    ensures info.settings[i] == "" ==> ApplyDvarUpdate(local, info)[i] == local[i]
    ensures info.settings[i] != "" && InDomain(i, Stoi(info.settings[i]).value) ==>
              ApplyDvarUpdate(local, info)[i] == Stoi(info.settings[i]).value
    ensures info.settings[i] != "" && !InDomain(i, Stoi(info.settings[i]).value) ==>
              ApplyDvarUpdate(local, info)[i] == local[i]
    ensures SettingsInDomain(local) ==> SettingsInDomain(ApplyDvarUpdate(local, info))
  {
  }

  /** Applying the same payload twice gives the state of applying it once. */
  lemma ApplyIdempotent(local: Settings, info: InfoString)
    requires WellFormedUpdate(info)
    ensures ApplyDvarUpdate(ApplyDvarUpdate(local, info), info) == ApplyDvarUpdate(local, info)
  {
  }

  /** A member that applies the host's broadcast holds the host's settings,
      whatever it held before. The host's settings are dvars, so they lie in
      their domains (SetSettingsInDomain, ApplyKeepsAbsent). */
  lemma BroadcastConverges(host: Settings, member: Settings)
    requires SettingsInDomain(host)
    ensures WellFormedUpdate(UpdatePayload(host))
    ensures ApplyDvarUpdate(member, UpdatePayload(host)) == host
  {
    forall i | 0 <= i < 7
      ensures Stoi(UpdatePayload(host).settings[i]) == Some(host[i])
    {
      StoiOfIntToString(host[i]);
    }
  }
}

=== FILE: text.dfy ===
/** Character and number conversions shared by the other modules.

    They follow the C library as the Windows build of the client uses it:
    the "C" locale's tolower, isalnum, isdigit and isspace; strtol and
    strtoul in base 10, where long and unsigned long are 32 bits wide;
    std::stoi; and std::to_string of an int. */
module Text {

  datatype Option<T> = None | Some(value: T)

  const INT32_MIN: int := -0x8000_0000
  const INT32_MAX: int := 0x7FFF_FFFF
  const UINT32_MAX: int := 0xFFFF_FFFF

  /** A byte of a std::string, as the unsigned char that the character
      functions are given. */
  type Byte = c: char | c as int < 256 witness 'a'

  predicate IsInt32(x: int) { INT32_MIN <= x <= INT32_MAX }

  predicate IsDigit(c: char) { '0' <= c <= '9' }
  predicate IsUpper(c: char) { 'A' <= c <= 'Z' }
  predicate IsAlnum(c: char) { IsDigit(c) || IsUpper(c) || 'a' <= c <= 'z' }
  predicate IsSpace(c: char) { c == ' ' || 9 <= c as int <= 13 }

  /** tolower in the "C" locale: only 'A'..'Z' change. */
  function Lower(c: char): char
  {
    if IsUpper(c) then (c as int + 32) as char else c
  }

  function ToLower(s: string): string
  {
    seq(|s|, i requires 0 <= i < |s| => Lower(s[i]))
  }

  /** _stricmp(a, b) == 0 */
  predicate EqualsIgnoreCase(a: string, b: string)
  {
    ToLower(a) == ToLower(b)
  }

  predicate StartsWith(s: string, prefix: string)
  {
    |prefix| <= |s| && s[..|prefix|] == prefix
  }

  predicate EndsWith(s: string, suffix: string)
  {
    |suffix| <= |s| && s[|s| - |suffix|..] == suffix
  }

  predicate AllDigits(s: string)
  {
    forall i :: 0 <= i < |s| ==> IsDigit(s[i])
  }

  /** The value of a decimal digit; 0 for any other character. */
  function DigitValue(c: char): nat
  {
    if IsDigit(c) then c as int - '0' as int else 0
  }

  function DigitChar(d: nat): char
  {
    if d < 10 then ('0' as int + d) as char else '0'
  }

  /** The value of a string of decimal digits, most significant first. */
  function DecimalValue(s: string): nat
  {
    if s == [] then 0 else 10 * DecimalValue(s[..|s| - 1]) + DigitValue(s[|s| - 1])
  }

  /** The shortest decimal rendering of n. */
  function NatToString(n: nat): string
  {
    if n < 10 then [DigitChar(n)] else NatToString(n / 10) + [DigitChar(n % 10)]
  }

  /** std::to_string(int) */
  function IntToString(x: int): string
  {
    if x < 0 then "-" + NatToString(-x) else NatToString(x)
  }

  /** The longest prefix of s made of decimal digits. */
  function LeadingDigits(s: string): string
  {
    if s != [] && IsDigit(s[0]) then [s[0]] + LeadingDigits(s[1..]) else []
  }

  function SkipSpace(s: string): string
  {
    if s != [] && IsSpace(s[0]) then SkipSpace(s[1..]) else s
  }

  /** What strtol, strtoul and stoi read in base 10: leading white space,
      an optional sign, then the longest run of digits. */
  datatype Scanned = Scanned(negative: bool, magnitude: nat, hasDigits: bool)
  {
    function Value(): int { if negative then 0 - magnitude else magnitude }
  }

  function ScanDecimal(s: string): Scanned
  {
    var t := SkipSpace(s);
    var signed := t != [] && (t[0] == '-' || t[0] == '+');
    var u := if signed then t[1..] else t;
    var d := LeadingDigits(u);
    Scanned(signed && t[0] == '-', DecimalValue(d), d != [])
  }

  /** strtol(s, nullptr, 10) with a 32-bit long: 0 when no digit is read,
      LONG_MIN or LONG_MAX when the value is out of range. */
  function Strtol(s: string): int
  {
    var sc := ScanDecimal(s);
    if !sc.hasDigits then 0
    else
      var v := sc.Value();
      if v < INT32_MIN then INT32_MIN else if v > INT32_MAX then INT32_MAX else v
  }

  /** strtoul(s, nullptr, 10) with a 32-bit unsigned long: a negative value
      wraps modulo 2^32, an out-of-range magnitude gives ULONG_MAX. */
  function Strtoul(s: string): nat
  {
    var sc := ScanDecimal(s);
    if !sc.hasDigits then 0
    else if sc.magnitude > UINT32_MAX then UINT32_MAX
    else if sc.negative && sc.magnitude > 0 then UINT32_MAX + 1 - sc.magnitude
    else sc.magnitude
  }

  /** std::stoi: None where it throws (no digits, or out of int range). */
  function Stoi(s: string): Option<int>
  {
    var sc := ScanDecimal(s);
    if !sc.hasDigits then None
    else
      var v := sc.Value();
      if IsInt32(v) then Some(v) else None
  }

  /** The three readers agree with the C library on their ranges: strtol
      stays within long, strtoul within unsigned long, and stoi fails
      exactly when no digit is read or the value is out of int range. */
  lemma ReadersInRange(s: string)
    ensures IsInt32(Strtol(s)) && Strtoul(s) <= UINT32_MAX
    ensures !ScanDecimal(s).hasDigits ==> Strtol(s) == 0 && Strtoul(s) == 0 && Stoi(s).None?
    ensures Stoi(s).Some? ==> IsInt32(Stoi(s).value) && Strtol(s) == Stoi(s).value
  {
  }

  lemma {:induction false} NatToStringDigits(n: nat)
    ensures |NatToString(n)| > 0 && AllDigits(NatToString(n))
    decreases n
  {
    if n >= 10 {
      NatToStringDigits(n / 10);
    }
  }

  lemma {:induction false} DecimalValueOfNatToString(n: nat)
    ensures DecimalValue(NatToString(n)) == n
    decreases n
  {
    if n >= 10 {
      var s := NatToString(n);
      assert s[..|s| - 1] == NatToString(n / 10);
      DecimalValueOfNatToString(n / 10);
    }
  }

  lemma {:induction false} LeadingDigitsOfDigits(s: string)
    requires AllDigits(s)
    ensures LeadingDigits(s) == s
  {
    if s != [] {
      LeadingDigitsOfDigits(s[1..]);
    }
  }

  /** Reading back what to_string wrote gives the value: the scan sees the
      sign and every digit of the rendering. */
  lemma ScanOfIntToString(x: int)
    ensures ScanDecimal(IntToString(x)) == Scanned(x < 0, if x < 0 then -x else x, true)
  {
    var s := IntToString(x);
    var m: nat := if x < 0 then -x else x;
    var d := NatToString(m);
    NatToStringDigits(m);
    assert SkipSpace(s) == s;
    LeadingDigitsOfDigits(d);
    DecimalValueOfNatToString(m);
    if x < 0 {
      assert s[1..] == d;
    }
  }

  /** std::stoi and strtol both invert std::to_string on every int. */
  lemma StoiOfIntToString(x: int)
    requires IsInt32(x)
    ensures Stoi(IntToString(x)) == Some(x)
    ensures Strtol(IntToString(x)) == x
  {
    ScanOfIntToString(x);
  }

  /** strtoul reads back the 32-bit word that %d printed as a signed int. */
  lemma StrtoulOfIntToString(x: int)
    requires IsInt32(x)
    ensures Strtoul(IntToString(x)) == if x < 0 then x + UINT32_MAX + 1 else x
  {
    ScanOfIntToString(x);
  }
}
